=== FILE: README.md ===
# Retro Snake: a verified model of the game rules and the local AI

This project models, in Dafny, the game logic of a browser Snake game with a
computer-controlled opponent. It covers:

- the grid and direction tables (`Config`, `Grid`);
- the snake entity (`SnakeModel`) and the food spawner (`FoodModel`);
- the single-snake session's state machine, frame gate, collisions and scoring (`GameSession`);
- the A* path finder, path reconstruction, the flood fill and the safe-move fallback
  (`AStar`, `AStarOptimal`, `Pathfinder`, with `Choice` for "first maximum"
  selection and `GridCount` for counting grid cells);
- the local AI move service: its decision cache, the response parser, legal
  moves, move scoring, mistakes and the random fallback (`AIService`, with
  `Text` for JavaScript's `trim`, `toUpperCase` and `includes`);
- the difficulty manager: metrics, streaks, the recent-game window, adaptive
  targets, smoothing and the skill estimate (`Difficulty`);
- the commentary gate: event priorities, the cooldown, response cleaning,
  canned comments, event details and the near-miss scan (`Commentary`).

Everything is pure functions over immutable datatypes. Random draws
(`Math.random`) are explicit `real` parameters in [0, 1). The index they select
is `Floor(r * n)` (`Common.PickIndex`). Clock readings are `int` parameters in
milliseconds. A remote model's answer is an `Option<string>` parameter, where
`None` stands for a failed or timed-out call. JavaScript numbers used as ratios
are exact `real`s, and `Math.round` is `Floor(x + 0.5)`.

The repository carries older copies of two core files. `dist/js/config.js` has
the same direction tables, grid, speed and player-snake constants as
`docs/js/config.js`. It has no AI snake, no AI settings and no AI snake colours;
its default settings carry `difficulty: 'MEDIUM'` with commentary off, where
the newer file carries `aiDifficulty: 'medium'` with commentary on; and its
collision set is the single-snake one (`Config.SingleSnakeCollisionCount`).
From `parseResponse` to `setDifficulty`, the local decision functions in
`docs/js/ai-service.js` match those in `js/ai-service.js` two lines further
down. `getAIMove` is the exception: its copy in `docs/js/ai-service.js` sits at
line 81, three lines above `js/ai-service.js:84`. It also tests `this.client`
(line 91) where the newer file tests `this.credentials` (line 94). `setEnabled`
differs in the same way (`docs/js/ai-service.js:410` against
`js/ai-service.js:408`). In the model, `AIService.Service`'s `hasCredentials`
field stands for `this.client` being set in the older copy and for
`this.credentials` being set in the newer one. One set of members models both
copies, and the table cites the newer one.

## Model

| member | source | states |
|---|---|---|
| Config.ScanIndex | docs/js/config.js:45-50 | every direction has a position in the scan order UP, DOWN, LEFT, RIGHT |
| Config.Vector | docs/js/config.js:106-111 | every direction's unit vector has Manhattan length 1 |
| Config.Opposite | docs/js/config.js:114-119 | the opposite of a direction is a different direction whose vector is the negated vector |
| Config.OppositeIsInvolution | docs/js/config.js:114-119 | taking the opposite twice gives back the direction |
| Config.VectorInjective | docs/js/config.js:106-111 | two directions have equal vectors exactly when they are equal |
| Config.FromName | docs/js/config.js:45-50 | a name maps to the direction carrying that name, and to nothing when no direction has it |
| Config.NameRoundTrip | docs/js/config.js:45-50 | parsing a direction's name gives back the direction |
| Config.SingleSnakeCollisionCount | dist/js/config.js:104-109 | the single-snake collision outcomes are exactly four, none of them a snake-versus-snake hit |
| Config.CanvasMatchesGrid | docs/js/config.js:5-8 | grid size times cell size equals the canvas width and height |
| Config.SpeedAfter | docs/js/config.js:11-13 | the frame delay after any number of foods stays between the minimum and the initial speed |
| Config.SpeedStep | docs/js/config.js:11-13 | one food lowers a delay above the minimum by the increment, never below the minimum |
| Config.SpeedAfterClosedForm | docs/js/config.js:11-13 | after k foods the delay is the larger of 80 and 150 - 5k |
| Config.MinSpeedReachedAfterFourteen | docs/js/config.js:11-13 | the delay reaches the minimum exactly from the 14th food on |
| Grid.Step | docs/js/config.js:106-111 | stepping in a direction moves by that direction's vector, one cell away |
| Grid.Manhattan | js/ai-pathfinding.js:129-131 | the heuristic distance is zero exactly when the cells coincide |
| Grid.ManhattanSymmetric | js/ai-pathfinding.js:129-131 | the heuristic is symmetric |
| Grid.ManhattanTriangle | js/ai-pathfinding.js:129-131 | the heuristic obeys the triangle inequality |
| Grid.AdjacentIsStep | js/ai-pathfinding.js:139-159 | two cells are neighbours exactly when one direction steps from the first to the second |
| Grid.Shift | js/snake.test.js:113-151 | k steps in one direction move a cell k cells away |
| SnakeModel.NewSnake | docs/js/snake.js:5-37 | a new snake has INITIAL_LENGTH segments laid out behind the head against its direction, is connected, alive and not yet moved |
| SnakeModel.Move | docs/js/snake.js:42-70 | a dead snake is unchanged; a live snake takes the queued direction, gains a new head one step ahead and drops its tail, keeping its length |
| SnakeModel.MovePreservesConnected | docs/js/snake.js:42-70 | moving keeps consecutive segments adjacent |
| SnakeModel.MoveN | docs/js/snake.js:42-70 | repeated moves keep aliveness and length |
| SnakeModel.MovesDisplaceHead | js/snake.test.js:113-151 | n moves in a fixed direction displace the head by exactly n steps in that direction |
| SnakeModel.Grow | docs/js/snake.js:75-85 | a dead snake is unchanged; a live one gains one segment that copies the tail, with every other field unchanged |
| SnakeModel.GrowN | docs/js/snake.js:75-85 | repeated growth keeps aliveness |
| SnakeModel.GrowNLength | js/snake.test.js:157-175 | k growths add exactly k segments and keep the old body as a prefix |
| SnakeModel.GrowThenMoveKeepsTail | docs/js/snake.js:42-85 | growing then moving gives the plain move's body plus the old tail |
| SnakeModel.SetDirection | docs/js/snake.js:91-113 | a dead snake or an unknown name changes nothing; after the first move a reversal is refused; otherwise the named direction is queued, and the body, direction and flags never change |
| SnakeModel.SetDirectionKeepsNoReversal | docs/js/snake.js:102-111 | a moved snake never has the reverse of its direction queued, before or after a request |
| SnakeModel.MoveEstablishesNoReversal | docs/js/snake.js:42-70 | moving keeps the no-queued-reversal invariant |
| SnakeModel.GrowKeepsNoReversal | docs/js/snake.js:75-85 | growing keeps the no-queued-reversal invariant |
| SnakeModel.SetDirections | docs/js/snake.js:91-113 | a run of direction requests changes only the queued direction |
| SnakeModel.SetDirectionsKeepInvariant | js/snake.test.js:83-107 | a run of direction requests keeps the no-queued-reversal invariant |
| SnakeModel.NoReversalAfterRequests | js/snake.test.js:83-107 | whatever is requested between two moves, a moved snake never turns back onto its own direction |
| SnakeModel.HeadHitsFrom | docs/js/snake.js:119-134 | the scan from index i finds the head exactly when some later segment equals it |
| SnakeModel.CheckSelfCollision | docs/js/snake.js:119-134 | a self collision is reported exactly when the snake is alive, has at least two segments and its head equals a later segment |
| SnakeModel.OccupiesPosition | docs/js/snake.js:166-168 | a cell is occupied exactly when some segment is on it |
| SnakeModel.Reset | docs/js/snake.js:181-200 | a reset snake is the initial snake (10,10),(9,10),(8,10) heading RIGHT, alive and not yet moved |
| SnakeModel.InitialSnakesInBounds | docs/js/config.js:66-80 | both initial snakes lie entirely inside the grid |
| SnakeModel.ReverseBeforeFirstMoveBitesBody | docs/js/snake.js:102-111 | for any reset snake, a reversal requested before its first move is accepted, and the next move puts the head on the body |
| FoodModel.ValidDrawInBounds | docs/js/food.js:101-106 | a pair of draws in [0, 1) selects a cell inside the grid |
| FoodModel.IsPositionOccupied | docs/js/food.js:51-55 | a cell is occupied exactly when it is in the avoid list |
| FoodModel.NewFood | docs/js/food.js:5-7 | a new food sits at (0, 0), a cell on the grid |
| FoodModel.IsValidPosition | docs/js/food.js:113-116 | a cell is valid exactly when both coordinates lie in [0, 20) |
| FoodModel.Spawn | docs/js/food.js:19-43 | spawning uses between 1 and 100 draws, lands on the last draw used, every earlier draw was occupied, and stopping early means the cell is free |
| FoodModel.SpawnFrom | docs/js/food.js:21-38 | the attempt loop keeps the same facts from any number of failed attempts |
| FoodModel.SpawnInBounds | docs/js/food.js:25-28 | with valid draws the food is always inside the grid |
| FoodModel.SpawnPicksFirstFreeDraw | docs/js/food.js:33-36 | when some draw within the budget is free, the food lands on the first free one and is off the avoid list |
| FoodModel.SpawnExhaustedKeepsLastDraw | docs/js/food.js:38-42 | when all 100 draws are occupied the food takes the 100th, which is occupied |
| FoodModel.IsAt | docs/js/food.js:71-73 | the food is at a cell exactly when its position equals it |
| FoodModel.SetPosition | docs/js/food.js:88-95 | an in-grid cell becomes the position; an off-grid one leaves the food unchanged |
| GameSession.SpawnFood | docs/js/game.js:234-237 | only the food changes; it lands on one of the first 100 draws, every earlier draw was on the snake's body, and it is off the body unless all 100 attempts were used |
| GameSession.NewGame | docs/js/game.js:7-45 | a new session is at START, not running, with score 0, the initial speed, the initial snake, no last update and the stored high score, and the food at the first of the 100 draws that missed the snake's body (the last draw when none did), off the body unless every draw landed on it |
| GameSession.StartGame | docs/js/game.js:50-58 | START becomes PLAYING and running with the current time; any other state is unchanged |
| GameSession.Pause | docs/js/game.js:63-68 | PLAYING becomes PAUSED; any other state is unchanged |
| GameSession.Resume | docs/js/game.js:73-79 | PAUSED becomes PLAYING with the current time; any other state is unchanged |
| GameSession.Reset | docs/js/game.js:84-105 | from any state: START, not running, score 0, initial speed and snake, high score kept, and the food at the first of the 100 draws that missed the snake's body (the last draw when none did), off the body unless every draw landed on it |
| GameSession.SetPlayerDirection | docs/js/game.js:311-313 | a direction request in any state changes at most the snake's queued direction, and an unknown name changes nothing |
| GameSession.SetPlayerDirectionPreservesValid | docs/js/game.js:311-313 | a direction request keeps the session invariant and never queues a reversal on a snake that has moved |
| GameSession.CheckCollisions | docs/js/game.js:171-191 | the outcome is one of the four single-snake outcomes: WALL iff the head is off the grid, else SELF iff the snake bites itself, else FOOD iff the head is on the food |
| GameSession.HandleFoodCollision | docs/js/game.js:196-212 | eating adds one point, grows the snake, and lowers the delay by one step without passing the minimum; the new food is placed against the grown body, at the first of the 100 draws that missed it (the last draw when none did), off the body unless every draw landed on it |
| GameSession.HandleGameOver | docs/js/game.js:217-229 | game over stops the loop, keeps the score and raises the high score to the score when it is higher |
| GameSession.Update | docs/js/game.js:129-229 | outside PLAYING nothing changes; otherwise the snake moves, and then NONE leaves exactly the moved game; FOOD adds a point, grows the moved snake, steps the speed down, keeps the high score and places food off the grown body unless all 100 draws land on the body; WALL or SELF ends the game with the moved snake, food and speed kept and the high score raised to the score if beaten |
| GameSession.Frame | docs/js/game.js:110-124 | a frame updates once, and only when the loop runs and at least the current delay has passed |
| GameSession.NewGameValid | docs/js/game.js:7-45 | a new session satisfies the session invariant (length = 3 + score, delay fixed by the score, live snake, running iff playing or paused) |
| GameSession.ControlsPreserveValid | docs/js/game.js:50-105 | start, pause, resume and reset keep the session invariant |
| GameSession.FramePreservesValid | docs/js/game.js:110-145 | every frame keeps the session invariant |
| GameSession.UpdatePreservesValid | docs/js/game.js:129-145 | every update while playing keeps the session invariant |
| GameSession.FrameSpeedMonotone | docs/js/game.js:196-212 | a frame never raises the delay and never takes it below the minimum |
| GameSession.EatAheadScenario | docs/js/game.js:129-212 | on the first tick after start, a fresh snake with food right ahead scores 1, grows to 4 and receives new food on the first free draw |
| GameSession.WallScenario | docs/js/game.js:171-229 | a head off the grid is a wall hit, and the game over keeps the high score exactly when the score does not beat it |
| Choice.FirstArgMax | js/ai-service.js:230-239 | the chosen element has a maximal score, and every element before it scores strictly less |
| Choice.FirstMaximalWins | js/ai-service.js:230-239 | when the first element's score is maximal it is chosen |
| Choice.FirstArgMaxBeatsEarlier | js/ai-pathfinding.js:283-289 | every element ranked before the chosen one scores strictly less |
| AStar.PositionToDirection | js/ai-pathfinding.js:216-226 | for a neighbouring cell the direction steps onto it; for other cells the fallback is RIGHT unless one coordinate differs by one |
| AStar.DirectionOfStep | js/ai-pathfinding.js:216-226 | the direction of a one-step move is that step's direction |
| AStar.Neighbors | js/ai-pathfinding.js:139-159 | at most four cells, exactly the in-grid neighbours, in UP, DOWN, LEFT, RIGHT order |
| AStar.HeuristicAdmissible | js/ai-pathfinding.js:129-131 | the heuristic never exceeds the number of steps of a path |
| AStar.LowestFScore | js/ai-pathfinding.js:167-180 | the selected open cell has no lower f-score (missing or zero counting as infinity) and strictly beats every earlier cell |
| AStar.RemoveFirst | js/ai-pathfinding.js:43-47 | removing the selected cell drops exactly that cell from a duplicate-free open list |
| AStar.Relax | js/ai-pathfinding.js:56-80 | a closed or obstacle neighbour changes nothing; otherwise it is open with a cost at most one more than the current cell's |
| AStar.RelaxAll | js/ai-pathfinding.js:52-80 | relaxing all neighbours adds only free neighbours to the open list and keeps closed costs |
| AStar.Close | js/ai-pathfinding.js:43-48 | expanding a cell adds it to the closed set |
| AStar.Expand | js/ai-pathfinding.js:43-80 | one expansion closes the selected cell and opens only free in-grid neighbours of it |
| AStar.ReconstructPath | js/ai-pathfinding.js:188-199 | following the parent links ends at the given cell, starts at a cell without a parent, and each cell's parent precedes it |
| AStar.RelaxKeepsRanked | js/ai-pathfinding.js:70-78 | relaxation keeps each parent's cost below its child's, so the parent links never cycle |
| AStar.RelaxAllKeepsRanked | js/ai-pathfinding.js:52-80 | relaxing all neighbours keeps the parent links acyclic |
| AStar.ExpandKeepsRanked | js/ai-pathfinding.js:43-80 | an expansion keeps the parent links acyclic |
| AStar.SearchFromStops | js/ai-pathfinding.js:30-83 | an empty open list or 1000 expansions ends the search with no path |
| AStar.SearchFrom | js/ai-pathfinding.js:30-83 | the loop returns no path once the open list is empty or the iteration cap is reached, and any path it returns ends at the goal |
| AStar.SearchFromFinds | js/ai-pathfinding.js:38-40 | when the selected cell is the goal the search returns the reconstructed path |
| AStar.SearchFromContinues | js/ai-pathfinding.js:43-80 | otherwise the search expands the selected cell and continues |
| AStar.SearchFromIsPath | js/ai-pathfinding.js:17-84 | every path the loop reports is a valid path from start to goal |
| AStar.FindPath | js/ai-pathfinding.js:17-84 | a reported path is valid (adjacent steps, in the grid, off obstacles after the start), is at least heuristic + 1 long, and start = goal gives the one-cell path |
| AStar.InitialCore | js/ai-pathfinding.js:17-28 | the initial search satisfies the search invariant |
| AStar.InitialSearch | js/ai-pathfinding.js:17-26 | the search starts with only the start open, nothing closed, no parent links, g = 0 and f = the heuristic at the start |
| AStar.CloseKeepsCore | js/ai-pathfinding.js:43-48 | closing a cell keeps the search invariant |
| AStar.RelaxKeepsCore | js/ai-pathfinding.js:56-80 | relaxing a neighbour keeps the search invariant |
| AStar.RelaxAllKeepsCore | js/ai-pathfinding.js:52-80 | relaxing all neighbours keeps the search invariant |
| AStar.ExpandKeepsCore | js/ai-pathfinding.js:43-80 | an expansion keeps the search invariant |
| AStar.ReconstructedIsPath | js/ai-pathfinding.js:188-199 | a reconstructed path is a valid path from the start to the cell |
| AStar.PathStaysInRegion | js/ai-pathfinding.js:17-84 | a valid path never leaves a region that free moves cannot leave |
| AStar.PathEndsInRegion | js/ai-pathfinding.js:17-84 | such a path ends inside the region |
| AStar.NoPathOutOfRegion | js/ai-pathfinding.js:17-84 | no path is found to a goal outside a region around the start that free moves cannot leave |
| AStar.BlockedGoalHasNoPath | js/ai-pathfinding.js:56-58 | a goal that is an obstacle, or a non-adjacent goal walled in by obstacles, has no path |
| AStarOptimal.CoreBasics | js/ai-pathfinding.js:17-84 | the search invariant gives the cost and f-score facts the optimality proof uses |
| AStarOptimal.CornerFacts | js/ai-pathfinding.js:129-131 | the canonical monotone path from start to goal stays in the grid and moves one cell per step |
| AStarOptimal.FrontierFrom | js/ai-pathfinding.js:17-84 | on an empty grid some open cell always has f-score equal to the start's heuristic |
| AStarOptimal.FrontierCell | js/ai-pathfinding.js:17-84 | the first unclosed cell of the canonical path is open with f-score equal to the start's heuristic |
| AStarOptimal.Frontier | js/ai-pathfinding.js:17-84 | with an exact search state such an open cell exists |
| AStarOptimal.SelectedOnShortestPath | js/ai-pathfinding.js:167-180 | the cell A* selects has exact cost and lies on a shortest path |
| AStarOptimal.SelectedFromFrontier | js/ai-pathfinding.js:167-180 | a lowest-f selection never picks a cell off a shortest path |
| AStarOptimal.RelaxLowersOpen | js/ai-pathfinding.js:70-78 | relaxation never raises the cost of an open cell |
| AStarOptimal.RelaxAllReaches | js/ai-pathfinding.js:52-80 | after relaxing all neighbours every unclosed neighbour is open at cost at most one more |
| AStarOptimal.ExpandReaches | js/ai-pathfinding.js:43-80 | an expansion reaches every unclosed neighbour of the expanded cell |
| AStarOptimal.ExactStep | js/ai-pathfinding.js:43-80 | expanding a cell on a shortest path keeps the search exact |
| AStarOptimal.ExpandKeepsFree | js/ai-pathfinding.js:30-80 | each expansion on an empty grid keeps the search exact and closes one more cell |
| AStarOptimal.FreeSearch | js/ai-pathfinding.js:30-84 | on an empty grid of at most 1000 cells the search finds a path of at most heuristic + 1 cells |
| AStarOptimal.FreeBelowCap | js/ai-pathfinding.js:30 | on a grid of at most 1000 cells an exact search has closed fewer than 1000 cells, so the cap does not stop it |
| AStarOptimal.FreeGoalFound | js/ai-pathfinding.js:37-40 | selecting the goal returns a path of at most heuristic + 1 cells |
| AStarOptimal.FreeStepOn | js/ai-pathfinding.js:41-82 | selecting another cell keeps the invariant, closes one more cell and continues the same search |
| AStarOptimal.FreeGridPathIsShortest | js/ai-pathfinding.js:6-84 | on an empty grid of at most 1000 cells the path found is exactly heuristic + 1 long |
| AStarOptimal.GameGridPathIsShortest | js/ai-pathfinding.js:6-84 | on the empty 20 x 20 game grid the path found is a shortest one |
| Pathfinder.BodyTail | js/ai-pathfinding.js:95-121 | the obstacles from a body are its segments other than the head |
| Pathfinder.GetNextMove | js/ai-pathfinding.js:95-121 | no move exactly when no path exists or start = goal; otherwise the move steps onto the path's second cell, which is in the grid and free |
| Pathfinder.NextMoveApproachesGoal | js/ai-pathfinding.js:95-121 | on an empty board a move always exists and brings the head one cell closer to the goal |
| Pathfinder.ShortestPathFirstStep | js/ai-pathfinding.js:95-121 | the second cell of a shortest path is one cell closer to the goal |
| Pathfinder.Unvisited | js/ai-pathfinding.js:325-331 | the queued neighbours are exactly the unvisited, non-obstacle ones |
| Pathfinder.FloodFill | js/ai-pathfinding.js:312-334 | the fill counts each visited cell once, at most 50, visits every queued cell unless capped, and below the cap reaches every free cell next to a visited one |
| Pathfinder.VisitKeepsFrontier | js/ai-pathfinding.js:320-331 | counting the queue front and queueing its unvisited free neighbours leaves every free neighbour of a counted cell counted or queued, and every queued cell the seed or free |
| Pathfinder.OpenSpace | js/ai-pathfinding.js:300-335 | the fill from the cell entered counts between 1 and 50 cells, all free and in the grid except the entered cell |
| Pathfinder.ScoreOpenSpace | js/ai-pathfinding.js:300-335 | the open-space score lies between 1 and 50 |
| Pathfinder.SmallOpenSpaceIsEnclosed | js/ai-pathfinding.js:300-335 | a score below 50 means no path leads from the cell entered to any cell the fill did not count |
| Pathfinder.SafeMoves | js/ai-pathfinding.js:260-276 | the candidates are exactly the non-reversing, in-grid, obstacle-free moves, in UP, DOWN, LEFT, RIGHT order |
| Pathfinder.SafeMoveObstacles | js/ai-pathfinding.js:238-243 | the obstacles are the whole player body and the AI body without its head |
| Pathfinder.FindSafeMove | js/ai-pathfinding.js:237-290 | no move exactly when no candidate exists; otherwise a candidate with maximal open space, and every earlier candidate scores strictly less |
| Pathfinder.MostOpenMove | js/ai-pathfinding.js:280-289 | the chosen move is safe, no safe move has more open space, and every earlier safe move has strictly less |
| Text.LeadingSpaces | js/ai-service.js:191 | the leading white-space run ends at the first non-space character |
| Text.TrailingStart | js/ai-service.js:191 | the trailing white-space run starts after the last non-space character |
| Text.Trim | js/ai-service.js:191 | trimmed text is no longer and neither starts nor ends with white space |
| Text.TrimStripsPadding | js/ai-service.js:191 | white-space padding around text without white space at its ends is exactly what trimming removes |
| Text.TrimKeepsInner | docs/js/commentary.js:255 | trimming text without white space at its ends changes nothing |
| Text.ToUpper | js/ai-service.js:191 | upper-casing maps each character and keeps the length |
| Text.ToLower | js/ai-service.js:191 | lower-casing maps each character and keeps the length |
| Text.ToUpperFacts | js/ai-service.js:191 | upper-casing yields upper-case text, undoes lower-casing and leaves upper-case text alone |
| Text.UpperKeepsSpace | js/ai-service.js:191 | case mapping keeps white space |
| Text.Contains | js/ai-service.js:199-204 | a text includes a token exactly when some window of the text equals it |
| AIService.ParseResponse | js/ai-service.js:189-211 | no direction exactly when the normalized text contains no direction name; otherwise the first direction in scan order whose name it contains |
| AIService.ScanTokens | js/ai-service.js:199-204 | the substring scan returns the first direction in scan order whose name occurs |
| AIService.NotContainedByFirst | js/ai-service.js:199-204 | a text lacking a token's first character does not contain the token |
| AIService.ExactTokenScans | js/ai-service.js:194-197 | an exact direction name is recognized as that direction |
| AIService.ParseNormalized | js/ai-service.js:189-197 | text that normalizes to a direction's name parses to that direction |
| AIService.NameIsUpper | js/ai-service.js:191 | direction names are upper case, and upper-casing their lower-case forms restores them |
| AIService.ParseResponseRoundTrip | js/ai-service.js:189-197 | a direction's name with any white-space padding parses back to that direction |
| AIService.ParseResponseLowerCase | js/ai-service.js:189-197 | a lower-case direction name with white-space padding parses to that direction |
| AIService.ParseResponseRejects | js/ai-service.js:199-206 | text containing no direction name is rejected |
| AIService.GetPossibleMoves | js/ai-service.js:249-288 | the legal moves are exactly the non-reversing moves onto free in-grid cells, in scan order, never the reverse |
| AIService.ScoreMoveRanks | js/ai-service.js:297-325 | with the other terms equal, a closer food wins; distance from the player's head counts twice |
| AIService.ScoreMove | js/ai-service.js:297-325 | on the 20 × 20 board, with the food and the player's head on it, a move into the grid scores between 62 and 196 |
| AIService.ScoreMoveBounds | js/ai-service.js:297-325 | on the game grid every score lies between 62 and 196 |
| AIService.GetLocalAIMove | js/ai-service.js:218-240 | with no legal move the current direction; otherwise a legal move of maximal score, earliest in scan order on ties |
| AIService.LocalMoveWithoutOptions | js/ai-service.js:369-382 | with no legal move both the local move and the random move are the current direction |
| AIService.Without | js/ai-service.js:353 | the alternatives are the moves other than the optimal one |
| AIService.ApplyMistake | js/ai-service.js:343-362 | the result is the optimal move or a different legal move; a draw at or above the rate or a lack of alternatives keeps the optimal move; a draw below the rate with alternatives changes it |
| AIService.GetSafeRandomMove | js/ai-service.js:369-382 | a legal move when one exists, else the current direction |
| AIService.MistakeRate | js/ai-service.js:23-39 | each level's mistake rate is a probability below 1 |
| AIService.MistakeRateOrder | js/ai-service.js:23-39 | hard makes fewer mistakes than medium, and medium fewer than easy |
| AIService.NewService | js/ai-service.js:5-22 | a new service is disabled, has no credentials and no cached move, and is at the medium level |
| AIService.BaseMove | js/ai-service.js:91-106 | without an enabled, credentialed service the local move is used; a parsable remote answer is used as given |
| AIService.GetAIMove | js/ai-service.js:84-117 | within 150 ms of a cached move it is returned with nothing changed; otherwise the move is the base move or a legal alternative and is cached with the current time; the mistake rate is the given one, else the level's; a draw at or above it keeps the base move, and a draw below it changes the move whenever a different legal move exists |
| AIService.CachedMoveRepeats | js/ai-service.js:86-89 | any request within 150 ms of a computed move returns that move |
| AIService.HardLevelMakesNoMistake | js/ai-service.js:108-114 | at the hard level the base move is returned unaltered |
| AIService.DisabledServiceIsLocal | js/ai-service.js:94-106 | a disabled service answers with the local move or a legal alternative to it |
| AIService.SetDifficulty | js/ai-service.js:388-393 | a known level is selected; any other name changes nothing |
| AIService.LevelOf | js/ai-service.js:23-39 | a level name maps to the level carrying it, and to nothing otherwise |
| AIService.SetDifficultyRoundTrip | js/ai-service.js:388-393 | selecting a level by its name selects that level |
| AIService.SetDifficultyAsWritten | js/ai-service.js:388-393 | as written, a known level or an inherited property name is stored; other names are ignored |
| AIService.MistakeRateAsWritten | js/ai-service.js:108-110 | as written, a known level's rate is found; an inherited name finds none |
| AIService.MistakeDrawnAsWritten | js/ai-service.js:343-347 | comparing a draw against a missing rate never makes a mistake |
| AIService.InheritedLevelAccepted | js/ai-service.js:388-393 | "constructor" is stored as a level as written and then disables mistakes, while the corrected model ignores it |
| AIService.SetEnabled | js/ai-service.js:407-410 | the service is enabled exactly when asked and credentials exist; nothing else changes |
| AIService.NoCredentialsNoRemote | js/ai-service.js:94-106 | without credentials the service stays disabled and always uses the local move |
| Difficulty.ModeOf | docs/js/difficulty.js:7-12 | a mode name maps to the mode carrying it, and to nothing otherwise |
| Difficulty.ModeNameRoundTrip | docs/js/difficulty.js:7-12 | parsing a mode's name gives back the mode |
| Difficulty.PresetOf | docs/js/difficulty.js:18-34 | each fixed preset has speed 100, 150 or 200, within the speed, aggression and mistake bounds |
| Difficulty.PresetsOrdered | docs/js/difficulty.js:18-34 | harder presets are faster, more aggressive and make fewer mistakes |
| Difficulty.EmptyMetrics | docs/js/difficulty.js:68-76 | fresh metrics record no games and are consistent |
| Difficulty.Record | docs/js/difficulty.js:126-159 | a game adds one play, a win if won, its score and time; a win extends the streak and the best streak, a loss zeroes the streak; the game joins the end of the window of at most 10, dropping the oldest |
| Difficulty.RecordKeepsConsistent | docs/js/difficulty.js:126-159 | recording keeps streak ≤ best streak ≤ wins ≤ games and at most 10 recent games |
| Difficulty.Wins | docs/js/difficulty.js:194-199 | a history has no more wins than games |
| Difficulty.LastN | docs/js/difficulty.js:151-159 | the window is no longer than n or the history |
| Difficulty.ReplayCounts | docs/js/difficulty.js:130-138 | after recording a history the counters equal its length, its wins and its total score |
| Difficulty.ReplayStreaks | docs/js/difficulty.js:141-148 | after recording a history the streak is its trailing run of wins and the best streak its longest run |
| Difficulty.ReplayRecent | docs/js/difficulty.js:151-159 | after recording a history the window holds its last 10 games in order |
| Difficulty.LastNPush | docs/js/difficulty.js:151-159 | appending a game slides the last-ten window: the oldest entry is dropped once ten are held |
| Difficulty.ReplayConsistent | docs/js/difficulty.js:126-170 | any recorded history gives consistent metrics |
| Difficulty.WinRate | docs/js/difficulty.js:176-179 | the win rate is 0 with no games, else wins divided by games, at most 1 |
| Difficulty.WinRateMonotone | docs/js/difficulty.js:176-179 | over the same number of games, more wins never lower the win rate |
| Difficulty.Ratio | docs/js/difficulty.js:176-199 | a ratio times its denominator is its numerator, within [0, 1] for a part of a whole |
| Difficulty.AvgScore | docs/js/difficulty.js:185-188 | the average is 0 with no games, else total score divided by games |
| Difficulty.AvgScoreMonotone | docs/js/difficulty.js:185-188 | over the same number of games, more points never lower the average |
| Difficulty.RecentPerformance | docs/js/difficulty.js:194-199 | the recent rate is the share of wins in the window, 0 when empty, within [0, 1] |
| Difficulty.Clamp | docs/js/difficulty.js:223-224 | the clamped speed lies in bounds and equals the input when it already does |
| Difficulty.AdaptiveSpeed | docs/js/difficulty.js:205-225 | the adaptive speed always lies between 110 and 190 |
| Difficulty.AdaptiveSpeedMonotone | docs/js/difficulty.js:205-225 | better rates never give a slower game |
| Difficulty.AdaptiveSpeedExtremes | docs/js/difficulty.js:210-219 | a strong player gets 110 and a weak one 190 |
| Difficulty.AIAggression | docs/js/difficulty.js:231-240 | aggression is 0.3, 0.5 or 0.7, within [0.1, 0.9] |
| Difficulty.AIAggressionMonotone | docs/js/difficulty.js:231-240 | a higher win rate never lowers aggression |
| Difficulty.TargetMistakeRate | docs/js/difficulty.js:246-253 | the mistake target is 0, 0.05, 0.15 or 0.25 |
| Difficulty.TargetMistakeRateMonotone | docs/js/difficulty.js:246-253 | a higher win rate never raises the mistake target |
| Difficulty.Lerp | docs/js/difficulty.js:262-264 | the remaining gap to the target is (1 - factor) times the old gap |
| Difficulty.LerpBetween | docs/js/difficulty.js:262-264 | with a factor in [0, 1] the result lies between the current value and the target |
| Difficulty.Round | docs/js/difficulty.js:277 | rounding lands within half a unit of the input, halves upward |
| Difficulty.RoundBetween | docs/js/difficulty.js:277 | rounding a value between two integers stays between them |
| Difficulty.SmoothSpeed | docs/js/difficulty.js:277 | the smoothed speed lies between the current speed and the target |
| Difficulty.SmoothSpeedProgress | docs/js/difficulty.js:277 | a gap of 5 upward or 6 downward always moves the speed, while a downward gap of exactly 5 rounds back to the current speed |
| Difficulty.NewManager | docs/js/difficulty.js:5-49 | a new manager is in MEDIUM mode with the MEDIUM preset's speed, aggression and mistake rate (150, 0.5, 0.05), which are in range |
| Difficulty.SetMode | docs/js/difficulty.js:95-112 | an unknown mode changes nothing; ADAPTIVE only switches the mode; a fixed mode copies its preset |
| Difficulty.SetModeSelects | docs/js/difficulty.js:95-112 | selecting a mode by name selects it, keeps the metrics, and a fixed mode's values do not depend on the earlier state |
| Difficulty.SetModeKeepsRange | docs/js/difficulty.js:95-112 | mode changes keep speed, aggression and mistake rate in range |
| Difficulty.AdjustDifficulty | docs/js/difficulty.js:269-286 | outside ADAPTIVE nothing changes; in ADAPTIVE the speed moves toward its target without passing it, and aggression and mistake rate close 10 % of their gaps |
| Difficulty.AdjustKeepsRange | docs/js/difficulty.js:269-286 | adjustment keeps the values in range |
| Difficulty.RecordGame | docs/js/difficulty.js:126-170 | recording updates the metrics; outside ADAPTIVE it leaves speed, aggression and mistake rate alone; in ADAPTIVE it adjusts them against targets taken from the updated metrics: the speed moves towards its target without passing it, and aggression and mistake rate close a tenth of their gap |
| Difficulty.RecordGameKeepsInvariants | docs/js/difficulty.js:126-170 | recording keeps the values in range and the metrics consistent |
| Difficulty.EstimateSkillLevel | docs/js/difficulty.js:316-332 | the skill is 0 with no games; otherwise it is within one half of 100 times the weighted skill fraction; it is never above 100, and never negative for a non-negative total score |
| Difficulty.SkillFraction | docs/js/difficulty.js:321-330 | the weighted sum of the three capped components is at most 1, and not negative for a non-negative total score |
| Difficulty.FractionMonotone | docs/js/difficulty.js:321-330 | higher win rate, average and best streak never lower the weighted skill fraction |
| Difficulty.SkillMonotone | docs/js/difficulty.js:316-332 | over the same number of games, more wins, more points or a longer best streak never lower the skill |
| Difficulty.SkillHalfwayRoundsUp | docs/js/difficulty.js:316-332 | 16 games, 7 wins, 424 points and a best streak of 6 give the exact fraction 0.695 and the rating 70, Advanced |
| Difficulty.FullSkill | docs/js/difficulty.js:316-332 | win rate ≥ 0.7, average ≥ 30 and a best streak ≥ 10 give full skill |
| Difficulty.NoSkill | docs/js/difficulty.js:316-332 | no wins, no score and no streak give skill 0 |
| Difficulty.SkillBandOf | docs/js/difficulty.js:339-345 | Expert iff ≥ 90, Advanced iff 70-89, Intermediate iff 50-69, Beginner iff 30-49, Novice iff < 30 |
| Difficulty.SkillLabel | docs/js/difficulty.js:339-345 | the label is Expert, Advanced, Intermediate, Beginner or Novice exactly on the bands from 90, 70, 50, 30 and below 30 |
| Difficulty.SkillBandMonotone | docs/js/difficulty.js:339-345 | a higher percentage never gives a lower band |
| Difficulty.ResetStats | docs/js/difficulty.js:350-363 | reset clears the metrics to a consistent empty record and changes nothing else |
| Difficulty.ResetIsNovice | docs/js/difficulty.js:350-363 | after a reset the skill is 0 and labelled Novice |
| Difficulty.ModeAcceptedAsWritten | docs/js/difficulty.js:96 | as written, a known mode or an inherited property name passes the guard; other names do not |
| Difficulty.PresetSpeedAsWritten | docs/js/difficulty.js:104-108 | as written, a fixed mode's preset speed is found; other names find none |
| Difficulty.InheritedModeAccepted | docs/js/difficulty.js:95-112 | "constructor" passes the guard as written and leaves the speed undefined, while the corrected model ignores it |
| Commentary.EventOf | docs/js/commentary.js:15-24 | an event name maps to the event carrying it, and to nothing otherwise |
| Commentary.EventNameRoundTrip | docs/js/commentary.js:15-24 | parsing an event's name gives back the event |
| Commentary.PriorityOf | docs/js/commentary.js:15-24 | an event is critical exactly when it is a player win, an AI win or a draw |
| Commentary.NewManager | docs/js/commentary.js:5-9 | commentary starts disabled |
| Commentary.SetEnabled | docs/js/commentary.js:94-101 | only the enabled flag changes |
| Commentary.TriggerEvent | docs/js/commentary.js:116-157 | disabled or unknown events change nothing; a comment appears exactly when enabled, known and critical or past the cooldown, and then the time is recorded and the comment is from the event's list |
| Commentary.CooldownSpacing | docs/js/commentary.js:133-140 | two shown comments, the second non-critical, are at least 5000 ms apart |
| Commentary.CriticalAlwaysShown | docs/js/commentary.js:133-138 | while enabled, a critical event is always commented |
| Commentary.StripQuotes | docs/js/commentary.js:258 | at most one leading and one trailing quote character are removed |
| Commentary.Truncate | docs/js/commentary.js:261-263 | text of at most 50 characters is kept; longer text becomes its first 47 characters and "..." |
| Commentary.ParseCommentaryResponse | docs/js/commentary.js:249-266 | no response or an empty one gives nothing; otherwise the trimmed, unquoted, truncated text, nothing when that is empty, at most 50 characters |
| Commentary.ParseQuotedComment | docs/js/commentary.js:249-266 | a short comment wrapped in padding and one pair of quotes comes back unchanged |
| Commentary.StripQuotedComment | docs/js/commentary.js:258 | one quote on each side of a text is removed |
| Commentary.ParseLongComment | docs/js/commentary.js:261-263 | a long clean comment becomes its first 47 characters and "..." |
| Commentary.StripOneQuoteEach | docs/js/commentary.js:258 | doubled quotes lose only one quote on each side |
| Commentary.FallbackComments | docs/js/commentary.js:27-85 | every event has at least five canned comments |
| Commentary.GetFallbackComment | docs/js/commentary.js:273-281 | a known event gets one of its canned comments; an unknown one gets "Totally radical!" |
| Commentary.EveryFallbackReachable | docs/js/commentary.js:279-280 | every canned comment of an event is picked by some draw |
| Commentary.Decimal | docs/js/commentary.js:231-236 | a number is written as a non-empty string of digits |
| Commentary.DigitChar | docs/js/commentary.js:231-236 | each digit value is written as its digit character |
| Commentary.DecimalRoundTrip | docs/js/commentary.js:231-236 | reading back a written number gives the number |
| Commentary.GetEventDetails | docs/js/commentary.js:229-242 | an unknown event gets the default description; a known one never does |
| Commentary.Details | docs/js/commentary.js:230-239 | a known event's description is its fixed text around the event's value, never the default |
| Commentary.DetailsBefore | docs/js/commentary.js:230-239 | each description starts with a fixed text of at least two characters |
| Commentary.DetailsMentionScore | docs/js/commentary.js:231-236 | scoring events state the relevant score, 0 when missing, at a fixed position |
| Commentary.NearMissScan | docs/js/commentary.js:350-365 | nothing exactly when every scanned neighbour is clear; otherwise the obstacle of the first blocked one |
| Commentary.DetectNearMiss | docs/js/commentary.js:341-366 | nothing exactly when all four neighbours are clear; otherwise 'wall' exactly when the first blocked neighbour in UP, DOWN, LEFT, RIGHT order is off the grid |
| Commentary.ScanInDirectionOrder | docs/js/commentary.js:341-366 | the four-direction scan reports the first blocked neighbour in scan order |
| Commentary.NeckIsAlwaysNearMiss | docs/js/commentary.js:350-362 | a snake whose second segment is next to its head always reports a near miss |

## Left out

- Rendering, the DOM, menus, keyboard and touch wiring, audio, and `localStorage` (`loadHighScore`, `saveHighScore`, `loadMetrics`, `saveMetrics`, `getGameHighScore`, `getFormattedStats`): these are I/O; the stored high score is a parameter of `GameSession.NewGame`.
- The remote model call: credentials, `initialize`, request signing, prompt text, the timeout race, `getBedrockMove`'s request, `buildPrompt`, `generateCommentary` and `displayCommentary`. These are network and foreign calls; a remote answer is an `Option<string>` parameter.
- `requestAnimationFrame` scheduling: `GameSession.Frame` models one frame's elapsed-time gate.
- `fallbackEnabled` in the AI service is always true, so the model has no branch for it turned off.
- Getters that only return a field (`getHead`, `getTail`, `getLength`, `getPosition`, `getDifficulty`, `isAvailable`, `getMode`, `getGameSpeed`, `isEnabled`): they are plain field reads.
- The commentary fields `eventQueue`, `isProcessing` and `displayTime` are never used by the modelled logic.
- The two-snake session (AI snake collisions, head-to-head draws, AI death) lives in a `js/game.js` that is not part of this model; only the single-snake session is modelled.
- Test files are used as evidence for a few lemmas and are not modelled themselves.
- AIService.ParseResponse: `toUpperCase` is modelled for ASCII letters only; other Unicode case mappings and UTF-16 lengths are not modelled.
- Commentary.Truncate: lengths count code points rather than UTF-16 units.
- Difficulty.AdaptiveSpeed: the rates are exact rationals, where the source compares IEEE doubles against the thresholds; a rate whose double falls on the other side of a threshold would be classified differently.
- Difficulty.EstimateSkillLevel: the percentage is rounded from an exact rational, where the source rounds an IEEE double, so half-way values can come out one lower in the source. With 16 games, 7 wins, 424 points and a best streak of 6, the double is 69.49999999999999 and `Math.round` gives 69 (Intermediate), while the exact 69.5 gives 70 (Advanced); with 2 games, no wins and 7 points the source gives 3 and the model 4. The contract promises the value only to within one half of the exact percentage.
- Difficulty.Lerp: the same exact-rational modelling of floating point.
- AStar.ReconstructPath: it takes the cost map as a ranking that proves the parent links acyclic. A cyclic parent map, on which the source would loop forever, cannot arise from `findPath`.
- Commentary.EventOf: inherited property names such as "constructor" are treated as unknown events. In the source they pass the event lookup as a non-critical event. The comment shown is "Totally radical!" for inherited methods without declared parameters (`toString`, `valueOf`, `toLocaleString`), whose `length` is 0, and undefined for those with parameters, such as `constructor` and `hasOwnProperty`.
- GameSession.Frame: timestamps are integers in milliseconds rather than floating-point `performance.now()` readings.
- AIService.GetAIMove: the "no move at all" path to `getSafeRandomMove` cannot arise while the local fallback is enabled, so it is modelled through `AIService.LocalMoveWithoutOptions` only.

## Findings

| source | as written | input that shows it | evidently intended | confidence | as-written member | corrected member |
|---|---|---|---|---|---|---|
| js/ai-service.js:388-393 | the level guard tests `difficultySettings[level]`, which is truthy for inherited object properties | `setDifficulty("constructor")` stores "constructor"; the later mistake-rate lookup is then undefined and the AI never makes mistakes | only "easy", "medium" and "hard" are accepted | not executed | AIService.InheritedLevelAccepted | AIService.SetDifficulty |
| docs/js/difficulty.js:95-112 | the mode guard tests `modes[mode]`, which is truthy for inherited object properties | `setMode("constructor")` sets the mode and copies an undefined preset speed, aggression and mistake rate | only the four mode names are accepted | not executed | Difficulty.InheritedModeAccepted | Difficulty.SetMode |

Two further behaviours follow the code and are kept as observed properties
rather than findings: before its first move a snake accepts a reversal and then
bites its own body (`SnakeModel.ReverseBeforeFirstMoveBitesBody`), and a snake
whose neck is next to its head always reports a near miss
(`Commentary.NeckIsAlwaysNearMiss`).

=== FILE: ai_service.dfy ===
/**
 * The AI service's local decision logic: the 150 ms move cache, parsing of
 * a remote direction token, the legal-move filter, the three-term move
 * score, best-move selection, difficulty-driven mistakes and the random
 * safe move.  The remote call is an optional response text (None when the
 * call fails or is not made); each `Math.random()` is an explicit draw in
 * [0, 1).
 */
module AIService {
  import opened Common
  import opened Config
  import opened Grid
  import opened Text
  import opened Choice

  /** What the decision logic reads from the game state. */
  datatype View = View(aiBody: seq<Pos>, aiDirection: Direction, playerBody: seq<Pos>, food: Pos, gridSize: int)

  /** Both snakes have a head: the source reads `body[0]` of each. */
  predicate ValidView(v: View) {
    |v.aiBody| > 0 && |v.playerBody| > 0
  }

  // ---- Response parsing ----

  /**
   * `parseResponse`: trim and upper-case the text; an exact direction token
   * is returned as is, otherwise the first of UP, DOWN, LEFT, RIGHT that
   * occurs in it, otherwise null.
   */
  function ParseResponse(text: string): (r: Option<Direction>)
    ensures var t := ToUpper(Trim(text));
      && (r.None? <==> forall d: Direction :: !Contains(t, Name(d)))
      && (r.Some? ==> Contains(t, Name(r.value)))
      && (r.Some? ==> forall d: Direction :: ScanIndex(d) < ScanIndex(r.value) ==> !Contains(t, Name(d)))
  {
    var t := ToUpper(Trim(text));
    var exact := FromName(t);
    if exact.Some? then
      ExactTokenScans(exact.value);
      exact
    else ScanTokens(t)
  }

  /** The first of UP, DOWN, LEFT, RIGHT that occurs in `t`. */
  function ScanTokens(t: string): (r: Option<Direction>)
    ensures r.None? <==> forall d: Direction :: !Contains(t, Name(d))
    ensures r.Some? ==> Contains(t, Name(r.value))
    ensures r.Some? ==> forall d: Direction :: ScanIndex(d) < ScanIndex(r.value) ==> !Contains(t, Name(d))
  {
    if Contains(t, Name(Up)) then Some(Up)
    else if Contains(t, Name(Down)) then Some(Down)
    else if Contains(t, Name(Left)) then Some(Left)
    else if Contains(t, Name(Right)) then Some(Right)
    else None
  }

  /** A text none of whose characters is the first character of `t` does not contain `t`. */
  lemma NotContainedByFirst(s: string, t: string)
    requires |t| > 0 && forall i :: 0 <= i < |s| ==> s[i] != t[0]
    ensures !Contains(s, t)
  {
    forall i | 0 <= i && i + |t| <= |s|
      ensures !OccursAt(s, t, i)
    {
      assert s[i..i + |t|][0] == s[i];
    }
  }

  /** No direction name occurs inside another: the exact-token step agrees with the substring scan. */
  lemma ExactTokenScans(d: Direction)
    ensures ScanTokens(Name(d)) == Some(d)
  {
    assert OccursAt(Name(d), Name(d), 0);
    forall e: Direction | e != d
      ensures !Contains(Name(d), Name(e))
    {
      NotContainedByFirst(Name(d), Name(e));
    }
  }

  /** Text whose trimmed, upper-cased form is a direction name parses to that direction. */
  lemma ParseNormalized(text: string, d: Direction)
    requires ToUpper(Trim(text)) == Name(d)
    ensures ParseResponse(text) == Some(d)
  {
    NameRoundTrip(d);
  }

  /** Direction names are already upper case. */
  lemma NameIsUpper(d: Direction)
    ensures ToUpper(Name(d)) == Name(d)
    ensures ToUpper(ToLower(Name(d))) == Name(d)
  {
    assert IsUpper(Name(d));
    ToUpperFacts(Name(d));
  }

  /** A direction name padded with white space parses back to that direction. */
  lemma ParseResponseRoundTrip(d: Direction, pre: string, post: string)
    requires AllSpace(pre) && AllSpace(post)
    ensures ParseResponse(pre + Name(d) + post) == Some(d)
  {
    TrimStripsPadding(pre, Name(d), post);
    NameIsUpper(d);
    ParseNormalized(pre + Name(d) + post, d);
  }

  /** The name in lower case parses back too: the text is upper-cased before matching. */
  lemma ParseResponseLowerCase(d: Direction, pre: string, post: string)
    requires AllSpace(pre) && AllSpace(post)
    ensures ParseResponse(pre + ToLower(Name(d)) + post) == Some(d)
  {
    var lower := ToLower(Name(d));
    assert lower[0] == LowerChar(Name(d)[0]) && lower[|lower| - 1] == LowerChar(Name(d)[|lower| - 1]);
    TrimStripsPadding(pre, lower, post);
    NameIsUpper(d);
    ParseNormalized(pre + lower + post, d);
  }

  /** A reply with no direction name in it is rejected. */
  lemma ParseResponseRejects(text: string)
    requires forall d: Direction :: !Contains(ToUpper(Trim(text)), Name(d))
    ensures ParseResponse(text) == None
  {
  }

  // ---- Legal moves and scoring ----

  /** `wouldCollideWithSnake` for either body, the reversal ban and the bounds check. */
  predicate Legal(head: Pos, current: Direction, v: View, d: Direction) {
    && d != Opposite(current)
    && InBounds(Step(head, d), v.gridSize)
    && Step(head, d) !in v.aiBody
    && Step(head, d) !in v.playerBody
  }

  /** `getPossibleMoves`: the legal moves, in the order UP, DOWN, LEFT, RIGHT. */
  function GetPossibleMoves(head: Pos, current: Direction, v: View): (r: seq<Direction>)
    ensures forall d :: d in r <==> Legal(head, current, v, d)
    ensures Opposite(current) !in r
    ensures forall i, j :: 0 <= i < j < |r| ==> ScanIndex(r[i]) < ScanIndex(r[j])
  {
    ScanFilter(d => Legal(head, current, v, d))
  }

  /** The board centre the score prefers, fixed at (10, 10). */
  const CENTER: Pos := Pos(10, 10)

  /**
   * `scoreMove`: 100 minus the food distance, plus twice the distance to the
   * player's head, plus 20 minus the distance to the centre, all measured
   * from the cell the move enters.
   */
  function ScoreMove(head: Pos, d: Direction, v: View): (r: int)
    requires |v.playerBody| > 0
    ensures InBounds(Step(head, d), GRID_SIZE) && InBounds(v.food, GRID_SIZE) && InBounds(v.playerBody[0], GRID_SIZE) ==>
      62 <= r <= 196
  {
    var next := Step(head, d);
    (100 - Manhattan(next, v.food)) + Manhattan(next, v.playerBody[0]) * 2 + (20 - Manhattan(next, CENTER))
  }

  /**
   * Moves entering cells equally placed relative to the player and the
   * centre are ranked by food distance; moves equally placed relative to the
   * food and the centre are ranked by distance from the player, at double
   * weight.
   */
  lemma ScoreMoveRanks(head: Pos, d: Direction, e: Direction, v: View)
    requires |v.playerBody| > 0
    ensures var a, b := Step(head, d), Step(head, e);
      Manhattan(a, v.playerBody[0]) == Manhattan(b, v.playerBody[0]) && Manhattan(a, CENTER) == Manhattan(b, CENTER) ==>
        (ScoreMove(head, d, v) > ScoreMove(head, e, v) <==> Manhattan(a, v.food) < Manhattan(b, v.food))
    ensures var a, b := Step(head, d), Step(head, e);
      Manhattan(a, v.food) == Manhattan(b, v.food) && Manhattan(a, CENTER) == Manhattan(b, CENTER) ==>
        ScoreMove(head, d, v) - ScoreMove(head, e, v) == 2 * (Manhattan(a, v.playerBody[0]) - Manhattan(b, v.playerBody[0]))
  {
  }

  /** On the 20-by-20 board every score lies between 62 and 196. */
  lemma ScoreMoveBounds(head: Pos, d: Direction, v: View)
    requires |v.playerBody| > 0
    requires InBounds(Step(head, d), GRID_SIZE) && InBounds(v.food, GRID_SIZE) && InBounds(v.playerBody[0], GRID_SIZE)
    ensures 62 <= ScoreMove(head, d, v) <= 196
  {
  }

  /**
   * `getLocalAIMove`: the best-scored legal move, the earliest on ties (the
   * descending sort is stable); with no legal move, the random safe move,
   * which then is the current direction.
   */
  function GetLocalAIMove(v: View): (r: Direction)
    requires ValidView(v)
    ensures var head := v.aiBody[0];
      && (|GetPossibleMoves(head, v.aiDirection, v)| == 0 ==> r == v.aiDirection)
      && (|GetPossibleMoves(head, v.aiDirection, v)| > 0 ==>
            && Legal(head, v.aiDirection, v, r)
            && (forall d :: Legal(head, v.aiDirection, v, d) ==> ScoreMove(head, d, v) <= ScoreMove(head, r, v))
            && (forall d :: Legal(head, v.aiDirection, v, d) && ScanIndex(d) < ScanIndex(r) ==> ScoreMove(head, d, v) < ScoreMove(head, r, v)))
  {
    var head := v.aiBody[0];
    var moves := GetPossibleMoves(head, v.aiDirection, v);
    if |moves| == 0 then v.aiDirection
    else
      var score := d => ScoreMove(head, d, v);
      FirstArgMaxBeatsEarlier(moves, score, d => ScanIndex(d));
      FirstArgMax(moves, score)
  }

  /** The local move does not depend on the draw the safe random move would use: with no legal move both give the current direction. */
  lemma LocalMoveWithoutOptions(v: View, pick: real)
    requires ValidView(v) && 0.0 <= pick < 1.0
    requires forall d :: !Legal(v.aiBody[0], v.aiDirection, v, d)
    ensures GetLocalAIMove(v) == GetSafeRandomMove(v, pick) == v.aiDirection
  {
  }

  // ---- Mistakes and random moves ----

  /** The moves of `moves` other than `m`, in order. */
  function Without(moves: seq<Direction>, m: Direction): (r: seq<Direction>)
    ensures forall d :: d in r <==> d in moves && d != m
  {
    if |moves| == 0 then []
    else (if moves[0] != m then [moves[0]] else []) + Without(moves[1..], m)
  }

  /**
   * `applyMistake`: when the first draw falls below the mistake rate, a
   * legal move other than the optimal one, chosen by the second draw; the
   * optimal move otherwise or when there is no alternative.
   */
  function ApplyMistake(optimal: Direction, v: View, rate: real, coin: real, pick: real): (r: Direction)
    requires ValidView(v) && 0.0 <= pick < 1.0
    ensures var head := v.aiBody[0];
      && (r == optimal || (Legal(head, v.aiDirection, v, r) && r != optimal))
      && (coin >= rate ==> r == optimal)
      && ((forall d :: Legal(head, v.aiDirection, v, d) ==> d == optimal) ==> r == optimal)
      && (coin < rate && (exists d :: Legal(head, v.aiDirection, v, d) && d != optimal) ==> r != optimal)
  {
    if coin < rate then
      var alternatives := Without(GetPossibleMoves(v.aiBody[0], v.aiDirection, v), optimal);
      if |alternatives| > 0 then
        alternatives[PickIndex(pick, |alternatives|)]
      else
        optimal
    else optimal
  }

  /** `getSafeRandomMove`: a legal move chosen by the draw, or the current direction when there is none. */
  function GetSafeRandomMove(v: View, pick: real): (r: Direction)
    requires ValidView(v) && 0.0 <= pick < 1.0
    ensures (exists d :: Legal(v.aiBody[0], v.aiDirection, v, d)) ==> Legal(v.aiBody[0], v.aiDirection, v, r)
    ensures (forall d :: !Legal(v.aiBody[0], v.aiDirection, v, d)) ==> r == v.aiDirection
  {
    var moves := GetPossibleMoves(v.aiBody[0], v.aiDirection, v);
    if |moves| > 0 then moves[PickIndex(pick, |moves|)]
    else v.aiDirection
  }

  // ---- Service state ----

  datatype Level = Easy | Medium | Hard

  /** The mistake rate of each difficulty level's settings. */
  function MistakeRate(level: Level): (r: real)
    ensures 0.0 <= r < 1.0
  {
    match level
    case Easy => 0.2
    case Medium => 0.05
    case Hard => 0.0
  }

  lemma MistakeRateOrder()
    ensures MistakeRate(Hard) < MistakeRate(Medium) < MistakeRate(Easy)
  {
  }

  /**
   * The service's state: whether it is enabled, whether credentials (a
   * client, in the older copy) are present, the cached move and its time,
   * and the difficulty level.
   */
  datatype Service = Service(enabled: bool, hasCredentials: bool, lastMove: Option<Direction>, lastMoveTime: int, difficulty: Level)

  /** A new service: disabled, without credentials or a cached move, at the medium level. */
  function NewService(): (s: Service)
    ensures !s.enabled && !s.hasCredentials && s.lastMove.None? && s.difficulty == Medium
  {
    Service(false, false, None, 0, Medium)
  }

  /** How long, in milliseconds, a decided move is reused. */
  const CACHE_WINDOW: int := 150

  /** The random draws one decision may consume. */
  datatype Draws = Draws(coin: real, pick: real)

  predicate ValidDraws(r: Draws) {
    0.0 <= r.coin < 1.0 && 0.0 <= r.pick < 1.0
  }

  /** The move before mistakes: the parsed remote token if the service is enabled and one was parsed, else the local move. */
  function BaseMove(s: Service, v: View, remote: Option<string>): (r: Direction)
    requires ValidView(v)
    ensures !(s.enabled && s.hasCredentials) ==> r == GetLocalAIMove(v)
    ensures s.enabled && s.hasCredentials && remote.Some? && ParseResponse(remote.value).Some? ==> r == ParseResponse(remote.value).value
  {
    var parsed := if s.enabled && s.hasCredentials && remote.Some? then ParseResponse(remote.value) else None;
    if parsed.Some? then parsed.value else GetLocalAIMove(v)
  }

  /**
   * `getAIMove`: a cached move less than 150 ms old is returned with the
   * state untouched; otherwise the base move goes through `applyMistake`
   * (at the given rate, or the level's) and is cached with the current time.
   */
  function GetAIMove(s: Service, v: View, now: int, remote: Option<string>, rate: Option<real>, draws: Draws): (r: (Service, Direction))
    requires ValidView(v) && ValidDraws(draws)
    ensures s.lastMove.Some? && now - s.lastMoveTime < CACHE_WINDOW ==> r == (s, s.lastMove.value)
    ensures !(s.lastMove.Some? && now - s.lastMoveTime < CACHE_WINDOW) ==>
      && r.0 == s.(lastMove := Some(r.1), lastMoveTime := now)
      && (r.1 == BaseMove(s, v, remote) || Legal(v.aiBody[0], v.aiDirection, v, r.1))
    ensures !(s.lastMove.Some? && now - s.lastMoveTime < CACHE_WINDOW) ==>
      var rateUsed := if rate.Some? then rate.value else MistakeRate(s.difficulty);
      && (draws.coin >= rateUsed ==> r.1 == BaseMove(s, v, remote))
      && ((draws.coin < rateUsed && exists d :: Legal(v.aiBody[0], v.aiDirection, v, d) && d != BaseMove(s, v, remote))
            ==> r.1 != BaseMove(s, v, remote))
  {
    if s.lastMove.Some? && now - s.lastMoveTime < CACHE_WINDOW then (s, s.lastMove.value)
    else
      var move := BaseMove(s, v, remote);
      var mistakeRate := if rate.Some? then rate.value else MistakeRate(s.difficulty);
      var final := ApplyMistake(move, v, mistakeRate, draws.coin, draws.pick);
      (s.(lastMove := Some(final), lastMoveTime := now), final)
  }

  /** A second request within the cache window gets the first decision back, whatever the game state and draws. */
  lemma CachedMoveRepeats(s: Service, v: View, now: int, remote: Option<string>, rate: Option<real>, draws: Draws,
                          v2: View, later: int, remote2: Option<string>, rate2: Option<real>, draws2: Draws)
    requires ValidView(v) && ValidDraws(draws) && ValidView(v2) && ValidDraws(draws2)
    requires !(s.lastMove.Some? && now - s.lastMoveTime < CACHE_WINDOW)
    requires now <= later < now + CACHE_WINDOW
    ensures var first := GetAIMove(s, v, now, remote, rate, draws);
      GetAIMove(first.0, v2, later, remote2, rate2, draws2) == first
  {
  }

  /** On the hard level, with no rate given, no mistake is made: the move is the base move. */
  lemma HardLevelMakesNoMistake(s: Service, v: View, now: int, remote: Option<string>, draws: Draws)
    requires ValidView(v) && ValidDraws(draws) && s.difficulty == Hard
    requires !(s.lastMove.Some? && now - s.lastMoveTime < CACHE_WINDOW)
    ensures GetAIMove(s, v, now, remote, None, draws).1 == BaseMove(s, v, remote)
  {
  }

  /** Without the remote service, a decision is the local move or a legal mistake. */
  lemma DisabledServiceIsLocal(s: Service, v: View, now: int, remote: Option<string>, rate: Option<real>, draws: Draws)
    requires ValidView(v) && ValidDraws(draws) && !s.enabled
    requires !(s.lastMove.Some? && now - s.lastMoveTime < CACHE_WINDOW)
    ensures var m := GetAIMove(s, v, now, remote, rate, draws).1;
      m == GetLocalAIMove(v) || Legal(v.aiBody[0], v.aiDirection, v, m)
  {
  }

  // ---- Settings ----

  /** `setDifficulty` with the levels keyed "easy", "medium", "hard"; any other name is ignored. */
  function SetDifficulty(s: Service, level: string): (r: Service)
    ensures LevelOf(level).Some? ==> r == s.(difficulty := LevelOf(level).value)
    ensures LevelOf(level).None? ==> r == s
  {
    match LevelOf(level)
    case Some(l) => s.(difficulty := l)
    case None => s
  }

  function LevelName(l: Level): string {
    match l
    case Easy => "easy"
    case Medium => "medium"
    case Hard => "hard"
  }

  function LevelOf(name: string): (r: Option<Level>)
    ensures r.Some? ==> LevelName(r.value) == name
    ensures r.None? ==> forall l :: LevelName(l) != name
  {
    if name == "easy" then Some(Easy)
    else if name == "medium" then Some(Medium)
    else if name == "hard" then Some(Hard)
    else None
  }

  lemma SetDifficultyRoundTrip(s: Service, l: Level)
    ensures SetDifficulty(s, LevelName(l)).difficulty == l
  {
  }

  /** `setDifficulty` as written, on the level name it stores: any truthy property lookup passes the guard. */
  function SetDifficultyAsWritten(current: string, level: string): (r: string)
    ensures LevelOf(level).Some? ==> r == level
    ensures LevelOf(level).None? && level !in INHERITED_KEYS ==> r == current
  {
    if LevelOf(level).Some? || level in INHERITED_KEYS then level else current
  }

  /**
   * `difficultySettings[difficulty].mistakeRate` as written: None stands for
   * `undefined`, which an inherited member yields.
   */
  function MistakeRateAsWritten(level: string): (r: Option<real>)
    ensures LevelOf(level).Some? ==> r == Some(MistakeRate(LevelOf(level).value))
  {
    match LevelOf(level)
    case Some(l) => Some(MistakeRate(l))
    case None => None
  }

  /** `Math.random() < rate` as written: a comparison with `undefined` is false. */
  function MistakeDrawnAsWritten(coin: real, rate: Option<real>): (b: bool)
    ensures rate.None? ==> !b
  {
    rate.Some? && coin < rate.value
  }

  /**
   * As written, the level "constructor" passes the guard, is stored, and
   * then yields an undefined mistake rate, so the AI never makes a mistake;
   * the corrected `SetDifficulty` ignores it.
   */
  lemma InheritedLevelAccepted(s: Service, coin: real)
    ensures SetDifficultyAsWritten("medium", "constructor") == "constructor"
    ensures LevelOf("constructor").None?
    ensures !MistakeDrawnAsWritten(coin, MistakeRateAsWritten("constructor"))
    ensures SetDifficulty(s, "constructor") == s
  {
    assert "constructor" in INHERITED_KEYS;
  }

  /** `setEnabled`: enabling takes effect only when credentials are present. */
  function SetEnabled(s: Service, enabled: bool): (r: Service)
    ensures r.enabled <==> enabled && s.hasCredentials
    ensures r.(enabled := s.enabled) == s
  {
    s.(enabled := enabled && s.hasCredentials)
  }

  /** A service without credentials never consults the remote reply. */
  lemma NoCredentialsNoRemote(s: Service, b: bool, v: View, remote: Option<string>)
    requires ValidView(v) && !s.hasCredentials
    ensures !SetEnabled(s, b).enabled
    ensures BaseMove(SetEnabled(s, b), v, remote) == GetLocalAIMove(v)
  {
  }
}

=== FILE: astar.dfy ===
/**
 * The A* search of the AI's fallback path finder: an open list scanned for
 * the lowest f-score, a closed set, came-from links and g/f score tables,
 * with the iteration cap of 1000 and the `table.get(key) || Infinity`
 * reading of the score tables (a missing key and a stored 0 both read as
 * infinity).  Cells are compared by value, as the "x,y" string keys do.
 */
module AStar {
  import opened Common
  import opened Config
  import opened Grid

  const MAX_ITERATIONS: nat := 1000

  /** Direction from `from` to `to`, checking dx = 1, dx = -1, dy = 1, dy = -1, defaulting to RIGHT. */
  function PositionToDirection(from: Pos, to: Pos): (d: Direction)
    ensures Adjacent(from, to) ==> Step(from, d) == to
    ensures !Adjacent(from, to) && to.x - from.x != 1 && to.x - from.x != -1 ==> d == Right || to.y - from.y == 1 || to.y - from.y == -1
  {
    var dx := to.x - from.x;
    var dy := to.y - from.y;
    if dx == 1 then Right
    else if dx == -1 then Left
    else if dy == 1 then Down
    else if dy == -1 then Up
    else Right
  }

  /** Stepping and reading the direction back are inverse. */
  lemma DirectionOfStep(p: Pos, d: Direction)
    ensures PositionToDirection(p, Step(p, d)) == d
  {
  }

  /** The in-bounds cells next to `p`, in the scan order UP, DOWN, LEFT, RIGHT. */
  function Neighbors(p: Pos, n: int): (r: seq<Pos>)
    ensures |r| <= 4
    ensures forall q :: q in r <==> InBounds(q, n) && Adjacent(p, q)
    ensures forall i, j :: 0 <= i < j < |r| ==> ScanIndex(PositionToDirection(p, r[i])) < ScanIndex(PositionToDirection(p, r[j]))
  {
    var ds := ScanFilter(d => InBounds(Step(p, d), n));
    var r := StepsFrom(p, ds);
    StepsReadBack(p, ds, r);
    StepsAreNeighbors(p, n, ds, r);
    r
  }

  /** The cells one step from `p` in each of the directions `ds`, in order. */
  function StepsFrom(p: Pos, ds: seq<Direction>): (r: seq<Pos>)
    ensures |r| == |ds| && forall i :: 0 <= i < |ds| ==> r[i] == Step(p, ds[i])
  {
    if |ds| == 0 then [] else [Step(p, ds[0])] + StepsFrom(p, ds[1..])
  }

  /** Cells stepped to from `p` read back as the directions stepped in. */
  lemma StepsReadBack(p: Pos, ds: seq<Direction>, r: seq<Pos>)
    requires |r| == |ds| && forall i :: 0 <= i < |ds| ==> r[i] == Step(p, ds[i])
    ensures forall i :: 0 <= i < |r| ==> PositionToDirection(p, r[i]) == ds[i]
  {
    forall i | 0 <= i < |r| ensures PositionToDirection(p, r[i]) == ds[i] {
      DirectionOfStep(p, ds[i]);
    }
  }

  /** Stepping from `p` in every direction that stays on the grid reaches exactly the in-bounds neighbours of `p`. */
  lemma StepsAreNeighbors(p: Pos, n: int, ds: seq<Direction>, r: seq<Pos>)
    requires forall d :: d in ds <==> InBounds(Step(p, d), n)
    requires |r| == |ds| && forall i :: 0 <= i < |ds| ==> r[i] == Step(p, ds[i])
    ensures forall q :: q in r <==> InBounds(q, n) && Adjacent(p, q)
  {
    forall q ensures q in r <==> InBounds(q, n) && Adjacent(p, q) {
      AdjacentIsStep(p, q);
      if InBounds(q, n) && Adjacent(p, q) {
        var d :| Step(p, d) == q;
        var i :| 0 <= i < |ds| && ds[i] == d;
        assert r[i] == q;
      }
    }
  }

  /** The A* heuristic is the Manhattan distance, which never overestimates a path's step count. */
  lemma HeuristicAdmissible(path: seq<Pos>)
    requires |path| >= 1
    requires forall i :: 0 <= i < |path| - 1 ==> Adjacent(path[i], path[i + 1])
    ensures Manhattan(path[0], path[|path| - 1]) <= |path| - 1
    decreases |path|
  {
    if |path| > 1 {
      HeuristicAdmissible(path[1..]);
      ManhattanTriangle(path[0], path[1], path[|path| - 1]);
    }
  }

  /** A score-table entry as the search reads it: a missing key or a stored 0 reads as infinity. */
  datatype Score = Finite(v: int) | Infinity

  function Lookup(table: map<Pos, int>, p: Pos): Score {
    if p in table && table[p] != 0 then Finite(table[p]) else Infinity
  }

  /** JavaScript `<` on the scores: nothing is below infinity. */
  predicate Below(a: Score, b: Score) {
    a.Finite? && (b.Infinity? || a.v < b.v)
  }

  /** Index of the first open cell whose f-score no other open cell undercuts. */
  function LowestFScore(open: seq<Pos>, f: map<Pos, int>): (i: nat)
    requires |open| > 0
    ensures i < |open|
    ensures forall j :: 0 <= j < |open| ==> !Below(Lookup(f, open[j]), Lookup(f, open[i]))
    ensures forall j :: 0 <= j < i ==> Below(Lookup(f, open[i]), Lookup(f, open[j]))
  {
    LowestFrom(open, f, 1, 0)
  }

  function LowestFrom(open: seq<Pos>, f: map<Pos, int>, i: nat, best: nat): (k: nat)
    requires best < i <= |open|
    requires forall j :: 0 <= j < i ==> !Below(Lookup(f, open[j]), Lookup(f, open[best]))
    requires forall j :: 0 <= j < best ==> Below(Lookup(f, open[best]), Lookup(f, open[j]))
    ensures best <= k < |open|
    ensures forall j :: 0 <= j < |open| ==> !Below(Lookup(f, open[j]), Lookup(f, open[k]))
    ensures forall j :: 0 <= j < k ==> Below(Lookup(f, open[k]), Lookup(f, open[j]))
    decreases |open| - i
  {
    if i == |open| then best
    else if Below(Lookup(f, open[i]), Lookup(f, open[best])) then
      BelowOrder(Lookup(f, open[i]), Lookup(f, open[best]));
      LowestFrom(open, f, i + 1, i)
    else LowestFrom(open, f, i + 1, best)
  }

  /** `Below` is a strict order in which scores not below one another are equal. */
  lemma BelowOrder(a: Score, b: Score)
    ensures forall c :: Below(c, a) && Below(a, b) ==> Below(c, b)
    ensures forall c :: Below(a, b) && !Below(c, b) ==> Below(a, c)
  {
  }

  predicate NoDup(s: seq<Pos>) {
    forall i, j :: 0 <= i < j < |s| ==> s[i] != s[j]
  }

  /** `splice(findIndex(...), 1)`: drop the first occurrence of `p`. */
  function RemoveFirst(s: seq<Pos>, p: Pos): (r: seq<Pos>)
    requires p in s
    ensures |r| == |s| - 1
    ensures forall q :: q in r ==> q in s
    ensures forall q :: q in s && q != p ==> q in r
    ensures NoDup(s) ==> NoDup(r) && p !in r
  {
    if s[0] == p then s[1..]
    else
      var rest := RemoveFirst(s[1..], p);
      NoDupCons(s[0], rest);
      NoDupCons(s[0], s[1..]);
      [s[0]] + rest
  }

  lemma NoDupCons(x: Pos, s: seq<Pos>)
    ensures NoDup([x] + s) <==> x !in s && NoDup(s)
  {
    var t := [x] + s;
    if x !in s && NoDup(s) {
      forall i, j | 0 <= i < j < |t|
        ensures t[i] != t[j]
      {
        if i > 0 { assert t[i] == s[i - 1] && t[j] == s[j - 1]; }
        else { assert t[j] == s[j - 1]; }
      }
    }
    if NoDup(t) {
      forall i, j | 0 <= i < j < |s|
        ensures s[i] != s[j]
      {
        assert s[i] == t[i + 1] && s[j] == t[j + 1];
      }
      forall k | 0 <= k < |s|
        ensures s[k] != x
      {
        assert s[k] == t[k + 1] && x == t[0];
      }
    }
  }

  /** The search state: open list, closed set, came-from links, g- and f-scores. */
  datatype Search = Search(open: seq<Pos>, closed: set<Pos>, cameFrom: map<Pos, Pos>, g: map<Pos, int>, f: map<Pos, int>)

  function InitialSearch(start: Pos, goal: Pos): (st: Search)
    ensures st.open == [start] && st.closed == {} && st.cameFrom == map[]
    ensures st.g.Keys == st.f.Keys == {start}
    ensures st.g[start] == 0 && st.f[start] == st.g[start] + Manhattan(start, goal)
  {
    Search([start], {}, map[], map[start := 0], map[start := Manhattan(start, goal)])
  }

  /**
   * One neighbour of the expanded cell: closed and obstacle cells are skipped;
   * a new cell is appended to the open list; an open cell is re-linked only
   * when the tentative score is below its recorded one.
   */
  function Relax(st: Search, current: Pos, nb: Pos, goal: Pos, obstacles: set<Pos>): (r: Search)
    requires current in st.g
    ensures r.closed == st.closed
    ensures nb in st.closed || nb in obstacles ==> r == st
    ensures nb !in st.closed && nb !in obstacles ==> nb in r.open && nb in r.g && r.g[nb] <= st.g[current] + 1
    ensures forall p :: p in st.open ==> p in r.open
    ensures forall p :: p in r.open ==> p in st.open || (p == nb && nb !in obstacles)
    ensures forall p :: p in st.closed && p in st.g ==> p in r.g && r.g[p] == st.g[p]
  {
    if nb in st.closed || nb in obstacles then st
    else
      var tentative := st.g[current] + 1;
      if nb in st.open && !Below(Finite(tentative), Lookup(st.g, nb)) then st
      else
        Search(if nb in st.open then st.open else st.open + [nb], st.closed,
               st.cameFrom[nb := current], st.g[nb := tentative],
               st.f[nb := tentative + Manhattan(nb, goal)])
  }

  /** All neighbours in order. */
  function RelaxAll(st: Search, current: Pos, nbs: seq<Pos>, goal: Pos, obstacles: set<Pos>): (r: Search)
    requires current in st.g
    ensures r.closed == st.closed
    ensures forall p :: p in st.open ==> p in r.open
    ensures forall p :: p in r.open ==> p in st.open || (p in nbs && p !in obstacles)
    ensures forall p :: p in st.closed && p in st.g ==> p in r.g && r.g[p] == st.g[p]
    decreases |nbs|
  {
    if |nbs| == 0 then st
    else RelaxAll(Relax(st, current, nbs[0], goal, obstacles), current, nbs[1..], goal, obstacles)
  }

  /** Move `current` from the open list to the closed set. */
  function Close(st: Search, current: Pos): (r: Search)
    requires current in st.open
    ensures r.closed == st.closed + {current}
  {
    st.(open := RemoveFirst(st.open, current), closed := st.closed + {current})
  }

  /** One iteration after the goal test: close `current` and relax its neighbours. */
  function Expand(st: Search, current: Pos, goal: Pos, obstacles: set<Pos>, n: int): (r: Search)
    requires current in st.open && current in st.g
    ensures r.closed == st.closed + {current}
    ensures forall p :: p in r.open ==> p in st.open || (InBounds(p, n) && Adjacent(current, p) && p !in obstacles)
  {
    RelaxAll(Close(st, current), current, Neighbors(current, n), goal, obstacles)
  }

  /**
   * Follow came-from links back from `current`.  The links descend the
   * `rank` table, so the walk ends; the source's loop would not end on a
   * cyclic map, which the search never builds.
   */
  function ReconstructPath(cameFrom: map<Pos, Pos>, ghost rank: map<Pos, int>, current: Pos): (path: seq<Pos>)
    requires current in rank
    requires forall p :: p in rank ==> rank[p] >= 0
    requires forall k :: k in cameFrom ==> k in rank && cameFrom[k] in rank && rank[cameFrom[k]] < rank[k]
    ensures |path| >= 1 && path[|path| - 1] == current && path[0] !in cameFrom
    ensures forall i :: 1 <= i < |path| ==> path[i] in cameFrom && cameFrom[path[i]] == path[i - 1]
    ensures path[0] in rank && |path| <= rank[current] - rank[path[0]] + 1
    decreases rank[current]
  {
    if current in cameFrom then ReconstructPath(cameFrom, rank, cameFrom[current]) + [current]
    else [current]
  }

  /** A walk from `start` to `goal` by unit steps whose every cell after the first is on the grid and free. */
  ghost predicate IsPath(path: seq<Pos>, start: Pos, goal: Pos, obstacles: set<Pos>, n: int) {
    && |path| >= 1 && path[0] == start && path[|path| - 1] == goal
    && (forall i :: 0 <= i < |path| - 1 ==> Adjacent(path[i], path[i + 1]))
    && (forall i :: 1 <= i < |path| ==> InBounds(path[i], n) && path[i] !in obstacles)
  }

  /**
   * What the loop needs to rebuild a path: open and closed cells have
   * g-scores, g-scores are non-negative, and every link leads to a closed
   * cell of lower g-score.
   */
  ghost predicate Ranked(st: Search) {
    && (forall p :: p in st.open ==> p in st.g)
    && (forall p :: p in st.closed ==> p in st.g)
    && (forall p :: p in st.g ==> st.g[p] >= 0)
    && (forall k {:trigger st.cameFrom[k]} :: k in st.cameFrom ==>
          k in st.g && st.cameFrom[k] in st.closed && st.g[st.cameFrom[k]] < st.g[k])
  }

  lemma RelaxKeepsRanked(st: Search, current: Pos, nb: Pos, goal: Pos, obstacles: set<Pos>)
    requires Ranked(st) && current in st.closed
    ensures Ranked(Relax(st, current, nb, goal, obstacles))
  {
    var r := Relax(st, current, nb, goal, obstacles);
    if r != st {
      forall k | k in r.cameFrom
        ensures k in r.g && r.cameFrom[k] in r.closed && r.g[r.cameFrom[k]] < r.g[k]
      {
        if k != nb {
          assert st.cameFrom[k] != nb;
        }
      }
    }
  }

  lemma RelaxAllKeepsRanked(st: Search, current: Pos, nbs: seq<Pos>, goal: Pos, obstacles: set<Pos>)
    requires Ranked(st) && current in st.closed
    ensures Ranked(RelaxAll(st, current, nbs, goal, obstacles))
    decreases |nbs|
  {
    if |nbs| > 0 {
      RelaxKeepsRanked(st, current, nbs[0], goal, obstacles);
      RelaxAllKeepsRanked(Relax(st, current, nbs[0], goal, obstacles), current, nbs[1..], goal, obstacles);
    }
  }

  lemma ExpandKeepsRanked(st: Search, current: Pos, goal: Pos, obstacles: set<Pos>, n: int)
    requires Ranked(st) && current in st.open
    ensures current in st.g
    ensures Ranked(Expand(st, current, goal, obstacles, n))
  {
    var c := Close(st, current);
    forall p | p in c.open
      ensures p in c.g
    {
      assert p in st.open;
    }
    RelaxAllKeepsRanked(c, current, Neighbors(current, n), goal, obstacles);
  }

  /** The main loop, one call per iteration; `iterations` counts the iterations already run. */
  function SearchFrom(st: Search, goal: Pos, obstacles: set<Pos>, n: int, iterations: nat): (r: Option<seq<Pos>>)
    requires Ranked(st) && iterations <= MAX_ITERATIONS
    decreases MAX_ITERATIONS - iterations
    ensures |st.open| == 0 || iterations >= MAX_ITERATIONS ==> r.None?
    ensures r.Some? ==> |r.value| >= 1 && r.value[|r.value| - 1] == goal
  {
    if |st.open| == 0 || iterations >= MAX_ITERATIONS then None
    else
      var current := st.open[LowestFScore(st.open, st.f)];
      if current == goal then Some(ReconstructPath(st.cameFrom, st.g, current))
      else
        ExpandKeepsRanked(st, current, goal, obstacles, n);
        SearchFrom(Expand(st, current, goal, obstacles, n), goal, obstacles, n, iterations + 1)
  }

  /** The loop's unfolding when it ends without a path. */
  lemma SearchFromStops(st: Search, goal: Pos, obstacles: set<Pos>, n: int, iterations: nat)
    requires Ranked(st) && iterations <= MAX_ITERATIONS
    requires |st.open| == 0 || iterations == MAX_ITERATIONS
    ensures SearchFrom(st, goal, obstacles, n, iterations) == None
  {
  }

  /** The loop's unfolding when the selected cell is the goal. */
  lemma SearchFromFinds(st: Search, goal: Pos, obstacles: set<Pos>, n: int, iterations: nat)
    requires Ranked(st) && iterations < MAX_ITERATIONS && |st.open| > 0
    requires st.open[LowestFScore(st.open, st.f)] == goal
    ensures goal in st.g
    ensures SearchFrom(st, goal, obstacles, n, iterations) == Some(ReconstructPath(st.cameFrom, st.g, goal))
  {
  }

  /** The loop's unfolding when it takes another iteration. */
  lemma SearchFromContinues(st: Search, goal: Pos, obstacles: set<Pos>, n: int, iterations: nat)
    requires Ranked(st) && iterations < MAX_ITERATIONS && |st.open| > 0
    requires st.open[LowestFScore(st.open, st.f)] != goal
    ensures st.open[LowestFScore(st.open, st.f)] in st.g
    ensures Ranked(Expand(st, st.open[LowestFScore(st.open, st.f)], goal, obstacles, n))
    ensures SearchFrom(st, goal, obstacles, n, iterations)
         == SearchFrom(Expand(st, st.open[LowestFScore(st.open, st.f)], goal, obstacles, n), goal, obstacles, n, iterations + 1)
  {
    ExpandKeepsRanked(st, st.open[LowestFScore(st.open, st.f)], goal, obstacles, n);
  }

  /**
   * `findPath`: a path from `start` to `goal` avoiding `obstacles` on the
   * n-by-n grid, or None when the open list empties or the cap is reached.
   * The start cell itself is never checked against bounds or obstacles.
   */
  function FindPath(start: Pos, goal: Pos, obstacles: set<Pos>, n: int): (r: Option<seq<Pos>>)
    ensures r.Some? ==> IsPath(r.value, start, goal, obstacles, n)
    ensures r.Some? ==> |r.value| >= Manhattan(start, goal) + 1
    ensures start == goal ==> r == Some([start])
  {
    InitialCore(start, goal, obstacles, n);
    SearchFromIsPath(InitialSearch(start, goal), start, goal, obstacles, n, 0);
    var r := SearchFrom(InitialSearch(start, goal), goal, obstacles, n, 0);
    if r.Some? then HeuristicAdmissible(r.value); r else r
  }

  /**
   * What every reachable search state satisfies, beyond `Ranked`: the open
   * list has no repeats and is disjoint from the closed set, the score
   * tables cover exactly the open and closed cells with f = g + h and g
   * never below the distance from start, the start has g = 0 and no link
   * and is closed after the first iteration, every other known cell is on
   * the grid, free and linked, and every link leads from a neighbour with g
   * one lower.
   */
  ghost predicate Core(st: Search, start: Pos, goal: Pos, obstacles: set<Pos>, n: int) {
    && Ranked(st)
    && NoDup(st.open)
    && (forall p :: p in st.open ==> p !in st.closed)
    && (forall p :: p in st.g ==> p in st.open || p in st.closed)
    && (forall p :: p in st.f <==> p in st.g)
    && (forall p :: p in st.g ==> st.f[p] == st.g[p] + Manhattan(p, goal) && st.g[p] >= Manhattan(start, p))
    && start in st.g && st.g[start] == 0 && start !in st.cameFrom
    && (start in st.closed || (st.open == [start] && st.closed == {}))
    && (forall p :: p in st.g && p != start ==> InBounds(p, n) && p !in obstacles && p in st.cameFrom)
    && (forall k {:trigger st.cameFrom[k]} :: k in st.cameFrom ==>
          Adjacent(st.cameFrom[k], k) && st.g[k] == st.g[st.cameFrom[k]] + 1)
  }

  lemma InitialCore(start: Pos, goal: Pos, obstacles: set<Pos>, n: int)
    ensures Core(InitialSearch(start, goal), start, goal, obstacles, n)
  {
  }

  lemma CloseKeepsCore(st: Search, current: Pos, start: Pos, goal: Pos, obstacles: set<Pos>, n: int)
    requires Core(st, start, goal, obstacles, n) && current in st.open
    ensures Core(Close(st, current), start, goal, obstacles, n)
    ensures start in Close(st, current).closed
  {
    var r := Close(st, current);
    if start !in st.closed {
      assert st.open == [start];
      assert current == start;
    }
    forall p | p in r.open
      ensures p in r.g
    {
      assert p in st.open;
    }
    forall p | p in r.g
      ensures p in r.open || p in r.closed
    {
      assert p in st.open || p in st.closed;
    }
  }

  lemma RelaxKeepsCore(st: Search, current: Pos, nb: Pos, start: Pos, goal: Pos, obstacles: set<Pos>, n: int)
    requires Core(st, start, goal, obstacles, n) && start in st.closed
    requires current in st.closed && InBounds(nb, n) && Adjacent(current, nb)
    ensures Core(Relax(st, current, nb, goal, obstacles), start, goal, obstacles, n)
  {
    RelaxKeepsRanked(st, current, nb, goal, obstacles);
    var r := Relax(st, current, nb, goal, obstacles);
    if r != st {
      ManhattanTriangle(start, current, nb);
      assert nb != start;
      forall k | k in r.cameFrom
        ensures Adjacent(r.cameFrom[k], k) && r.g[k] == r.g[r.cameFrom[k]] + 1
      {
        if k != nb {
          assert st.cameFrom[k] != nb;
        }
      }
    }
  }

  lemma RelaxAllKeepsCore(st: Search, current: Pos, nbs: seq<Pos>, start: Pos, goal: Pos, obstacles: set<Pos>, n: int)
    requires Core(st, start, goal, obstacles, n) && start in st.closed && current in st.closed
    requires forall q :: q in nbs ==> InBounds(q, n) && Adjacent(current, q)
    ensures Core(RelaxAll(st, current, nbs, goal, obstacles), start, goal, obstacles, n)
    decreases |nbs|
  {
    if |nbs| > 0 {
      RelaxKeepsCore(st, current, nbs[0], start, goal, obstacles, n);
      RelaxAllKeepsCore(Relax(st, current, nbs[0], goal, obstacles), current, nbs[1..], start, goal, obstacles, n);
    }
  }

  lemma ExpandKeepsCore(st: Search, current: Pos, start: Pos, goal: Pos, obstacles: set<Pos>, n: int)
    requires Core(st, start, goal, obstacles, n) && current in st.open
    ensures current in st.g
    ensures Core(Expand(st, current, goal, obstacles, n), start, goal, obstacles, n)
  {
    CloseKeepsCore(st, current, start, goal, obstacles, n);
    RelaxAllKeepsCore(Close(st, current), current, Neighbors(current, n), start, goal, obstacles, n);
  }

  /** The walk rebuilt from a consistent state's links is a path from the start. */
  lemma ReconstructedIsPath(st: Search, current: Pos, start: Pos, goal: Pos, obstacles: set<Pos>, n: int)
    requires Core(st, start, goal, obstacles, n) && current in st.g
    ensures IsPath(ReconstructPath(st.cameFrom, st.g, current), start, current, obstacles, n)
  {
    var path := ReconstructPath(st.cameFrom, st.g, current);
    assert path[0] in st.g && path[0] !in st.cameFrom;
    assert path[0] == start;
    forall i | 1 <= i < |path|
      ensures Adjacent(path[i - 1], path[i]) && InBounds(path[i], n) && path[i] !in obstacles
    {
      assert path[i] in st.cameFrom;
      assert path[i] in st.g && path[i] != start;
    }
    forall i | 0 <= i < |path| - 1
      ensures Adjacent(path[i], path[i + 1])
    {
      assert Adjacent(path[(i + 1) - 1], path[i + 1]);
    }
  }

  /** Every path the loop reports starts at `start`, ends at `goal`, moves by unit steps and avoids walls and obstacles. */
  lemma {:induction false} SearchFromIsPath(st: Search, start: Pos, goal: Pos, obstacles: set<Pos>, n: int, iterations: nat)
    requires Core(st, start, goal, obstacles, n) && iterations <= MAX_ITERATIONS
    ensures var r := SearchFrom(st, goal, obstacles, n, iterations); r.Some? ==> IsPath(r.value, start, goal, obstacles, n)
    decreases MAX_ITERATIONS - iterations
  {
    if |st.open| == 0 || iterations == MAX_ITERATIONS {
      SearchFromStops(st, goal, obstacles, n, iterations);
    } else if st.open[LowestFScore(st.open, st.f)] == goal {
      SearchFromFinds(st, goal, obstacles, n, iterations);
      ReconstructedIsPath(st, goal, start, goal, obstacles, n);
    } else {
      var current := st.open[LowestFScore(st.open, st.f)];
      ExpandKeepsCore(st, current, start, goal, obstacles, n);
      SearchFromIsPath(Expand(st, current, goal, obstacles, n), start, goal, obstacles, n, iterations + 1);
      SearchFromContinues(st, goal, obstacles, n, iterations);
    }
  }

  /** Cells closed under free moves: every free on-grid neighbour of a member is a member. */
  ghost predicate Encloses(region: iset<Pos>, obstacles: set<Pos>, n: int) {
    forall p, q :: p in region && InBounds(q, n) && Adjacent(p, q) && q !in obstacles ==> q in region
  }

  /** A path whose cells after the first are on the grid and free never leaves an enclosing region. */
  lemma {:induction false} PathStaysInRegion(path: seq<Pos>, start: Pos, goal: Pos, obstacles: set<Pos>, n: int, region: iset<Pos>, k: nat)
    requires IsPath(path, start, goal, obstacles, n) && Encloses(region, obstacles, n) && start in region
    requires k < |path|
    ensures path[k] in region
    decreases k
  {
    if k > 0 {
      PathStaysInRegion(path, start, goal, obstacles, n, region, k - 1);
      assert Adjacent(path[k - 1], path[k]);
    }
  }

  /** No path is reported when the goal lies outside a region containing the start that free moves cannot leave. */
  lemma NoPathOutOfRegion(start: Pos, goal: Pos, obstacles: set<Pos>, n: int, region: iset<Pos>)
    requires start in region && goal !in region && Encloses(region, obstacles, n)
    ensures FindPath(start, goal, obstacles, n) == None
  {
    var r := FindPath(start, goal, obstacles, n);
    if r.Some? {
      PathEndsInRegion(r.value, start, goal, obstacles, n, region);
    }
  }

  /** A path from a cell of an enclosing region ends in the region. */
  lemma PathEndsInRegion(path: seq<Pos>, start: Pos, goal: Pos, obstacles: set<Pos>, n: int, region: iset<Pos>)
    requires IsPath(path, start, goal, obstacles, n) && Encloses(region, obstacles, n) && start in region
    ensures goal in region
  {
    PathStaysInRegion(path, start, goal, obstacles, n, region, |path| - 1);
  }

  /**
   * No path is reported when the goal is an obstacle, or when the start is
   * not next to it and every on-grid neighbour of the goal is an obstacle.
   */
  lemma BlockedGoalHasNoPath(start: Pos, goal: Pos, obstacles: set<Pos>, n: int)
    requires start != goal
    requires goal in obstacles || (!Adjacent(start, goal) && forall q :: InBounds(q, n) && Adjacent(goal, q) ==> q in obstacles)
    ensures FindPath(start, goal, obstacles, n) == None
  {
    var region := iset p | p != goal && (p == start || (InBounds(p, n) && p !in obstacles));
    forall p, q | p in region && InBounds(q, n) && Adjacent(p, q) && q !in obstacles
      ensures q in region
    {
      if q == goal {
        ManhattanSymmetric(p, q);
      }
    }
    NoPathOutOfRegion(start, goal, obstacles, n, region);
  }
}

=== FILE: astar_optimal.dfy ===
/**
 * Optimality of the path finder on a grid without obstacles: when nothing
 * blocks the way and the grid has at most MAX_ITERATIONS cells, the search
 * returns a path of exactly Manhattan-distance steps.
 *
 * The argument follows the textbook one for a consistent heuristic.  Every
 * closed cell lies on a shortest start-goal path with its exact distance as
 * g-score, and every free neighbour of a closed cell is known with a g-score
 * at most one above it.  Walking the corner path (first along x, then along
 * y) from the start, the first cell that is not closed is open with
 * f-score equal to the distance, so the lowest-f cell selected next is on a
 * shortest path too.  Each iteration closes one more on-grid cell, so the
 * goal is reached before the cap.
 */
module AStarOptimal {
  import opened Config
  import opened Grid
  import opened GridCount
  import opened AStar

  /** Every on-grid neighbour of closed cell `c` is closed, or open with a g-score at most one above c's. */
  ghost predicate Closure(st: Search, c: Pos, n: int) {
    forall q :: InBounds(q, n) && Adjacent(c, q) ==>
      q in st.closed || (q in st.open && q in st.g && c in st.g && st.g[q] <= st.g[c] + 1)
  }

  /** Score facts every search state has: open cells are scored, f = g + h, g never below the distance from start. */
  ghost predicate Basics(st: Search, start: Pos, goal: Pos) {
    && (forall p :: p in st.open ==> p in st.g)
    && (forall p :: p in st.g ==> p in st.f && st.f[p] == st.g[p] + Manhattan(p, goal) && st.g[p] >= Manhattan(start, p))
    && start in st.g && st.g[start] == 0
    && (start in st.closed || st.open == [start])
  }

  lemma CoreBasics(st: Search, start: Pos, goal: Pos, obstacles: set<Pos>, n: int)
    requires Core(st, start, goal, obstacles, n)
    ensures Basics(st, start, goal)
  {
  }

  /** Every closed cell has its neighbours in reach and lies, with its exact distance, on a shortest path. */
  ghost predicate ClosedExact(st: Search, start: Pos, goal: Pos, n: int) {
    forall c :: c in st.closed ==>
      && c in st.g
      && Closure(st, c, n)
      && st.g[c] == Manhattan(start, c)
      && Manhattan(start, c) + Manhattan(c, goal) == Manhattan(start, goal)
  }

  ghost predicate Exact(st: Search, start: Pos, goal: Pos, n: int) {
    Basics(st, start, goal) && goal !in st.closed && ClosedExact(st, start, goal, n)
  }

  /** The loop invariant on an obstacle-free grid. */
  ghost predicate Free(st: Search, start: Pos, goal: Pos, n: int) {
    Core(st, start, goal, {}, n) && Exact(st, start, goal, n)
  }

  /** The k-th cell of the corner path: first along x towards the goal, then along y. */
  function Corner(start: Pos, goal: Pos, k: int): Pos {
    var ax := Abs(goal.x - start.x);
    if k <= ax then Pos(if goal.x >= start.x then start.x + k else start.x - k, start.y)
    else Pos(goal.x, if goal.y >= start.y then start.y + (k - ax) else start.y - (k - ax))
  }

  lemma CornerFacts(start: Pos, goal: Pos, n: int, k: int)
    requires InBounds(start, n) && InBounds(goal, n) && 0 <= k <= Manhattan(start, goal)
    ensures Manhattan(start, Corner(start, goal, k)) == k
    ensures Manhattan(Corner(start, goal, k), goal) == Manhattan(start, goal) - k
    ensures InBounds(Corner(start, goal, k), n)
    ensures k < Manhattan(start, goal) ==> Adjacent(Corner(start, goal, k), Corner(start, goal, k + 1))
    ensures k == 0 ==> Corner(start, goal, k) == start
    ensures k == Manhattan(start, goal) ==> Corner(start, goal, k) == goal
  {
  }

  /** Beyond the closed prefix of the corner path lies an open cell whose f-score is the distance. */
  lemma {:induction false} FrontierFrom(st: Search, start: Pos, goal: Pos, n: int, k: nat)
    requires InBounds(start, n) && InBounds(goal, n)
    requires Exact(st, start, goal, n)
    requires k < Manhattan(start, goal) && Corner(start, goal, k) in st.closed
    ensures exists p :: p in st.open && p in st.f && st.f[p] == Manhattan(start, goal)
    decreases Manhattan(start, goal) - k
  {
    var next := Corner(start, goal, k + 1);
    if next in st.closed {
      FrontierFrom(st, start, goal, n, k + 1);
    } else {
      FrontierCell(st, start, goal, n, k);
    }
  }

  /** The corner-path cell after a closed one, when not closed itself, is open with f-score the distance. */
  lemma FrontierCell(st: Search, start: Pos, goal: Pos, n: int, k: nat)
    requires InBounds(start, n) && InBounds(goal, n) && Basics(st, start, goal)
    requires k < Manhattan(start, goal)
    requires Corner(start, goal, k) in st.g && Closure(st, Corner(start, goal, k), n)
    requires st.g[Corner(start, goal, k)] == Manhattan(start, Corner(start, goal, k))
    requires Corner(start, goal, k + 1) !in st.closed
    ensures var next := Corner(start, goal, k + 1);
      next in st.open && next in st.f && st.f[next] == Manhattan(start, goal)
  {
    CornerFacts(start, goal, n, k);
    CornerFacts(start, goal, n, k + 1);
  }

  lemma Frontier(st: Search, start: Pos, goal: Pos, n: int)
    requires InBounds(start, n) && InBounds(goal, n) && start != goal
    requires Exact(st, start, goal, n)
    ensures exists p :: p in st.open && p in st.f && st.f[p] == Manhattan(start, goal)
  {
    if start in st.closed {
      CornerFacts(start, goal, n, 0);
      FrontierFrom(st, start, goal, n, 0);
    } else {
      assert st.open[0] == start;
    }
  }

  /** The lowest-f cell selected by the loop lies on a shortest path and carries its exact distance. */
  lemma SelectedOnShortestPath(st: Search, start: Pos, goal: Pos, n: int)
    requires InBounds(start, n) && InBounds(goal, n) && start != goal
    requires Exact(st, start, goal, n)
    ensures |st.open| > 0
    ensures var c := st.open[LowestFScore(st.open, st.f)];
      && c in st.g
      && st.g[c] == Manhattan(start, c)
      && Manhattan(start, c) + Manhattan(c, goal) == Manhattan(start, goal)
  {
    Frontier(st, start, goal, n);
    SelectedFromFrontier(st, start, goal);
  }

  /** With an open cell of f-score equal to the distance, the lowest-f cell is on a shortest path. */
  lemma SelectedFromFrontier(st: Search, start: Pos, goal: Pos)
    requires Basics(st, start, goal) && start != goal
    requires exists p :: p in st.open && p in st.f && st.f[p] == Manhattan(start, goal)
    ensures |st.open| > 0
    ensures var c := st.open[LowestFScore(st.open, st.f)];
      && c in st.g
      && st.g[c] == Manhattan(start, c)
      && Manhattan(start, c) + Manhattan(c, goal) == Manhattan(start, goal)
  {
    var p :| p in st.open && p in st.f && st.f[p] == Manhattan(start, goal);
    var c := st.open[LowestFScore(st.open, st.f)];
    var j :| 0 <= j < |st.open| && st.open[j] == p;
    ManhattanTriangle(start, c, goal);
    assert Lookup(st.f, p) == Finite(Manhattan(start, goal));
    assert Lookup(st.f, c) == Finite(st.f[c]);
    assert !Below(Lookup(st.f, st.open[j]), Lookup(st.f, c));
  }

  /** Open cells are scored with a positive g-score. */
  ghost predicate OpenPositive(st: Search) {
    forall p :: p in st.open ==> p in st.g && st.g[p] >= 1
  }

  /** One neighbour's relaxation never raises the g-score of an open cell. */
  lemma RelaxLowersOpen(st: Search, current: Pos, nb: Pos, goal: Pos)
    requires current in st.closed && current in st.g && st.g[current] >= 0 && OpenPositive(st)
    ensures var r := Relax(st, current, nb, goal, {});
      && OpenPositive(r)
      && (forall p :: p in st.open ==> p in r.g && r.g[p] <= st.g[p])
  {
  }

  /** Relaxing all neighbours lowers no open g-score and leaves every unclosed neighbour open at most one above `current`. */
  lemma {:induction false} RelaxAllReaches(st: Search, current: Pos, nbs: seq<Pos>, goal: Pos)
    requires current in st.closed && current in st.g && st.g[current] >= 0 && OpenPositive(st)
    ensures var r := RelaxAll(st, current, nbs, goal, {});
      && (forall p :: p in st.open ==> p in r.g && r.g[p] <= st.g[p])
      && (forall q :: q in nbs && q !in st.closed ==> q in r.open && q in r.g && r.g[q] <= st.g[current] + 1)
    decreases |nbs|
  {
    if |nbs| > 0 {
      var s1 := Relax(st, current, nbs[0], goal, {});
      RelaxLowersOpen(st, current, nbs[0], goal);
      RelaxAllReaches(s1, current, nbs[1..], goal);
      forall q | q in nbs && q !in st.closed
        ensures q in nbs[1..] || q == nbs[0]
      {
      }
    }
  }

  /** What expanding `c` does to the cells the invariant talks about. */
  ghost predicate Reaches(st: Search, r: Search, c: Pos, n: int) {
    && r.closed == st.closed + {c}
    && c in st.g && c in r.g && r.g[c] == st.g[c]
    && (forall p :: p in st.closed ==> p in st.g && p in r.g && r.g[p] == st.g[p])
    && (forall p :: p in st.open && p != c ==> p in r.open && p in st.g && p in r.g && r.g[p] <= st.g[p])
    && (forall q :: InBounds(q, n) && Adjacent(c, q) && q !in r.closed ==> q in r.open && q in r.g && r.g[q] <= st.g[c] + 1)
  }

  lemma ExpandReaches(st: Search, c: Pos, start: Pos, goal: Pos, n: int)
    requires Core(st, start, goal, {}, n) && c in st.open
    ensures c in st.g
    ensures Reaches(st, Expand(st, c, goal, {}, n), c, n)
  {
    CloseKeepsCore(st, c, start, goal, {}, n);
    var cl := Close(st, c);
    assert OpenPositive(cl) by {
      forall p | p in cl.open
        ensures p in cl.g && cl.g[p] >= 1
      {
        assert p in st.open && p != start;
      }
    }
    RelaxAllReaches(cl, c, Neighbors(c, n), goal);
  }

  /** Closing the selected cell keeps every closed cell exact and in reach of its neighbours. */
  lemma ExactStep(st: Search, r: Search, c: Pos, start: Pos, goal: Pos, n: int)
    requires Exact(st, start, goal, n) && Basics(r, start, goal) && Reaches(st, r, c, n)
    requires c in st.open && c != goal
    requires st.g[c] == Manhattan(start, c) && Manhattan(start, c) + Manhattan(c, goal) == Manhattan(start, goal)
    ensures Exact(r, start, goal, n)
  {
    forall d | d in r.closed
      ensures Closure(r, d, n)
    {
      if d != c {
        assert Closure(st, d, n);
      }
    }
  }

  /** Expanding the selected cell keeps the invariant and closes one more cell. */
  lemma ExpandKeepsFree(st: Search, start: Pos, goal: Pos, n: int)
    requires InBounds(start, n) && InBounds(goal, n) && start != goal
    requires Free(st, start, goal, n) && |st.open| > 0
    requires st.open[LowestFScore(st.open, st.f)] != goal
    ensures var c := st.open[LowestFScore(st.open, st.f)];
      && c in st.g
      && Free(Expand(st, c, goal, {}, n), start, goal, n)
      && |Expand(st, c, goal, {}, n).closed| == |st.closed| + 1
  {
    var c := st.open[LowestFScore(st.open, st.f)];
    SelectedOnShortestPath(st, start, goal, n);
    ExpandKeepsCore(st, c, start, goal, {}, n);
    ExpandReaches(st, c, start, goal, n);
    var r := Expand(st, c, goal, {}, n);
    CoreBasics(r, start, goal, {}, n);
    ExactStep(st, r, c, start, goal, n);
    assert c !in st.closed;
  }

  /** An exact search on a small grid has closed fewer cells than the iteration cap, the goal not among them. */
  lemma FreeBelowCap(st: Search, start: Pos, goal: Pos, n: int)
    requires InBounds(start, n) && InBounds(goal, n) && n * n <= MAX_ITERATIONS && Free(st, start, goal, n)
    ensures |st.closed| < MAX_ITERATIONS
  {
    forall p | p in st.closed + {goal}
      ensures InBounds(p, n)
    {
    }
    InBoundsSetSize(st.closed + {goal}, n);
  }

  /** From an invariant state the loop finds a path of at most distance-plus-one cells. */
  lemma {:induction false} FreeSearch(st: Search, start: Pos, goal: Pos, n: int, iterations: nat)
    requires InBounds(start, n) && InBounds(goal, n) && start != goal && n * n <= MAX_ITERATIONS
    requires Free(st, start, goal, n) && |st.closed| == iterations && iterations <= MAX_ITERATIONS
    ensures var r := SearchFrom(st, goal, {}, n, iterations);
      r.Some? && |r.value| <= Manhattan(start, goal) + 1
    decreases MAX_ITERATIONS - iterations
  {
    var found, next := FreeIteration(st, start, goal, n, iterations);
    if !found {
      FreeSearch(next, start, goal, n, iterations + 1);
    }
  }

  /** One iteration of the loop: either it returns a short enough path, or it leads to the next state. */
  lemma FreeIteration(st: Search, start: Pos, goal: Pos, n: int, iterations: nat) returns (found: bool, next: Search)
    requires InBounds(start, n) && InBounds(goal, n) && start != goal && n * n <= MAX_ITERATIONS
    requires Free(st, start, goal, n) && |st.closed| == iterations && iterations <= MAX_ITERATIONS
    ensures iterations < MAX_ITERATIONS
    ensures found ==> var r := SearchFrom(st, goal, {}, n, iterations);
      r.Some? && |r.value| <= Manhattan(start, goal) + 1
    ensures !found ==> Free(next, start, goal, n) && |next.closed| == iterations + 1
    ensures !found ==> SearchFrom(st, goal, {}, n, iterations) == SearchFrom(next, goal, {}, n, iterations + 1)
  {
    FreeBelowCap(st, start, goal, n);
    SelectedOnShortestPath(st, start, goal, n);
    found := st.open[LowestFScore(st.open, st.f)] == goal;
    next := st;
    if found {
      FreeGoalFound(st, start, goal, n, iterations);
    } else {
      next := NextFreeState(st, start, goal, n, iterations);
    }
  }

  /** Selecting the goal ends the loop with a path no longer than the distance plus one. */
  lemma FreeGoalFound(st: Search, start: Pos, goal: Pos, n: int, iterations: nat)
    requires InBounds(start, n) && InBounds(goal, n) && start != goal
    requires Free(st, start, goal, n) && iterations < MAX_ITERATIONS
    requires |st.open| > 0 && st.open[LowestFScore(st.open, st.f)] == goal
    ensures var r := SearchFrom(st, goal, {}, n, iterations);
      r.Some? && |r.value| <= Manhattan(start, goal) + 1
  {
    SelectedOnShortestPath(st, start, goal, n);
    SearchFromFinds(st, goal, {}, n, iterations);
  }

  /** The state after one more iteration, named without its construction. */
  lemma NextFreeState(st: Search, start: Pos, goal: Pos, n: int, iterations: nat) returns (next: Search)
    requires InBounds(start, n) && InBounds(goal, n) && start != goal
    requires Free(st, start, goal, n) && |st.closed| == iterations && iterations < MAX_ITERATIONS
    requires |st.open| > 0 && st.open[LowestFScore(st.open, st.f)] != goal
    ensures Free(next, start, goal, n) && |next.closed| == iterations + 1
    ensures SearchFrom(st, goal, {}, n, iterations) == SearchFrom(next, goal, {}, n, iterations + 1)
  {
    FreeStepOn(st, start, goal, n, iterations);
    next := Expand(st, st.open[LowestFScore(st.open, st.f)], goal, {}, n);
  }

  /** Selecting another cell expands it, keeps the invariant and closes one more cell. */
  lemma FreeStepOn(st: Search, start: Pos, goal: Pos, n: int, iterations: nat)
    requires InBounds(start, n) && InBounds(goal, n) && start != goal
    requires Free(st, start, goal, n) && |st.closed| == iterations && iterations < MAX_ITERATIONS
    requires |st.open| > 0 && st.open[LowestFScore(st.open, st.f)] != goal
    ensures st.open[LowestFScore(st.open, st.f)] in st.g
    ensures var next := Expand(st, st.open[LowestFScore(st.open, st.f)], goal, {}, n);
      && Free(next, start, goal, n) && |next.closed| == iterations + 1
      && SearchFrom(st, goal, {}, n, iterations) == SearchFrom(next, goal, {}, n, iterations + 1)
  {
    ExpandKeepsFree(st, start, goal, n);
    SearchFromContinues(st, goal, {}, n, iterations);
  }

  /**
   * On a grid of at most MAX_ITERATIONS cells with no obstacles the path
   * finder always succeeds, and its path has exactly one cell more than the
   * Manhattan distance: it is a shortest path.
   */
  lemma FreeGridPathIsShortest(start: Pos, goal: Pos, n: int)
    requires InBounds(start, n) && InBounds(goal, n) && n * n <= MAX_ITERATIONS
    ensures var r := FindPath(start, goal, {}, n);
      r.Some? && |r.value| == Manhattan(start, goal) + 1
  {
    if start != goal {
      InitialCore(start, goal, {}, n);
      FreeSearch(InitialSearch(start, goal), start, goal, n, 0);
    }
  }

  /** The game's 20-by-20 board is small enough for the bound above. */
  lemma GameGridPathIsShortest(start: Pos, goal: Pos)
    requires InBounds(start, GRID_SIZE) && InBounds(goal, GRID_SIZE)
    ensures var r := FindPath(start, goal, {}, GRID_SIZE);
      r.Some? && |r.value| == Manhattan(start, goal) + 1
  {
    FreeGridPathIsShortest(start, goal, GRID_SIZE);
  }
}

=== FILE: choice.dfy ===
/**
 * Choosing the best-scored candidate.  Both AI move pickers keep the first
 * candidate whose score is maximal: one by a strict-greater scan, the other
 * by a stable descending sort whose head is the same element.
 */
module Choice {

  /** The first element of `xs` with the greatest score. */
  function FirstArgMax<T>(xs: seq<T>, score: T -> int): (r: T)
    requires |xs| > 0
    ensures r in xs
    ensures forall x :: x in xs ==> score(x) <= score(r)
    ensures exists k :: 0 <= k < |xs| && xs[k] == r && forall j :: 0 <= j < k ==> score(xs[j]) < score(r)
  {
    xs[ArgMaxFrom(xs, score, 1, 0)]
  }

  /** Scan from index `i`, keeping the index `best` of the first maximum seen so far. */
  function ArgMaxFrom<T>(xs: seq<T>, score: T -> int, i: nat, best: nat): (k: nat)
    requires best < i <= |xs|
    requires forall j :: 0 <= j < i ==> score(xs[j]) <= score(xs[best])
    requires forall j :: 0 <= j < best ==> score(xs[j]) < score(xs[best])
    ensures best <= k < |xs|
    ensures forall j :: 0 <= j < |xs| ==> score(xs[j]) <= score(xs[k])
    ensures forall j :: 0 <= j < k ==> score(xs[j]) < score(xs[k])
    decreases |xs| - i
  {
    if i == |xs| then best
    else if score(xs[i]) > score(xs[best]) then ArgMaxFrom(xs, score, i + 1, i)
    else ArgMaxFrom(xs, score, i + 1, best)
  }

  /** Ties go to the earliest candidate: when the first element is maximal it is chosen. */
  lemma FirstMaximalWins<T>(xs: seq<T>, score: T -> int)
    requires |xs| > 0
    requires forall x :: x in xs ==> score(x) <= score(xs[0])
    ensures FirstArgMax(xs, score) == xs[0]
  {
    var r := FirstArgMax(xs, score);
    var k :| 0 <= k < |xs| && xs[k] == r && forall j :: 0 <= j < k ==> score(xs[j]) < score(r);
    if k > 0 {
      assert false;
    }
  }

  /**
   * In a list strictly ordered by `rank`, the first maximum outscores every
   * member ranked before it: ties go to the lower rank.
   */
  lemma FirstArgMaxBeatsEarlier<T>(xs: seq<T>, score: T -> int, rank: T -> int)
    requires |xs| > 0
    requires forall i, j :: 0 <= i < j < |xs| ==> rank(xs[i]) < rank(xs[j])
    ensures forall x :: x in xs && rank(x) < rank(FirstArgMax(xs, score)) ==> score(x) < score(FirstArgMax(xs, score))
  {
    var best := FirstArgMax(xs, score);
    var k :| 0 <= k < |xs| && xs[k] == best && forall j :: 0 <= j < k ==> score(xs[j]) < score(best);
    forall x | x in xs && rank(x) < rank(best)
      ensures score(x) < score(best)
    {
      var i :| 0 <= i < |xs| && xs[i] == x;
      assert i < k;
    }
  }
}

=== FILE: commentary.dfy ===
/**
 * The commentary manager's logic: the gate an event passes (enabled, known
 * type, 5000 ms cooldown that critical events skip), the cleaning of a
 * generated comment, the canned comments, the prompt's event details, and
 * the near-miss scan around a snake's head.  The clock and the random draw
 * are parameters; the display is the comment returned.
 */
module Commentary {
  import opened Common
  import opened Config
  import opened Grid
  import opened Text
  import opened AStar

  datatype Event = PlayerEat | AIEat | ScoreMilestone | NearMiss | PlayerWin | AIWin | DrawEvent | Comeback

  datatype Priority = Low | MediumPriority | High | Critical

  function EventName(e: Event): string {
    match e
    case PlayerEat => "PLAYER_EAT"
    case AIEat => "AI_EAT"
    case ScoreMilestone => "SCORE_MILESTONE"
    case NearMiss => "NEAR_MISS"
    case PlayerWin => "PLAYER_WIN"
    case AIWin => "AI_WIN"
    case DrawEvent => "DRAW"
    case Comeback => "COMEBACK"
  }

  /** The event type a name denotes, if any. */
  function EventOf(name: string): (r: Option<Event>)
    ensures r.Some? ==> EventName(r.value) == name
    ensures r.None? ==> forall e :: EventName(e) != name
  {
    if name == "PLAYER_EAT" then Some(PlayerEat)
    else if name == "AI_EAT" then Some(AIEat)
    else if name == "SCORE_MILESTONE" then Some(ScoreMilestone)
    else if name == "NEAR_MISS" then Some(NearMiss)
    else if name == "PLAYER_WIN" then Some(PlayerWin)
    else if name == "AI_WIN" then Some(AIWin)
    else if name == "DRAW" then Some(DrawEvent)
    else if name == "COMEBACK" then Some(Comeback)
    else None
  }

  lemma EventNameRoundTrip(e: Event)
    ensures EventOf(EventName(e)) == Some(e)
  {
  }

  /** The priority of each event type: the game endings are critical. */
  function PriorityOf(e: Event): (p: Priority)
    ensures p == Critical <==> e in {PlayerWin, AIWin, DrawEvent}
  {
    match e
    case PlayerEat => MediumPriority
    case AIEat => MediumPriority
    case ScoreMilestone => High
    case NearMiss => Low
    case PlayerWin => Critical
    case AIWin => Critical
    case DrawEvent => Critical
    case Comeback => High
  }

  // ---- The event gate ----

  /** The least time, in milliseconds, between two non-critical comments. */
  const COOLDOWN: int := 5000

  /** The manager's state the gate reads and writes. */
  datatype Manager = Manager(enabled: bool, lastCommentTime: int)

  function NewManager(): (m: Manager)
    ensures !m.enabled
  {
    Manager(false, 0)
  }

  /** `setEnabled`: the flag is replaced, the time of the last comment kept. */
  function SetEnabled(m: Manager, enabled: bool): (r: Manager)
    ensures r.enabled == enabled && r.lastCommentTime == m.lastCommentTime
  {
    m.(enabled := enabled)
  }

  /** Whether an event of type `e` arriving at `now` is commented on. */
  predicate Accepts(m: Manager, e: Event, now: int) {
    PriorityOf(e) == Critical || now - m.lastCommentTime >= COOLDOWN
  }

  /**
   * `triggerEvent`: while disabled, or for an unknown type, nothing happens;
   * a non-critical event within the cooldown is skipped; otherwise the time
   * is recorded and a canned comment for the event is shown.
   */
  function TriggerEvent(m: Manager, name: string, now: int, pick: real): (r: (Manager, Option<string>))
    requires 0.0 <= pick < 1.0
    ensures !m.enabled ==> r == (m, None)
    ensures EventOf(name).None? ==> r == (m, None)
    ensures r.1.Some? <==> m.enabled && EventOf(name).Some? && Accepts(m, EventOf(name).value, now)
    ensures r.1.None? ==> r.0 == m
    ensures r.1.Some? ==> r.0 == m.(lastCommentTime := now) && r.1.value in FallbackComments(EventOf(name).value)
  {
    if !m.enabled then (m, None)
    else
      match EventOf(name)
      case None => (m, None)
      case Some(e) =>
        if PriorityOf(e) != Critical && now - m.lastCommentTime < COOLDOWN then (m, None)
        else (m.(lastCommentTime := now), Some(GetFallbackComment(name, pick)))
  }

  /** Two non-critical comments are always at least the cooldown apart. */
  lemma CooldownSpacing(m: Manager, a: string, t1: int, p1: real, b: string, t2: int, p2: real)
    requires 0.0 <= p1 < 1.0 && 0.0 <= p2 < 1.0
    requires EventOf(b).Some? && PriorityOf(EventOf(b).value) != Critical
    requires TriggerEvent(m, a, t1, p1).1.Some?
    requires TriggerEvent(TriggerEvent(m, a, t1, p1).0, b, t2, p2).1.Some?
    ensures t2 - t1 >= COOLDOWN
  {
  }

  /** A game ending is commented on whenever commentary is enabled, however recent the last comment. */
  lemma CriticalAlwaysShown(m: Manager, e: Event, now: int, pick: real)
    requires 0.0 <= pick < 1.0 && m.enabled && PriorityOf(e) == Critical
    ensures TriggerEvent(m, EventName(e), now, pick).1.Some?
  {
    EventNameRoundTrip(e);
  }

  // ---- Cleaning a generated comment ----

  predicate IsQuote(c: char) {
    c == '"' || c == '\''
  }

  /** `replace(/^["']|["']$/g, '')`: at most one quote removed from each end. */
  function StripQuotes(s: string): (r: string)
    ensures |s| > 0 && IsQuote(s[0]) && |s| >= 2 && IsQuote(s[|s| - 1]) ==> r == s[1..|s| - 1]
    ensures |s| > 0 && IsQuote(s[0]) && !(|s| >= 2 && IsQuote(s[|s| - 1])) ==> r == s[1..]
    ensures (|s| == 0 || !IsQuote(s[0])) && |s| > 0 && IsQuote(s[|s| - 1]) ==> r == s[..|s| - 1]
    ensures (|s| == 0 || !IsQuote(s[0])) && !(|s| > 0 && IsQuote(s[|s| - 1])) ==> r == s
  {
    var lo := if |s| > 0 && IsQuote(s[0]) then 1 else 0;
    var hi := if |s| > lo && IsQuote(s[|s| - 1]) then |s| - 1 else |s|;
    s[lo..hi]
  }

  /** The longest comment shown, and the prefix kept when a longer one is cut. */
  const MAX_COMMENT: nat := 50
  const KEPT_PREFIX: nat := 47

  /** Cut a comment longer than 50 characters to its first 47 followed by "...". */
  function Truncate(s: string): (r: string)
    ensures |r| <= MAX_COMMENT || |r| == |s|
    ensures |s| <= MAX_COMMENT ==> r == s
    ensures |s| > MAX_COMMENT ==> |r| == MAX_COMMENT && r[..KEPT_PREFIX] == s[..KEPT_PREFIX] && r[KEPT_PREFIX..] == "..."
  {
    if |s| > MAX_COMMENT then s[..KEPT_PREFIX] + "..." else s
  }

  /**
   * `parseCommentaryResponse`: no reply or an empty one gives null;
   * otherwise the reply trimmed, stripped of one quote at each end and cut
   * to 50 characters, or null when nothing is left.
   */
  function ParseCommentaryResponse(response: Option<string>): (r: Option<string>)
    ensures response.None? || response == Some("") ==> r.None?
    ensures r.Some? ==> 0 < |r.value| <= MAX_COMMENT
    ensures response.Some? ==>
      var cleaned := StripQuotes(Trim(response.value));
      (r.None? <==> cleaned == "") && (r.Some? ==> r.value == Truncate(cleaned))
  {
    if response.None? || response.value == "" then None
    else
      var commentary := Truncate(StripQuotes(Trim(response.value)));
      if commentary == "" then None else Some(commentary)
  }

  /** A short comment, quoted and padded with white space, comes back exactly. */
  lemma ParseQuotedComment(pre: string, q1: char, s: string, q2: char, post: string)
    requires AllSpace(pre) && AllSpace(post) && IsQuote(q1) && IsQuote(q2)
    requires 0 < |s| <= MAX_COMMENT && !IsQuote(s[0]) && !IsQuote(s[|s| - 1])
    ensures ParseCommentaryResponse(Some(pre + [q1] + s + [q2] + post)) == Some(s)
  {
    var quoted := [q1] + s + [q2];
    assert pre + [q1] + s + [q2] + post == pre + quoted + post;
    TrimStripsPadding(pre, quoted, post);
    StripQuotedComment(q1, s, q2);
  }

  /** Stripping a comment enclosed in quotes leaves the comment. */
  lemma StripQuotedComment(q1: char, s: string, q2: char)
    requires IsQuote(q1) && IsQuote(q2)
    ensures StripQuotes([q1] + s + [q2]) == s
  {
    var quoted := [q1] + s + [q2];
    assert quoted[1..|quoted| - 1] == s;
  }

  /** A long comment without quotes or padding keeps its first 47 characters and gains "...". */
  lemma ParseLongComment(s: string)
    requires |s| > MAX_COMMENT && !IsSpace(s[0]) && !IsSpace(s[|s| - 1]) && !IsQuote(s[0]) && !IsQuote(s[|s| - 1])
    ensures ParseCommentaryResponse(Some(s)) == Some(s[..KEPT_PREFIX] + "...")
  {
    TrimKeepsInner(s);
  }

  /** Only a single quote at each end is removed: doubled quotes keep their inner pair. */
  lemma StripOneQuoteEach(s: string)
    requires |s| > 0
    ensures StripQuotes("\"\"" + s + "\"\"") == "\"" + s + "\""
  {
    var all := "\"\"" + s + "\"\"";
    assert all[0] == '"' && all[|all| - 1] == '"';
    assert all[1..|all| - 1] == "\"" + s + "\"";
  }

  // ---- Canned comments ----

  /** The canned comments of each event type. */
  function FallbackComments(e: Event): (cs: seq<string>)
    ensures |cs| >= 5
  {
    match e
    case PlayerEat => ["Nice catch!", "Score! Keep it up!", "Nom nom nom!", "That's how it's done!", "Radical move!", "Totally awesome!"]
    case AIEat => ["AI strikes back!", "Competition heating up!", "The AI is hungry too!", "Bogus! AI scored!", "Don't have a cow, man!"]
    case ScoreMilestone => ["Milestone reached!", "You're on fire!", "Impressive score!", "That's totally tubular!", "All that and a bag of chips!"]
    case NearMiss => ["Whoa, close call!", "That was close!", "Watch out!", "Almost pulled a Titanic there!", "Close but no cigar!"]
    case PlayerWin => ["Victory! Well played!", "You win! Champion!", "Game over - You won!", "PLAYER WINS! That was phat!", "You're the bomb!"]
    case AIWin => ["AI wins this round.", "Better luck next time!", "The AI got you!", "Bogus! AI takes it.", "Don't sweat it, dude!"]
    case DrawEvent => ["It's a draw!", "Both down! Tie game!", "Mutual destruction!", "Plot twist! It's a tie!", "Both snakes bit the dust!"]
    case Comeback => ["Plot twist! Underdog takes the lead!", "Comeback city!", "The tables have turned!", "What a turnaround!", "From zero to hero!"]
  }

  /** The comment shown when an event type has no canned comments. */
  const DEFAULT_COMMENT: string := "Totally radical!"

  /** `getFallbackComment`: the canned comment the draw selects, or the default for an unknown type. */
  function GetFallbackComment(name: string, pick: real): (r: string)
    requires 0.0 <= pick < 1.0
    ensures EventOf(name).Some? ==> r in FallbackComments(EventOf(name).value)
    ensures EventOf(name).None? ==> r == DEFAULT_COMMENT
  {
    match EventOf(name)
    case None => DEFAULT_COMMENT
    case Some(e) =>
      var cs := FallbackComments(e);
      cs[PickIndex(pick, |cs|)]
  }

  /** Every canned comment of an event can be drawn: the draw k / n selects the k-th. */
  lemma EveryFallbackReachable(e: Event, k: nat)
    requires k < |FallbackComments(e)|
    ensures var n := |FallbackComments(e)|;
      GetFallbackComment(EventName(e), k as real / n as real) == FallbackComments(e)[k]
  {
    EventNameRoundTrip(e);
    PickFraction(k, |FallbackComments(e)|);
  }

  // ---- Event details for the prompt ----

  /** The decimal digits of a count, as a template literal renders it. */
  function Decimal(n: nat): (s: string)
    ensures |s| > 0 && forall i :: 0 <= i < |s| ==> '0' <= s[i] <= '9'
  {
    if n < 10 then [DigitChar(n)] else Decimal(n / 10) + [DigitChar(n % 10)]
  }

  function DigitChar(d: nat): (c: char)
    requires d < 10
    ensures '0' <= c <= '9' && c as int - '0' as int == d
  {
    ('0' as int + d) as char
  }

  /** The value of a string of decimal digits. */
  function DecimalValue(s: string): nat {
    if |s| == 0 then 0
    else
      var c := s[|s| - 1];
      DecimalValue(s[..|s| - 1]) * 10 + (if '0' <= c <= '9' then c as int - '0' as int else 0)
  }

  /** Reading back the rendered digits gives the count. */
  lemma {:induction false} DecimalRoundTrip(n: nat)
    ensures DecimalValue(Decimal(n)) == n
  {
    if n >= 10 {
      DecimalRoundTrip(n / 10);
      var s := Decimal(n);
      assert s[..|s| - 1] == Decimal(n / 10);
    }
  }

  /** The event data the details read; a missing or zero score is shown as 0, a missing or empty obstacle as "something". */
  datatype EventData = EventData(playerScore: Option<nat>, aiScore: Option<nat>, obstacle: Option<string>)

  function ScoreOr0(s: Option<nat>): nat {
    if s.Some? then s.value else 0
  }

  function ObstacleText(o: Option<string>): string {
    if o.Some? && o.value != "" then o.value else "something"
  }

  /** The details line used when the event type is unknown. */
  const DEFAULT_DETAILS: string := "Something interesting happened!"

  /** `getEventDetails`: one line per event type, filled with the event data; a fixed line for unknown types. */
  function GetEventDetails(name: string, data: EventData): (r: string)
    ensures EventOf(name).None? ==> r == DEFAULT_DETAILS
    ensures EventOf(name).Some? ==> r != DEFAULT_DETAILS
  {
    match EventOf(name)
    case None => DEFAULT_DETAILS
    case Some(e) => Details(e, data)
  }

  /**
   * The details line of a known event: a text before the value, the value
   * (a score or the obstacle, nothing for the two fixed lines), and a text
   * after it.
   */
  function Details(e: Event, data: EventData): (r: string)
    ensures r == DetailsBefore(e) + DetailsValue(e, data) + DetailsAfter(e)
    ensures r != DEFAULT_DETAILS
  {
    var r := DetailsBefore(e) + DetailsValue(e, data) + DetailsAfter(e);
    assert r[0] != DEFAULT_DETAILS[0];
    r
  }

  function DetailsBefore(e: Event): (s: string)
    ensures |s| >= 2
  {
    match e
    case PlayerEat => "Player just scored! Now has "
    case AIEat => "AI just scored! Now has "
    case ScoreMilestone => "Player hit "
    case NearMiss => "Player almost crashed into "
    case PlayerWin => "Player won with "
    case AIWin => "AI won with "
    case DrawEvent => "Both snakes crashed! It's a tie!"
    case Comeback => "Trailing player just took the lead!"
  }

  function DetailsValue(e: Event, data: EventData): string {
    match e
    case PlayerEat => Decimal(ScoreOr0(data.playerScore))
    case ScoreMilestone => Decimal(ScoreOr0(data.playerScore))
    case PlayerWin => Decimal(ScoreOr0(data.playerScore))
    case AIEat => Decimal(ScoreOr0(data.aiScore))
    case AIWin => Decimal(ScoreOr0(data.aiScore))
    case NearMiss => ObstacleText(data.obstacle)
    case DrawEvent => ""
    case Comeback => ""
  }

  function DetailsAfter(e: Event): string {
    match e
    case PlayerEat => " points."
    case AIEat => " points. Tease the player."
    case ScoreMilestone => " points! Big milestone!"
    case NearMiss => "! Close call!"
    case PlayerWin => " points! Celebrate!"
    case AIWin => " points. Console the player."
    case DrawEvent => ""
    case Comeback => ""
  }

  /**
   * The player's score events mention the player's score, the AI's mention
   * the AI's score, and the score can be read back from the line at a
   * fixed position.
   */
  lemma DetailsMentionScore(e: Event, data: EventData)
    requires e in {PlayerEat, ScoreMilestone, PlayerWin, AIEat, AIWin}
    ensures var score := if e in {AIEat, AIWin} then ScoreOr0(data.aiScore) else ScoreOr0(data.playerScore);
      var r, start := GetEventDetails(EventName(e), data), |DetailsBefore(e)|;
      && OccursAt(r, Decimal(score), start)
      && DecimalValue(r[start..start + |Decimal(score)|]) == score
  {
    EventNameRoundTrip(e);
    var score := if e in {AIEat, AIWin} then ScoreOr0(data.aiScore) else ScoreOr0(data.playerScore);
    var r, start := GetEventDetails(EventName(e), data), |DetailsBefore(e)|;
    assert r[start..start + |Decimal(score)|] == Decimal(score);
    DecimalRoundTrip(score);
  }

  // ---- Near misses ----

  /** What a near miss was about to hit. */
  datatype Obstacle = Wall | Self

  /** The cell next to the head in direction `d` is on the grid and off the body. */
  predicate Clear(head: Pos, body: seq<Pos>, n: int, d: Direction) {
    InBounds(Step(head, d), n) && Step(head, d) !in body
  }

  /** The scan over `dirs`: the first neighbour off the grid is a wall, the first on the body is the snake itself. */
  function NearMissScan(head: Pos, body: seq<Pos>, n: int, dirs: seq<Direction>): (r: Option<Obstacle>)
    ensures r.None? <==> forall i :: 0 <= i < |dirs| ==> Clear(head, body, n, dirs[i])
    ensures r.Some? ==> exists i :: 0 <= i < |dirs| && FirstBlocked(head, body, n, dirs, i, r.value)
  {
    if |dirs| == 0 then None
    else
      var next := Step(head, dirs[0]);
      if !InBounds(next, n) then
        assert FirstBlocked(head, body, n, dirs, 0, Wall);
        Some(Wall)
      else if next in body then
        assert FirstBlocked(head, body, n, dirs, 0, Self);
        Some(Self)
      else
        var r := NearMissScan(head, body, n, dirs[1..]);
        if r.Some? then
          var i :| 0 <= i < |dirs[1..]| && FirstBlocked(head, body, n, dirs[1..], i, r.value);
          assert FirstBlocked(head, body, n, dirs, i + 1, r.value);
          r
        else
          assert forall i :: 1 <= i < |dirs| ==> dirs[i] == dirs[1..][i - 1];
          r
  }

  /** `dirs[i]` is the first blocked direction, and `o` says whether it is blocked by the wall. */
  predicate FirstBlocked(head: Pos, body: seq<Pos>, n: int, dirs: seq<Direction>, i: int, o: Obstacle) {
    && 0 <= i < |dirs|
    && !Clear(head, body, n, dirs[i])
    && (forall j :: 0 <= j < i ==> Clear(head, body, n, dirs[j]))
    && (o == Wall <==> !InBounds(Step(head, dirs[i]), n))
  }

  /**
   * `detectNearMiss`: the neighbours are checked UP, DOWN, LEFT, RIGHT; the
   * first off the grid gives 'wall', the first on the body 'self', and none
   * gives null.
   */
  function DetectNearMiss(head: Pos, body: seq<Pos>, n: int): (r: Option<Obstacle>)
    ensures r.None? <==> forall d :: Clear(head, body, n, d)
    ensures r.Some? ==> exists d ::
      && !Clear(head, body, n, d)
      && (forall e :: ScanIndex(e) < ScanIndex(d) ==> Clear(head, body, n, e))
      && (r.value == Wall <==> !InBounds(Step(head, d), n))
  {
    var r := NearMissScan(head, body, n, ALL_DIRECTIONS);
    ScanInDirectionOrder(head, body, n, r);
    r
  }

  /** The scan over ALL_DIRECTIONS, restated per direction through the scan order. */
  lemma ScanInDirectionOrder(head: Pos, body: seq<Pos>, n: int, r: Option<Obstacle>)
    requires r == NearMissScan(head, body, n, ALL_DIRECTIONS)
    ensures r.None? <==> forall d :: Clear(head, body, n, d)
    ensures r.Some? ==> exists d ::
      && !Clear(head, body, n, d)
      && (forall e :: ScanIndex(e) < ScanIndex(d) ==> Clear(head, body, n, e))
      && (r.value == Wall <==> !InBounds(Step(head, d), n))
  {
    if r.Some? {
      var i :| 0 <= i < |ALL_DIRECTIONS| && FirstBlocked(head, body, n, ALL_DIRECTIONS, i, r.value);
      var d := ALL_DIRECTIONS[i];
      assert ScanIndex(d) == i;
      forall e | ScanIndex(e) < ScanIndex(d)
        ensures Clear(head, body, n, e)
      {
        assert ALL_DIRECTIONS[ScanIndex(e)] == e;
      }
    } else {
      forall d
        ensures Clear(head, body, n, d)
      {
        assert ALL_DIRECTIONS[ScanIndex(d)] == d;
      }
    }
  }

  /**
   * As written, a snake's neck is one of the cells scanned, so a snake of
   * two or more segments whose neck is next to its head always reports a
   * near miss, even in open space.
   */
  lemma NeckIsAlwaysNearMiss(body: seq<Pos>, n: int)
    requires |body| >= 2 && Adjacent(body[0], body[1])
    ensures DetectNearMiss(body[0], body, n).Some?
  {
    var d := PositionToDirection(body[0], body[1]);
    assert !Clear(body[0], body, n, d);
  }
}

=== FILE: common.dfy ===
/** Small shared value types and the scaling of random draws. */
module Common {

  /** An optional value: the model's rendering of the source's `null` results. */
  datatype Option<+T> = None | Some(value: T)

  /** A draw in [0, 1) scaled by n and floored lands in 0 .. n - 1. */
  lemma FloorBelow(r: real, n: nat)
    requires 0.0 <= r < 1.0 && n > 0
    ensures 0 <= (r * n as real).Floor < n
  {
    assert 0.0 <= r * n as real < n as real;
  }

  /** `Math.floor(Math.random() * n)`: the index a draw `r` in [0, 1) selects among n items. */
  function PickIndex(r: real, n: nat): (i: nat)
    requires 0.0 <= r < 1.0 && n > 0
    ensures i < n
  {
    FloorBelow(r, n);
    (r * n as real).Floor
  }

  /** The draw k / n selects item k: every item can be picked. */
  lemma PickFraction(k: nat, n: nat)
    requires k < n
    ensures 0.0 <= k as real / n as real < 1.0
    ensures PickIndex(k as real / n as real, n) == k
  {
    var r := k as real / n as real;
    assert r * n as real == k as real;
  }

  /**
   * The property names every plain object literal inherits from
   * `Object.prototype`: looking one of them up in a settings table yields a
   * truthy value even though the table does not define it.
   */
  const INHERITED_KEYS: set<string> := {
    "constructor", "hasOwnProperty", "isPrototypeOf", "propertyIsEnumerable", "toString",
    "toLocaleString", "valueOf", "__proto__", "__defineGetter__", "__defineSetter__",
    "__lookupGetter__", "__lookupSetter__"
  }
}

=== FILE: config.dfy ===
/**
 * The game configuration: grid and timing constants, the four directions with
 * their unit vectors and opposites, and the collision outcomes.
 */
module Config {
  import opened Common

  // Grid settings
  const GRID_SIZE: int := 20
  const CELL_SIZE: int := 20
  const CANVAS_WIDTH: int := 400
  const CANVAS_HEIGHT: int := 400

  // Game timing, in milliseconds per move
  const INITIAL_SPEED: int := 150
  const MIN_SPEED: int := 80
  const SPEED_INCREMENT: int := 5

  // Player snake settings
  const INITIAL_LENGTH: nat := 3
  const INITIAL_X: int := 10
  const INITIAL_Y: int := 10
  const INITIAL_DIRECTION: Direction := Right

  // AI snake settings
  const AI_INITIAL_LENGTH: nat := 3
  const AI_INITIAL_X: int := 15
  const AI_INITIAL_Y: int := 15
  const AI_INITIAL_DIRECTION: Direction := Left

  // AI decision settings
  const MAX_RESPONSE_TIME: int := 500
  const CACHE_DURATION: int := 150

  datatype Direction = Up | Down | Left | Right

  /** A grid displacement. */
  datatype Vec = Vec(dx: int, dy: int)

  /** The four directions in the fixed scan order UP, DOWN, LEFT, RIGHT. */
  const ALL_DIRECTIONS: seq<Direction> := [Up, Down, Left, Right]

  /** Position of a direction in the scan order. */
  function ScanIndex(d: Direction): (i: nat)
    ensures i < |ALL_DIRECTIONS| && ALL_DIRECTIONS[i] == d
  {
    match d
    case Up => 0
    case Down => 1
    case Left => 2
    case Right => 3
  }

  /** The scan order lists each direction at its own scan index. */
  lemma ScanOrderIndexes()
    ensures forall i :: 0 <= i < |ALL_DIRECTIONS| ==> ScanIndex(ALL_DIRECTIONS[i]) == i
  {
    assert ALL_DIRECTIONS == [Up, Down, Left, Right];
  }

  /** The directions of `dirs` that satisfy `keep`, in their order in `dirs`. */
  function FilterDirections(dirs: seq<Direction>, keep: Direction -> bool): (ds: seq<Direction>)
    requires forall i, j :: 0 <= i < j < |dirs| ==> ScanIndex(dirs[i]) < ScanIndex(dirs[j])
    ensures |ds| <= |dirs|
    ensures forall d :: d in ds <==> d in dirs && keep(d)
    ensures forall i, j :: 0 <= i < j < |ds| ==> ScanIndex(ds[i]) < ScanIndex(ds[j])
    ensures |ds| > 0 ==> ScanIndex(ds[0]) >= ScanIndex(dirs[0])
  {
    if |dirs| == 0 then []
    else
      var rest := FilterDirections(dirs[1..], keep);
      if keep(dirs[0]) then [dirs[0]] + rest else rest
  }

  /** The directions satisfying `keep`, in the scan order UP, DOWN, LEFT, RIGHT. */
  function ScanFilter(keep: Direction -> bool): (ds: seq<Direction>)
    ensures |ds| <= 4
    ensures forall d :: d in ds <==> keep(d)
    ensures forall i, j :: 0 <= i < j < |ds| ==> ScanIndex(ds[i]) < ScanIndex(ds[j])
  {
    ScanOrderIndexes();
    var ds := FilterDirections(ALL_DIRECTIONS, keep);
    assert forall d :: d in ALL_DIRECTIONS by {
      forall d ensures d in ALL_DIRECTIONS { assert ALL_DIRECTIONS[ScanIndex(d)] == d; }
    }
    ds
  }

  /** The unit vector of a direction; y grows downwards. */
  function Vector(d: Direction): (v: Vec)
    ensures Abs(v.dx) + Abs(v.dy) == 1
  {
    match d
    case Up => Vec(0, -1)
    case Down => Vec(0, 1)
    case Left => Vec(-1, 0)
    case Right => Vec(1, 0)
  }

  function Abs(i: int): nat {
    if i < 0 then -i else i
  }

  /** The reverse direction, used to block 180-degree turns. */
  function Opposite(d: Direction): (r: Direction)
    ensures r != d
    ensures Vector(r) == Vec(-Vector(d).dx, -Vector(d).dy)
  {
    match d
    case Up => Down
    case Down => Up
    case Left => Right
    case Right => Left
  }

  lemma OppositeIsInvolution(d: Direction)
    ensures Opposite(Opposite(d)) == d
  {
  }

  /** The vector table is injective: a displacement names at most one direction. */
  lemma VectorInjective(d: Direction, e: Direction)
    ensures Vector(d) == Vector(e) <==> d == e
  {
  }

  /** The direction's string constant. */
  function Name(d: Direction): string {
    match d
    case Up => "UP"
    case Down => "DOWN"
    case Left => "LEFT"
    case Right => "RIGHT"
  }

  /** Membership test of a string among the direction constants (exact match). */
  function FromName(s: string): (r: Option<Direction>)
    ensures r.Some? ==> Name(r.value) == s
    ensures r.None? ==> forall d: Direction :: Name(d) != s
  {
    if s == "UP" then Some(Up)
    else if s == "DOWN" then Some(Down)
    else if s == "LEFT" then Some(Left)
    else if s == "RIGHT" then Some(Right)
    else None
  }

  lemma NameRoundTrip(d: Direction)
    ensures FromName(Name(d)) == Some(d)
  {
  }

  /** Collision outcomes of the two-snake configuration. */
  datatype Collision = NoCollision | WallHit | SelfHit | FoodHit | AiSnakeHit | PlayerSnakeHit

  /** The collision outcomes of the single-snake configuration. */
  const SINGLE_SNAKE_COLLISIONS: set<Collision> := {NoCollision, WallHit, SelfHit, FoodHit}

  lemma SingleSnakeCollisionCount()
    ensures |SINGLE_SNAKE_COLLISIONS| == 4
    ensures AiSnakeHit !in SINGLE_SNAKE_COLLISIONS && PlayerSnakeHit !in SINGLE_SNAKE_COLLISIONS
  {
    var s := {NoCollision, WallHit, SelfHit, FoodHit};
    assert s == {NoCollision, WallHit, SelfHit} + {FoodHit};
    assert {NoCollision, WallHit, SelfHit} == {NoCollision, WallHit} + {SelfHit};
    assert {NoCollision, WallHit} == {NoCollision} + {WallHit};
  }

  /** The canvas is exactly the grid drawn at CELL_SIZE pixels per cell. */
  lemma CanvasMatchesGrid()
    ensures GRID_SIZE * CELL_SIZE == CANVAS_WIDTH == CANVAS_HEIGHT
  {
  }

  /** Tick interval after eating `k` foods, starting from INITIAL_SPEED. */
  function SpeedAfter(k: nat): (s: int)
    ensures MIN_SPEED <= s <= INITIAL_SPEED
  {
    if k == 0 then INITIAL_SPEED else SpeedStep(SpeedAfter(k - 1))
  }

  /** One food's speed-up: SPEED_INCREMENT faster, floored at MIN_SPEED. */
  function SpeedStep(s: int): (r: int)
    ensures s > MIN_SPEED ==> r == Max(MIN_SPEED, s - SPEED_INCREMENT)
    ensures s <= MIN_SPEED ==> r == s
  {
    if s > MIN_SPEED then Max(MIN_SPEED, s - SPEED_INCREMENT) else s
  }

  function Max(a: int, b: int): int {
    if a < b then b else a
  }

  /** The speed after k foods has the closed form max(80, 150 - 5k). */
  lemma {:induction false} SpeedAfterClosedForm(k: nat)
    ensures SpeedAfter(k) == Max(MIN_SPEED, INITIAL_SPEED - SPEED_INCREMENT * k)
  {
    if k > 0 {
      SpeedAfterClosedForm(k - 1);
    }
  }

  /** The floor of 80 ms is reached after exactly 14 foods. */
  lemma MinSpeedReachedAfterFourteen(k: nat)
    ensures SpeedAfter(k) == MIN_SPEED <==> k >= 14
  {
    SpeedAfterClosedForm(k);
  }
}

=== FILE: difficulty.dfy ===
/**
 * The difficulty manager: three fixed presets and an adaptive mode, the
 * per-game metrics (counters, win streaks, the ten most recent games), the
 * threshold rules that pick adaptive targets from the win rates, the 10 %
 * smoothing towards those targets, and the skill estimate with its labels.
 * Rates and weights are exact reals; the metrics' storage is left out, so a
 * manager starts from whatever metrics it is given.
 */
module Difficulty {
  import opened Common

  datatype Mode = Easy | Medium | Hard | Adaptive

  function ModeName(m: Mode): string {
    match m
    case Easy => "EASY"
    case Medium => "MEDIUM"
    case Hard => "HARD"
    case Adaptive => "ADAPTIVE"
  }

  /** The mode a name denotes, if any. */
  function ModeOf(name: string): (r: Option<Mode>)
    ensures r.Some? ==> ModeName(r.value) == name
    ensures r.None? ==> forall m :: ModeName(m) != name
  {
    if name == "EASY" then Some(Easy)
    else if name == "MEDIUM" then Some(Medium)
    else if name == "HARD" then Some(Hard)
    else if name == "ADAPTIVE" then Some(Adaptive)
    else None
  }

  lemma ModeNameRoundTrip(m: Mode)
    ensures ModeOf(ModeName(m)) == Some(m)
  {
  }

  /** A preset's game speed (ms per tick), AI aggression and AI mistake rate. */
  datatype Preset = Preset(speed: int, aggression: real, mistakeRate: real)

  /** The fixed presets: faster, more aggressive and more careful from EASY to HARD. */
  function PresetOf(m: Mode): (p: Preset)
    requires m != Adaptive
    ensures p.speed in {100, 150, 200}
    ensures Bounded(p.speed, p.aggression, p.mistakeRate)
  {
    match m
    case Easy => Preset(200, 0.3, 0.20)
    case Medium => Preset(150, 0.5, 0.05)
    case Hard => Preset(100, 0.8, 0.0)
  }

  lemma PresetsOrdered()
    ensures PresetOf(Hard).speed < PresetOf(Medium).speed < PresetOf(Easy).speed
    ensures PresetOf(Easy).aggression < PresetOf(Medium).aggression < PresetOf(Hard).aggression
    ensures PresetOf(Hard).mistakeRate < PresetOf(Medium).mistakeRate < PresetOf(Easy).mistakeRate
  {
  }

  /** The fastest and slowest adaptive speeds, in ms per tick. */
  const MIN_SPEED: int := 75
  const MAX_SPEED: int := 250

  /** The ranges every preset and every adaptive target lies in, which smoothing keeps. */
  predicate Bounded(speed: int, aggression: real, mistakeRate: real) {
    MIN_SPEED <= speed <= MAX_SPEED && 0.1 <= aggression <= 0.9 && 0.0 <= mistakeRate <= 0.25
  }

  // ---- Metrics ----

  /** What is recorded of one game. */
  datatype GameResult = GameResult(won: bool, score: int, survivalTime: int)

  datatype Metrics = Metrics(
    gamesPlayed: nat, gamesWon: nat, totalScore: int, totalSurvivalTime: int,
    recentGames: seq<GameResult>, currentStreak: nat, bestStreak: nat)

  /** The metrics of a player with no games, as loaded by default and set by `resetStats`. */
  function EmptyMetrics(): (m: Metrics)
    ensures Consistent(m) && m.gamesPlayed == 0
  {
    Metrics(0, 0, 0, 0, [], 0, 0)
  }

  /** How many games the recent window keeps. */
  const RECENT_WINDOW: nat := 10

  /** The relations between the counters that recording games keeps. */
  predicate Consistent(m: Metrics) {
    && m.currentStreak <= m.bestStreak <= m.gamesWon <= m.gamesPlayed
    && m.currentStreak <= m.gamesWon
    && |m.recentGames| <= RECENT_WINDOW
  }

  /**
   * `recordGame`'s metric updates: one more game, one more win if won, the
   * score and survival time added, the streak extended or reset, and the
   * game appended to the recent window, whose oldest entry is dropped when
   * it overflows.
   */
  function Record(m: Metrics, g: GameResult): (r: Metrics)
    ensures r.gamesPlayed == m.gamesPlayed + 1
    ensures r.gamesWon == m.gamesWon + (if g.won then 1 else 0)
    ensures r.totalScore == m.totalScore + g.score && r.totalSurvivalTime == m.totalSurvivalTime + g.survivalTime
    ensures g.won ==> r.currentStreak == m.currentStreak + 1 && r.bestStreak == Max(m.bestStreak, r.currentStreak)
    ensures !g.won ==> r.currentStreak == 0 && r.bestStreak == m.bestStreak
    ensures |r.recentGames| > 0 && r.recentGames[|r.recentGames| - 1] == g
    ensures |m.recentGames| < RECENT_WINDOW ==> r.recentGames == m.recentGames + [g]
    ensures |m.recentGames| >= RECENT_WINDOW ==> r.recentGames == m.recentGames[1..] + [g]
  {
    var streak := if g.won then m.currentStreak + 1 else 0;
    var best := if g.won && streak > m.bestStreak then streak else m.bestStreak;
    var pushed := m.recentGames + [g];
    var recent := if |pushed| > RECENT_WINDOW then pushed[1..] else pushed;
    Metrics(m.gamesPlayed + 1, m.gamesWon + (if g.won then 1 else 0), m.totalScore + g.score,
            m.totalSurvivalTime + g.survivalTime, recent, streak, best)
  }

  function Max(a: nat, b: nat): nat {
    if a >= b then a else b
  }

  /** Recording a game keeps the counters consistent. */
  lemma RecordKeepsConsistent(m: Metrics, g: GameResult)
    requires Consistent(m)
    ensures Consistent(Record(m, g))
  {
  }

  // ---- Metrics as a function of the game history ----

  /** The metrics after recording the games of `h` in order, starting from none. */
  function Replay(h: seq<GameResult>): Metrics {
    if |h| == 0 then EmptyMetrics() else Record(Replay(h[..|h| - 1]), h[|h| - 1])
  }

  function Wins(h: seq<GameResult>): (k: nat)
    ensures k <= |h|
  {
    if |h| == 0 then 0 else Wins(h[..|h| - 1]) + (if h[|h| - 1].won then 1 else 0)
  }

  function ScoreSum(h: seq<GameResult>): int {
    if |h| == 0 then 0 else ScoreSum(h[..|h| - 1]) + h[|h| - 1].score
  }

  /** The number of games won in a row at the end of `h`. */
  function TrailingWins(h: seq<GameResult>): nat {
    if |h| == 0 || !h[|h| - 1].won then 0 else TrailingWins(h[..|h| - 1]) + 1
  }

  /** The longest run of wins anywhere in `h`: the longest run ending at some prefix's end. */
  function LongestRun(h: seq<GameResult>): nat {
    if |h| == 0 then 0 else Max(LongestRun(h[..|h| - 1]), TrailingWins(h))
  }

  /** The last `n` elements of `h`, or all of it when it is shorter. */
  function LastN(h: seq<GameResult>, n: nat): (r: seq<GameResult>)
    ensures |r| <= n && |r| <= |h|
  {
    if |h| <= n then h else h[|h| - n..]
  }

  /** Recording games one by one keeps exactly their count, their wins and their score sum. */
  lemma {:induction false} ReplayCounts(h: seq<GameResult>)
    ensures var m := Replay(h);
      m.gamesPlayed == |h| && m.gamesWon == Wins(h) && m.totalScore == ScoreSum(h)
  {
    if |h| > 0 {
      ReplayCounts(h[..|h| - 1]);
    }
  }

  /** The current streak is the trailing run of wins, the best streak the longest run. */
  lemma {:induction false} ReplayStreaks(h: seq<GameResult>)
    ensures var m := Replay(h);
      m.currentStreak == TrailingWins(h) && m.bestStreak == LongestRun(h)
  {
    if |h| > 0 {
      ReplayStreaks(h[..|h| - 1]);
    }
  }

  /** Appending a game to a history slides its last-ten window by one. */
  lemma LastNPush(p: seq<GameResult>, g: GameResult)
    ensures |p| >= RECENT_WINDOW ==> LastN(p + [g], RECENT_WINDOW) == LastN(p, RECENT_WINDOW)[1..] + [g]
    ensures |p| < RECENT_WINDOW ==> LastN(p + [g], RECENT_WINDOW) == LastN(p, RECENT_WINDOW) + [g]
  {
    if |p| >= RECENT_WINDOW {
      assert LastN(p, RECENT_WINDOW)[1..] == p[|p| - RECENT_WINDOW + 1..];
      assert (p + [g])[|p| + 1 - RECENT_WINDOW..] == p[|p| - RECENT_WINDOW + 1..] + [g];
    }
  }

  /** The recent window holds the last ten games recorded, in order. */
  lemma {:induction false} ReplayRecent(h: seq<GameResult>)
    ensures Replay(h).recentGames == LastN(h, RECENT_WINDOW)
  {
    if |h| > 0 {
      var p, g := h[..|h| - 1], h[|h| - 1];
      ReplayRecent(p);
      assert h == p + [g];
      assert Replay(h) == Record(Replay(p), g);
      LastNPush(p, g);
    }
  }

  /** The replayed metrics are consistent. */
  lemma {:induction false} ReplayConsistent(h: seq<GameResult>)
    ensures Consistent(Replay(h))
  {
    if |h| > 0 {
      ReplayConsistent(h[..|h| - 1]);
      RecordKeepsConsistent(Replay(h[..|h| - 1]), h[|h| - 1]);
    }
  }

  // ---- Rates ----

  /** `getWinRate`: the share of games won, 0 before any game. */
  function WinRate(m: Metrics): (r: real)
    ensures 0.0 <= r
    ensures m.gamesPlayed == 0 ==> r == 0.0
    ensures m.gamesWon <= m.gamesPlayed ==> r <= 1.0
    ensures m.gamesPlayed > 0 ==> r * m.gamesPlayed as real == m.gamesWon as real
  {
    if m.gamesPlayed == 0 then 0.0 else Ratio(m.gamesWon, m.gamesPlayed)
  }

  /** `a / b` for counts. */
  function Ratio(a: nat, b: nat): (r: real)
    requires b > 0
    ensures 0.0 <= r && r * b as real == a as real
    ensures a <= b ==> r <= 1.0
  {
    a as real / b as real
  }

  /** `getAvgScore`: the mean score, 0 before any game. */
  function AvgScore(m: Metrics): (r: real)
    ensures m.gamesPlayed == 0 ==> r == 0.0
    ensures m.gamesPlayed > 0 ==> r * m.gamesPlayed as real == m.totalScore as real
    ensures m.totalScore >= 0 ==> r >= 0.0
  {
    if m.gamesPlayed == 0 then 0.0
    else
      var r := m.totalScore as real / m.gamesPlayed as real;
      assert r * m.gamesPlayed as real == m.totalScore as real;
      r
  }

  /** `getRecentPerformance`: the share of won games in the recent window, 0 when it is empty. */
  function RecentPerformance(m: Metrics): (r: real)
    ensures 0.0 <= r <= 1.0
    ensures |m.recentGames| == 0 ==> r == 0.0
    ensures |m.recentGames| > 0 ==> r * |m.recentGames| as real == Wins(m.recentGames) as real
  {
    if |m.recentGames| == 0 then 0.0 else Ratio(Wins(m.recentGames), |m.recentGames|)
  }

  // ---- Adaptive targets ----

  /** `Math.max(lo, Math.min(hi, x))`. */
  function Clamp(lo: int, hi: int, x: int): (r: int)
    requires lo <= hi
    ensures lo <= r <= hi
    ensures lo <= x <= hi ==> r == x
  {
    if x < lo then lo else if x > hi then hi else x
  }

  /**
   * `calculateAdaptiveSpeed`: 150 ms, 25 or 15 less for a win rate above
   * 0.7 or 0.6, 25 or 15 more below 0.3 or 0.4, then 15 less for a recent
   * rate above 0.8 or 15 more below 0.4, clamped to [75, 250].
   */
  function AdaptiveSpeed(winRate: real, recent: real): (r: int)
    ensures 110 <= r <= 190
  {
    var s1 := 150 - (if winRate > 0.7 then 25 else if winRate > 0.6 then 15 else 0);
    var s2 := s1 + (if winRate < 0.3 then 25 else if winRate < 0.4 then 15 else 0);
    var s3 := s2 + (if recent > 0.8 then -15 else if recent < 0.4 then 15 else 0);
    Clamp(MIN_SPEED, MAX_SPEED, s3)
  }

  /** Playing better never slows the game down: speed is non-increasing in both rates. */
  lemma AdaptiveSpeedMonotone(w1: real, r1: real, w2: real, r2: real)
    requires w1 <= w2 && r1 <= r2
    ensures AdaptiveSpeed(w2, r2) <= AdaptiveSpeed(w1, r1)
  {
  }

  /** The extremes: a dominant player gets 110 ms ticks, a struggling one 190 ms. */
  lemma AdaptiveSpeedExtremes(w: real, r: real)
    ensures w > 0.7 && r > 0.8 ==> AdaptiveSpeed(w, r) == 110
    ensures w < 0.3 && r < 0.4 ==> AdaptiveSpeed(w, r) == 190
  {
  }

  /** `calculateAIAggression`: 0.5, raised by 0.2 above a 0.6 win rate or lowered by 0.2 below 0.4. */
  function AIAggression(winRate: real): (r: real)
    ensures r == 0.3 || r == 0.5 || r == 0.7
    ensures 0.1 <= r <= 0.9
  {
    var a := 0.5 + (if winRate > 0.6 then 0.2 else if winRate < 0.4 then -0.2 else 0.0);
    if a < 0.1 then 0.1 else if a > 0.9 then 0.9 else a
  }

  lemma AIAggressionMonotone(w1: real, w2: real)
    requires w1 <= w2
    ensures AIAggression(w1) <= AIAggression(w2)
  {
  }

  /** `calculateMistakeRate`: 0 above a 0.7 win rate, 0.05 above 0.5, 0.15 above 0.3, else 0.25. */
  function TargetMistakeRate(winRate: real): (r: real)
    ensures r == 0.0 || r == 0.05 || r == 0.15 || r == 0.25
  {
    if winRate > 0.7 then 0.0
    else if winRate > 0.5 then 0.05
    else if winRate > 0.3 then 0.15
    else 0.25
  }

  /** A better player meets an AI that makes fewer mistakes. */
  lemma TargetMistakeRateMonotone(w1: real, w2: real)
    requires w1 <= w2
    ensures TargetMistakeRate(w2) <= TargetMistakeRate(w1)
  {
  }

  // ---- Smoothing ----

  /** `lerp(current, target, factor)`. */
  function Lerp(current: real, target: real, factor: real): (r: real)
    ensures target - r == (1.0 - factor) * (target - current)
  {
    current + (target - current) * factor
  }

  /** With a factor in [0, 1] the result lies between the two ends. */
  lemma LerpBetween(current: real, target: real, factor: real)
    requires 0.0 <= factor <= 1.0
    ensures current <= target ==> current <= Lerp(current, target, factor) <= target
    ensures target <= current ==> target <= Lerp(current, target, factor) <= current
  {
    assert Lerp(current, target, factor) == current + (target - current) * factor;
    if current <= target {
      ScaleBelow(target - current, factor);
    } else {
      ScaleBelow(current - target, factor);
      assert (target - current) * factor == -((current - target) * factor);
    }
  }

  /** Scaling a non-negative gap by a factor in [0, 1] keeps it between 0 and the gap. */
  lemma ScaleBelow(d: real, k: real)
    requires 0.0 <= k <= 1.0 && 0.0 <= d
    ensures 0.0 <= d * k <= d
  {
    assert d - d * k == d * (1.0 - k);
  }

  /** `Math.round`: the nearest integer, halves rounded up. */
  function Round(x: real): (r: int)
    ensures x - 0.5 < r as real <= x + 0.5
  {
    (x + 0.5).Floor
  }

  /** Rounding a value that lies between two integers stays between them. */
  lemma RoundBetween(lo: int, x: real, hi: int)
    requires lo as real <= x <= hi as real
    ensures lo <= Round(x) <= hi
  {
  }

  /** The speed after one smoothing step towards `target`, rounded to whole milliseconds. */
  function SmoothSpeed(current: int, target: int): (r: int)
    ensures current <= target ==> current <= r <= target
    ensures target <= current ==> target <= r <= current
  {
    var x := Lerp(current as real, target as real, 0.1);
    LerpBetween(current as real, target as real, 0.1);
    if current <= target then
      RoundBetween(current, x, target);
      Round(x)
    else
      RoundBetween(target, x, current);
      Round(x)
  }

  /**
   * A smoothing step moves the speed when the target is at least 5 ms
   * slower or at least 6 ms faster: a step of exactly half a millisecond
   * rounds up, so a 5 ms gap towards a faster speed leaves it in place.
   */
  lemma SmoothSpeedProgress(current: int, target: int)
    requires target - current >= 5 || current - target >= 6
    ensures SmoothSpeed(current, target) != current
    ensures SmoothSpeed(current, current - 5) == current
  {
  }

  // ---- The manager ----

  /** The manager's state: the mode, the current speed, aggression and mistake rate, and the metrics. */
  datatype Manager = Manager(mode: Mode, speed: int, aggression: real, mistakeRate: real, metrics: Metrics)

  /** A new manager: MEDIUM with its preset values, over the metrics it was given. */
  function NewManager(metrics: Metrics): (m: Manager)
    ensures m.mode == Medium && InRange(m) && m.metrics == metrics
    ensures m.speed == PresetOf(Medium).speed && m.aggression == PresetOf(Medium).aggression
    ensures m.mistakeRate == PresetOf(Medium).mistakeRate
  {
    Manager(Medium, 150, 0.5, 0.05, metrics)
  }

  predicate InRange(m: Manager) {
    Bounded(m.speed, m.aggression, m.mistakeRate)
  }

  /**
   * `setMode`: an unknown name is ignored; a known one becomes the mode,
   * and a preset mode also installs its preset values.
   */
  function SetMode(m: Manager, name: string): (r: Manager)
    ensures ModeOf(name).None? ==> r == m
    ensures ModeOf(name) == Some(Adaptive) ==> r == m.(mode := Adaptive)
    ensures ModeOf(name).Some? && ModeOf(name) != Some(Adaptive) ==>
      var p := PresetOf(ModeOf(name).value);
      r == m.(mode := ModeOf(name).value, speed := p.speed, aggression := p.aggression, mistakeRate := p.mistakeRate)
  {
    match ModeOf(name)
    case None => m
    case Some(mode) =>
      if mode == Adaptive then m.(mode := mode)
      else
        var p := PresetOf(mode);
        m.(mode := mode, speed := p.speed, aggression := p.aggression, mistakeRate := p.mistakeRate)
  }

  /** Setting a mode by its name selects it, and a preset mode's values do not depend on the state before. */
  lemma SetModeSelects(m: Manager, m2: Manager, mode: Mode)
    ensures SetMode(m, ModeName(mode)).mode == mode
    ensures SetMode(m, ModeName(mode)).metrics == m.metrics
    ensures mode != Adaptive ==>
      var a, b := SetMode(m, ModeName(mode)), SetMode(m2, ModeName(mode));
      a.speed == b.speed && a.aggression == b.aggression && a.mistakeRate == b.mistakeRate
  {
    ModeNameRoundTrip(mode);
  }

  /** Setting a mode keeps the current values in range. */
  lemma SetModeKeepsRange(m: Manager, name: string)
    requires InRange(m)
    ensures InRange(SetMode(m, name))
  {
  }

  /**
   * `adjustDifficulty`: outside ADAPTIVE nothing changes; in ADAPTIVE each
   * value moves 10 % of the way towards its target, the speed rounded.
   */
  function AdjustDifficulty(m: Manager): (r: Manager)
    ensures m.mode != Adaptive ==> r == m
    ensures r.mode == m.mode && r.metrics == m.metrics
    ensures m.mode == Adaptive ==>
      var target := AdaptiveSpeed(WinRate(m.metrics), RecentPerformance(m.metrics));
      (m.speed <= target ==> m.speed <= r.speed <= target) && (target <= m.speed ==> target <= r.speed <= m.speed)
    ensures m.mode == Adaptive ==>
      AIAggression(WinRate(m.metrics)) - r.aggression == 0.9 * (AIAggression(WinRate(m.metrics)) - m.aggression)
    ensures m.mode == Adaptive ==>
      TargetMistakeRate(WinRate(m.metrics)) - r.mistakeRate == 0.9 * (TargetMistakeRate(WinRate(m.metrics)) - m.mistakeRate)
  {
    if m.mode != Adaptive then m
    else
      var targetSpeed := AdaptiveSpeed(WinRate(m.metrics), RecentPerformance(m.metrics));
      var targetAggression := AIAggression(WinRate(m.metrics));
      var targetMistake := TargetMistakeRate(WinRate(m.metrics));
      m.(speed := SmoothSpeed(m.speed, targetSpeed),
         aggression := Lerp(m.aggression, targetAggression, 0.1),
         mistakeRate := Lerp(m.mistakeRate, targetMistake, 0.1))
  }

  /** Smoothing towards targets that are all in range keeps the values in range. */
  lemma AdjustKeepsRange(m: Manager)
    requires InRange(m)
    ensures InRange(AdjustDifficulty(m))
  {
    if m.mode == Adaptive {
      var w := WinRate(m.metrics);
      LerpBetween(m.aggression, AIAggression(w), 0.1);
      LerpBetween(m.mistakeRate, TargetMistakeRate(w), 0.1);
    }
  }

  /** `recordGame`: the metric updates, then an adjustment in ADAPTIVE mode. */
  function RecordGame(m: Manager, g: GameResult): (r: Manager)
    ensures r.metrics == Record(m.metrics, g) && r.mode == m.mode
    ensures m.mode != Adaptive ==> r.speed == m.speed && r.aggression == m.aggression && r.mistakeRate == m.mistakeRate
    ensures m.mode == Adaptive ==> r == AdjustDifficulty(m.(metrics := r.metrics))
    ensures m.mode == Adaptive ==>
      var target := AdaptiveSpeed(WinRate(r.metrics), RecentPerformance(r.metrics));
      (m.speed <= target ==> m.speed <= r.speed <= target) && (target <= m.speed ==> target <= r.speed <= m.speed)
    ensures m.mode == Adaptive ==>
      AIAggression(WinRate(r.metrics)) - r.aggression == 0.9 * (AIAggression(WinRate(r.metrics)) - m.aggression)
    ensures m.mode == Adaptive ==>
      TargetMistakeRate(WinRate(r.metrics)) - r.mistakeRate == 0.9 * (TargetMistakeRate(WinRate(r.metrics)) - m.mistakeRate)
  {
    AdjustDifficulty(m.(metrics := Record(m.metrics, g)))
  }

  /** Recording games never takes the values out of range or breaks the counters' consistency. */
  lemma RecordGameKeepsInvariants(m: Manager, g: GameResult)
    requires InRange(m) && Consistent(m.metrics)
    ensures InRange(RecordGame(m, g)) && Consistent(RecordGame(m, g).metrics)
  {
    AdjustKeepsRange(m.(metrics := Record(m.metrics, g)));
    RecordKeepsConsistent(m.metrics, g);
  }

  // ---- Skill ----

  function MinReal(a: real, b: real): real {
    if a <= b then a else b
  }

  /**
   * The weighted skill fraction behind `estimateSkillLevel`: 0.4 times the win
   * rate against 0.7, 0.3 times the mean score against 30 and 0.3 times the
   * best streak against 10, each capped at 1; 0 before any game.
   */
  function SkillFraction(m: Metrics): (f: real)
    ensures f <= 1.0
    ensures m.totalScore >= 0 ==> 0.0 <= f
  {
    if m.gamesPlayed == 0 then 0.0
    else
      var winScore := MinReal(WinRate(m) / 0.7, 1.0);
      var avgNorm := MinReal(AvgScore(m) / 30.0, 1.0);
      var streakNorm := MinReal(m.bestStreak as real / 10.0, 1.0);
      winScore * 0.4 + avgNorm * 0.3 + streakNorm * 0.3
  }

  /** `estimateSkillLevel`: the skill fraction as a percentage, rounded half up. */
  function EstimateSkillLevel(m: Metrics): (r: int)
    ensures m.gamesPlayed == 0 ==> r == 0
    ensures m.gamesPlayed > 0 ==> SkillFraction(m) * 100.0 - 0.5 < r as real <= SkillFraction(m) * 100.0 + 0.5
    ensures r <= 100
    ensures m.totalScore >= 0 ==> 0 <= r
  {
    if m.gamesPlayed == 0 then 0
    else Round(SkillFraction(m) * 100.0)
  }

  /** Two values scaled by the same positive factor to ordered results are ordered. */
  lemma CancelPositive(x: real, y: real, c: real, a: real, b: real)
    requires c > 0.0 && x * c == a && y * c == b && a <= b
    ensures x <= y
  {
    assert (y - x) * c == b - a;
  }

  lemma RoundMonotone(x: real, y: real)
    requires x <= y
    ensures Round(x) <= Round(y)
  {
  }

  /** Over the same number of games, more wins never lower the win rate. */
  lemma WinRateMonotone(m: Metrics, better: Metrics)
    requires m.gamesPlayed == better.gamesPlayed > 0 && m.gamesWon <= better.gamesWon
    ensures WinRate(m) <= WinRate(better)
  {
    CancelPositive(WinRate(m), WinRate(better), m.gamesPlayed as real, m.gamesWon as real, better.gamesWon as real);
  }

  /** Over the same number of games, more points never lower the mean score. */
  lemma AvgScoreMonotone(m: Metrics, better: Metrics)
    requires m.gamesPlayed == better.gamesPlayed > 0 && m.totalScore <= better.totalScore
    ensures AvgScore(m) <= AvgScore(better)
  {
    CancelPositive(AvgScore(m), AvgScore(better), m.gamesPlayed as real, m.totalScore as real, better.totalScore as real);
  }

  lemma FractionMonotone(m: Metrics, better: Metrics)
    requires m.gamesPlayed > 0 && better.gamesPlayed > 0
    requires WinRate(m) <= WinRate(better) && AvgScore(m) <= AvgScore(better) && m.bestStreak <= better.bestStreak
    ensures SkillFraction(m) <= SkillFraction(better)
  {
  }

  /** Over the same number of games, more wins, more points or a longer best streak never lower the rating. */
  lemma SkillMonotone(m: Metrics, better: Metrics)
    requires m.gamesPlayed == better.gamesPlayed > 0
    requires m.gamesWon <= better.gamesWon && m.totalScore <= better.totalScore && m.bestStreak <= better.bestStreak
    ensures EstimateSkillLevel(m) <= EstimateSkillLevel(better)
  {
    WinRateMonotone(m, better);
    AvgScoreMonotone(m, better);
    FractionMonotone(m, better);
    RoundMonotone(SkillFraction(m) * 100.0, SkillFraction(better) * 100.0);
  }

  /**
   * 16 games, 7 won, 424 points and a best streak of 6 give the exact
   * fraction 0.695, which rounds to 70.
   */
  lemma SkillHalfwayRoundsUp(m: Metrics)
    requires m.gamesPlayed == 16 && m.gamesWon == 7 && m.totalScore == 424 && m.bestStreak == 6
    ensures SkillFraction(m) == 0.695
    ensures EstimateSkillLevel(m) == 70 && SkillBandOf(EstimateSkillLevel(m)) == Advanced
  {
    assert WinRate(m) == 7.0 / 16.0 by { assert WinRate(m) * 16.0 == 7.0; }
    assert AvgScore(m) == 26.5 by { assert AvgScore(m) * 16.0 == 424.0; }
  }

  /** A player at or past every cap is rated 100. */
  lemma FullSkill(m: Metrics)
    requires m.gamesPlayed > 0
    requires WinRate(m) >= 0.7 && AvgScore(m) >= 30.0 && m.bestStreak >= 10
    ensures EstimateSkillLevel(m) == 100
  {
  }

  /** A player who has won nothing and scored nothing is rated 0. */
  lemma NoSkill(m: Metrics)
    requires m.gamesWon == 0 && m.totalScore == 0 && m.bestStreak == 0
    ensures EstimateSkillLevel(m) == 0
  {
  }

  datatype SkillBand = Novice | Beginner | Intermediate | Advanced | Expert

  /** `getSkillLabel`'s bands: from 90 Expert, from 70 Advanced, from 50 Intermediate, from 30 Beginner. */
  function SkillBandOf(percent: int): (b: SkillBand)
    ensures b == Expert <==> percent >= 90
    ensures b == Advanced <==> 70 <= percent < 90
    ensures b == Intermediate <==> 50 <= percent < 70
    ensures b == Beginner <==> 30 <= percent < 50
    ensures b == Novice <==> percent < 30
  {
    if percent >= 90 then Expert
    else if percent >= 70 then Advanced
    else if percent >= 50 then Intermediate
    else if percent >= 30 then Beginner
    else Novice
  }

  function BandRank(b: SkillBand): nat {
    match b
    case Novice => 0
    case Beginner => 1
    case Intermediate => 2
    case Advanced => 3
    case Expert => 4
  }

  /** A higher percentage never gets a lower label. */
  lemma SkillBandMonotone(p: int, q: int)
    requires p <= q
    ensures BandRank(SkillBandOf(p)) <= BandRank(SkillBandOf(q))
  {
  }

  /** `getSkillLabel`. */
  function SkillLabel(percent: int): (name: string)
    ensures name == "Expert" <==> percent >= 90
    ensures name == "Advanced" <==> 70 <= percent < 90
    ensures name == "Intermediate" <==> 50 <= percent < 70
    ensures name == "Beginner" <==> 30 <= percent < 50
    ensures name == "Novice" <==> percent < 30
  {
    BandLabel(SkillBandOf(percent))
  }

  function BandLabel(b: SkillBand): string {
    match b
    case Novice => "Novice"
    case Beginner => "Beginner"
    case Intermediate => "Intermediate"
    case Advanced => "Advanced"
    case Expert => "Expert"
  }

  /** `resetStats`: the metrics of a player with no games; the mode and current values are kept. */
  function ResetStats(m: Manager): (r: Manager)
    ensures r.metrics.gamesPlayed == 0 && Consistent(r.metrics)
    ensures r.(metrics := m.metrics) == m
  {
    m.(metrics := EmptyMetrics())
  }

  /** After a reset the player is rated 0, a Novice. */
  lemma ResetIsNovice(m: Manager)
    ensures EstimateSkillLevel(ResetStats(m).metrics) == 0
    ensures SkillBandOf(EstimateSkillLevel(ResetStats(m).metrics)) == Novice
  {
  }

  // ---- As written: the mode guard accepts inherited property names ----

  /** `!this.modes[mode]` as written: any truthy lookup passes, including inherited members. */
  function ModeAcceptedAsWritten(name: string): (b: bool)
    ensures ModeOf(name).Some? ==> b
    ensures ModeOf(name).None? && name !in INHERITED_KEYS ==> !b
  {
    ModeOf(name).Some? || name in INHERITED_KEYS
  }

  /**
   * `this.presets[mode].speed` as written: None stands for `undefined`,
   * which an accepted inherited name yields.
   */
  function PresetSpeedAsWritten(name: string): (r: Option<int>)
    ensures ModeOf(name).Some? && ModeOf(name) != Some(Adaptive) ==> r == Some(PresetOf(ModeOf(name).value).speed)
  {
    match ModeOf(name)
    case Some(mode) => if mode == Adaptive then None else Some(PresetOf(mode).speed)
    case None => None
  }

  /**
   * As written, "constructor" passes the mode guard and, not being
   * ADAPTIVE, sets the speed from a preset that does not exist, leaving it
   * `undefined`; the corrected `SetMode` ignores the name.
   */
  lemma InheritedModeAccepted(m: Manager)
    ensures ModeAcceptedAsWritten("constructor")
    ensures ModeOf("constructor").None? && PresetSpeedAsWritten("constructor").None?
    ensures SetMode(m, "constructor") == m
  {
    assert "constructor" in INHERITED_KEYS;
  }
}

=== FILE: food.dfy ===
/**
 * The food entity: one cell, placed by a bounded number of random draws that
 * try to avoid occupied cells.
 */
module FoodModel {
  import opened Common
  import opened Config
  import opened Grid

  datatype Food = Food(position: Pos)

  /** Upper bound on the random placements tried by one spawn. */
  const MAX_SPAWN_ATTEMPTS: nat := 100

  /** One pair of uniform samples in [0, 1): the x draw and the y draw. */
  datatype Draw = Draw(rx: real, ry: real)

  predicate ValidDraw(d: Draw) {
    0.0 <= d.rx < 1.0 && 0.0 <= d.ry < 1.0
  }

  /** The cell a draw selects: each sample scaled by GRID_SIZE and floored. */
  function DrawCell(d: Draw): Pos {
    Pos((d.rx * GRID_SIZE as real).Floor, (d.ry * GRID_SIZE as real).Floor)
  }

  lemma ValidDrawInBounds(d: Draw)
    requires ValidDraw(d)
    ensures InBounds(DrawCell(d), GRID_SIZE)
  {
    FloorBelow(d.rx, GRID_SIZE);
    FloorBelow(d.ry, GRID_SIZE);
  }

  /** A new food sits at (0, 0) until it is first spawned. */
  function NewFood(): (f: Food)
    ensures IsValidPosition(f.position) && IsAt(f, 0, 0)
  {
    Food(Pos(0, 0))
  }

  /** Membership of a cell in the list of cells to avoid. */
  function IsPositionOccupied(p: Pos, avoid: seq<Pos>): (r: bool)
    ensures r <==> exists i :: 0 <= i < |avoid| && avoid[i] == p
  {
    p in avoid
  }

  /** Where a spawn put the food, and how many draws it consumed. */
  datatype SpawnResult = SpawnResult(food: Food, attempts: nat)

  /**
   * Draws candidate cells until one is free, at most MAX_SPAWN_ATTEMPTS times;
   * when every candidate is occupied the last one is kept anyway.
   */
  function Spawn(avoid: seq<Pos>, draws: seq<Draw>): (r: SpawnResult)
    requires |draws| >= MAX_SPAWN_ATTEMPTS
    ensures 1 <= r.attempts <= MAX_SPAWN_ATTEMPTS
    ensures r.food.position == DrawCell(draws[r.attempts - 1])
    ensures forall i :: 0 <= i < r.attempts - 1 ==> IsPositionOccupied(DrawCell(draws[i]), avoid)
    ensures r.attempts < MAX_SPAWN_ATTEMPTS ==> !IsPositionOccupied(r.food.position, avoid)
  {
    SpawnFrom(avoid, draws, 0)
  }

  function SpawnFrom(avoid: seq<Pos>, draws: seq<Draw>, tried: nat): (r: SpawnResult)
    requires tried < MAX_SPAWN_ATTEMPTS <= |draws|
    requires forall i :: 0 <= i < tried ==> IsPositionOccupied(DrawCell(draws[i]), avoid)
    decreases MAX_SPAWN_ATTEMPTS - tried
    ensures tried < r.attempts <= MAX_SPAWN_ATTEMPTS
    ensures r.food.position == DrawCell(draws[r.attempts - 1])
    ensures forall i :: 0 <= i < r.attempts - 1 ==> IsPositionOccupied(DrawCell(draws[i]), avoid)
    ensures r.attempts < MAX_SPAWN_ATTEMPTS ==> !IsPositionOccupied(r.food.position, avoid)
  {
    var candidate := DrawCell(draws[tried]);
    if !IsPositionOccupied(candidate, avoid) || tried + 1 == MAX_SPAWN_ATTEMPTS then
      SpawnResult(Food(candidate), tried + 1)
    else
      SpawnFrom(avoid, draws, tried + 1)
  }

  /** With valid draws the spawned food is always on the grid. */
  lemma SpawnInBounds(avoid: seq<Pos>, draws: seq<Draw>)
    requires |draws| >= MAX_SPAWN_ATTEMPTS
    requires forall i :: 0 <= i < MAX_SPAWN_ATTEMPTS ==> ValidDraw(draws[i])
    ensures InBounds(Spawn(avoid, draws).food.position, GRID_SIZE)
  {
    var r := Spawn(avoid, draws);
    ValidDrawInBounds(draws[r.attempts - 1]);
  }

  /**
   * If some draw within the budget is free, the food lands on the first free
   * draw, which is not avoided.
   */
  lemma SpawnPicksFirstFreeDraw(avoid: seq<Pos>, draws: seq<Draw>, k: nat)
    requires |draws| >= MAX_SPAWN_ATTEMPTS && k < MAX_SPAWN_ATTEMPTS
    requires !IsPositionOccupied(DrawCell(draws[k]), avoid)
    requires forall i :: 0 <= i < k ==> IsPositionOccupied(DrawCell(draws[i]), avoid)
    ensures Spawn(avoid, draws).attempts == k + 1
    ensures Spawn(avoid, draws).food.position == DrawCell(draws[k])
    ensures !IsPositionOccupied(Spawn(avoid, draws).food.position, avoid)
  {
    var r := Spawn(avoid, draws);
    if r.attempts - 1 > k {
      assert false;
    }
  }

  /** When all the budgeted draws are occupied the food stays on the last, occupied, draw. */
  lemma SpawnExhaustedKeepsLastDraw(avoid: seq<Pos>, draws: seq<Draw>)
    requires |draws| >= MAX_SPAWN_ATTEMPTS
    requires forall i :: 0 <= i < MAX_SPAWN_ATTEMPTS ==> IsPositionOccupied(DrawCell(draws[i]), avoid)
    ensures Spawn(avoid, draws).attempts == MAX_SPAWN_ATTEMPTS
    ensures Spawn(avoid, draws).food.position == DrawCell(draws[MAX_SPAWN_ATTEMPTS - 1])
    ensures IsPositionOccupied(Spawn(avoid, draws).food.position, avoid)
  {
  }

  function GetPosition(f: Food): Pos {
    f.position
  }

  function IsAt(f: Food, x: int, y: int): (r: bool)
    ensures r <==> f.position == Pos(x, y)
  {
    f.position.x == x && f.position.y == y
  }

  function IsValidPosition(p: Pos): (r: bool)
    ensures r <==> 0 <= p.x < GRID_SIZE && 0 <= p.y < GRID_SIZE
  {
    InBounds(p, GRID_SIZE)
  }

  /** Places the food at (x, y) when that cell is on the grid; otherwise nothing changes. */
  function SetPosition(f: Food, x: int, y: int): (r: Food)
    ensures IsValidPosition(Pos(x, y)) ==> IsAt(r, x, y)
    ensures !IsValidPosition(Pos(x, y)) ==> r == f
  {
    if 0 <= x < GRID_SIZE && 0 <= y < GRID_SIZE then Food(Pos(x, y)) else f
  }
}

=== FILE: game.dfy ===
/**
 * The single-snake game session: the START/PLAYING/PAUSED/GAME_OVER state
 * machine, the elapsed-time tick gate, collision detection and its handling.
 */
module GameSession {
  import opened Config
  import opened Grid
  import opened SnakeModel
  import opened FoodModel

  datatype State = Start | Playing | Paused | GameOver

  datatype Game = Game(
    state: State,
    snake: Snake,
    food: Food,
    score: nat,
    highScore: int,
    gameSpeed: int,   // milliseconds between updates
    lastUpdate: int,  // timestamp of the last update, in milliseconds
    isRunning: bool)  // whether the frame loop is scheduled

  /**
   * Food placed while avoiding every segment of the player's snake: only the
   * food changes, it lands on one of the first MAX_SPAWN_ATTEMPTS draws, every
   * draw before it was on the body, and it is off the body unless the whole
   * budget was used.
   */
  function SpawnFood(g: Game, draws: seq<Draw>): (r: Game)
    requires |draws| >= MAX_SPAWN_ATTEMPTS
    ensures r.(food := g.food) == g
    ensures exists k :: 0 <= k < MAX_SPAWN_ATTEMPTS && r.food.position == DrawCell(draws[k]) &&
              forall i :: 0 <= i < k ==> DrawCell(draws[i]) in g.snake.body
    ensures Spawn(g.snake.body, draws).attempts < MAX_SPAWN_ATTEMPTS ==> r.food.position !in g.snake.body
  {
    var spawned := Spawn(g.snake.body, draws);
    assert forall i :: 0 <= i < spawned.attempts - 1 ==> DrawCell(draws[i]) in g.snake.body;
    g.(food := spawned.food)
  }

  /**
   * A new session in START with a fresh snake, score 0, the initial speed, the
   * stored high score and a first food.
   */
  function NewGame(storedHighScore: int, draws: seq<Draw>): (g: Game)
    requires |draws| >= MAX_SPAWN_ATTEMPTS
    ensures g.state == Start && g.score == 0 && g.gameSpeed == INITIAL_SPEED
    ensures g.highScore == storedHighScore && !g.isRunning
    ensures g.snake == NewSnake(INITIAL_X, INITIAL_Y, INITIAL_DIRECTION) && g.lastUpdate == 0
    ensures exists k :: 0 <= k < MAX_SPAWN_ATTEMPTS && g.food.position == DrawCell(draws[k]) &&
              forall i :: 0 <= i < k ==> DrawCell(draws[i]) in g.snake.body
    ensures Spawn(g.snake.body, draws).attempts < MAX_SPAWN_ATTEMPTS ==> g.food.position !in g.snake.body
  {
    var g := Game(Start, NewSnake(INITIAL_X, INITIAL_Y, INITIAL_DIRECTION), NewFood(), 0,
                  storedHighScore, INITIAL_SPEED, 0, false);
    SpawnFood(g, draws)
  }

  /** START -> PLAYING; in any other state nothing happens. */
  function StartGame(g: Game, now: int): (r: Game)
    ensures g.state == Start ==> r.state == Playing && r.isRunning && r.lastUpdate == now
    ensures g.state == Start ==> r == g.(state := Playing, isRunning := true, lastUpdate := now)
    ensures g.state != Start ==> r == g
  {
    if g.state == Start then g.(state := Playing, isRunning := true, lastUpdate := now) else g
  }

  /** PLAYING -> PAUSED; in any other state nothing happens. */
  function Pause(g: Game): (r: Game)
    ensures g.state == Playing ==> r == g.(state := Paused)
    ensures g.state != Playing ==> r == g
  {
    if g.state == Playing then g.(state := Paused) else g
  }

  /** PAUSED -> PLAYING with the tick timer restarted; in any other state nothing happens. */
  function Resume(g: Game, now: int): (r: Game)
    ensures g.state == Paused ==> r == g.(state := Playing, lastUpdate := now)
    ensures g.state != Paused ==> r == g
  {
    if g.state == Paused then g.(state := Playing, lastUpdate := now) else g
  }

  /** From any state: back to START with a reset snake, new food, score 0 and the initial speed. */
  function Reset(g: Game, draws: seq<Draw>): (r: Game)
    requires |draws| >= MAX_SPAWN_ATTEMPTS
    ensures r.state == Start && !r.isRunning
    ensures r.score == 0 && r.gameSpeed == INITIAL_SPEED && r.lastUpdate == 0
    ensures r.highScore == g.highScore
    ensures r.snake == NewSnake(INITIAL_X, INITIAL_Y, INITIAL_DIRECTION)
    ensures exists k :: 0 <= k < MAX_SPAWN_ATTEMPTS && r.food.position == DrawCell(draws[k]) &&
              forall i :: 0 <= i < k ==> DrawCell(draws[i]) in r.snake.body
    ensures Spawn(r.snake.body, draws).attempts < MAX_SPAWN_ATTEMPTS ==> r.food.position !in r.snake.body
  {
    var g1 := g.(state := Start, isRunning := false, snake := SnakeModel.Reset(g.snake));
    var g2 := SpawnFood(g1, draws);
    g2.(score := 0, gameSpeed := INITIAL_SPEED, lastUpdate := 0)
  }

  /**
   * The collision after a move, by priority: the head off the grid, then the
   * head on the body, then the head on the food, otherwise none.
   */
  function CheckCollisions(g: Game): (r: Collision)
    requires |g.snake.body| > 0
    ensures r in SINGLE_SNAKE_COLLISIONS
    ensures r == WallHit <==> !InBounds(g.snake.body[0], GRID_SIZE)
    ensures r == SelfHit <==> InBounds(g.snake.body[0], GRID_SIZE) && CheckSelfCollision(g.snake)
    ensures r == FoodHit <==> InBounds(g.snake.body[0], GRID_SIZE) && !CheckSelfCollision(g.snake)
                              && g.snake.body[0] == g.food.position
  {
    var head := Head(g.snake);
    if head.x < 0 || head.x >= GRID_SIZE || head.y < 0 || head.y >= GRID_SIZE then WallHit
    else if CheckSelfCollision(g.snake) then SelfHit
    else if IsAt(g.food, head.x, head.y) then FoodHit
    else NoCollision
  }

  /** Eating: grow, score one point, respawn the food and speed up down to the floor. */
  function HandleFoodCollision(g: Game, draws: seq<Draw>): (r: Game)
    requires g.snake.alive ==> |g.snake.body| > 0
    requires |draws| >= MAX_SPAWN_ATTEMPTS
    ensures r.score == g.score + 1
    ensures r.snake == Grow(g.snake)
    ensures r.gameSpeed == SpeedStep(g.gameSpeed)
    ensures g.gameSpeed >= MIN_SPEED ==> MIN_SPEED <= r.gameSpeed <= g.gameSpeed
    ensures r.state == g.state && r.highScore == g.highScore && r.isRunning == g.isRunning
    ensures exists k :: 0 <= k < MAX_SPAWN_ATTEMPTS && r.food.position == DrawCell(draws[k]) &&
              forall i :: 0 <= i < k ==> DrawCell(draws[i]) in r.snake.body
    ensures Spawn(r.snake.body, draws).attempts < MAX_SPAWN_ATTEMPTS ==> r.food.position !in r.snake.body
  {
    var g1 := g.(snake := Grow(g.snake));
    var g2 := g1.(score := g1.score + 1);
    var g3 := SpawnFood(g2, draws);
    if g3.gameSpeed > MIN_SPEED then g3.(gameSpeed := Max(MIN_SPEED, g3.gameSpeed - SPEED_INCREMENT))
    else g3
  }

  /** Game over: stop the loop, keep the score and raise the high score to it if beaten. */
  function HandleGameOver(g: Game): (r: Game)
    ensures r.state == GameOver && !r.isRunning
    ensures r.score == g.score
    ensures r.highScore == Max(g.highScore, g.score)
    ensures r.snake == g.snake && r.food == g.food && r.gameSpeed == g.gameSpeed
  {
    var g1 := g.(state := GameOver, isRunning := false);
    if g1.score > g1.highScore then g1.(highScore := g1.score) else g1
  }

  /** One simulation step; only a PLAYING session changes. */
  function Update(g: Game, draws: seq<Draw>): (r: Game)
    requires |g.snake.body| > 0
    requires |draws| >= MAX_SPAWN_ATTEMPTS
    ensures g.state != Playing ==> r == g
    ensures g.state == Playing ==>
      var c := CheckCollisions(g.(snake := Move(g.snake)));
      && (c == WallHit || c == SelfHit <==> r.state == GameOver)
      && (c == FoodHit || c == NoCollision <==> r.state == Playing)
      && (c == FoodHit <==> r.score == g.score + 1)
      && (c != FoodHit ==> r.score == g.score)
      && (c == NoCollision ==> r == g.(snake := Move(g.snake)))
      && (c == FoodHit ==>
            && r.snake == Grow(Move(g.snake)) && r.gameSpeed == SpeedStep(g.gameSpeed)
            && r.highScore == g.highScore && r.isRunning == g.isRunning
            && (Spawn(r.snake.body, draws).attempts < MAX_SPAWN_ATTEMPTS ==> r.food.position !in r.snake.body))
      && (c == WallHit || c == SelfHit ==>
            && r.snake == Move(g.snake) && r.food == g.food && r.gameSpeed == g.gameSpeed
            && r.highScore == Max(g.highScore, g.score) && !r.isRunning)
  {
    if g.state != Playing then g
    else
      var g1 := g.(snake := Move(g.snake));
      var c := CheckCollisions(g1);
      if c == FoodHit then HandleFoodCollision(g1, draws)
      else if c == WallHit || c == SelfHit then HandleGameOver(g1)
      else g1
  }

  /**
   * One animation frame at `timestamp`: a running loop performs at most one
   * update, and only once `gameSpeed` milliseconds have passed since the last.
   */
  function Frame(g: Game, timestamp: int, draws: seq<Draw>): (r: Game)
    requires |g.snake.body| > 0
    requires |draws| >= MAX_SPAWN_ATTEMPTS
    ensures !g.isRunning || timestamp - g.lastUpdate < g.gameSpeed ==> r == g
    ensures g.isRunning && timestamp - g.lastUpdate >= g.gameSpeed ==>
              r == Update(g, draws).(lastUpdate := timestamp)
  {
    if !g.isRunning then g
    else if timestamp - g.lastUpdate >= g.gameSpeed then Update(g, draws).(lastUpdate := timestamp)
    else g
  }

  /**
   * The session invariant: the loop runs exactly while PLAYING or PAUSED, the
   * snake is alive with INITIAL_LENGTH plus one segment per point, the speed is
   * the speed after `score` foods, and a finished game's high score covers its score.
   */
  ghost predicate Valid(g: Game) {
    && (g.isRunning <==> g.state == Playing || g.state == Paused)
    && g.snake.alive
    && |g.snake.body| == INITIAL_LENGTH + g.score
    && g.gameSpeed == SpeedAfter(g.score)
    && (g.state == GameOver ==> g.highScore >= g.score)
  }

  lemma NewGameValid(storedHighScore: int, draws: seq<Draw>)
    requires |draws| >= MAX_SPAWN_ATTEMPTS
    ensures Valid(NewGame(storedHighScore, draws))
  {
  }

  /** `setDirection`: the request goes to the snake in every state; only its queued direction can change. */
  function SetPlayerDirection(g: Game, name: string): (r: Game)
    ensures r.(snake := g.snake) == g
    ensures r.snake.body == g.snake.body && r.snake.direction == g.snake.direction
    ensures r.snake.alive == g.snake.alive && r.snake.hasMoved == g.snake.hasMoved
    ensures FromName(name).None? ==> r == g
  {
    g.(snake := SetDirection(g.snake, name))
  }

  /** A direction request keeps the session invariant and never queues a reversal on a moving snake. */
  lemma SetPlayerDirectionPreservesValid(g: Game, name: string)
    requires Valid(g) && NoQueuedReversal(g.snake)
    ensures Valid(SetPlayerDirection(g, name)) && NoQueuedReversal(SetPlayerDirection(g, name).snake)
  {
    SetDirectionKeepsNoReversal(g.snake, name);
  }

  lemma ControlsPreserveValid(g: Game, now: int, draws: seq<Draw>)
    requires Valid(g) && |draws| >= MAX_SPAWN_ATTEMPTS
    ensures Valid(StartGame(g, now)) && Valid(Pause(g)) && Valid(Resume(g, now)) && Valid(Reset(g, draws))
  {
  }

  lemma FramePreservesValid(g: Game, timestamp: int, draws: seq<Draw>)
    requires Valid(g) && |draws| >= MAX_SPAWN_ATTEMPTS
    ensures Valid(Frame(g, timestamp, draws))
  {
    if g.isRunning && timestamp - g.lastUpdate >= g.gameSpeed && g.state == Playing {
      UpdatePreservesValid(g, draws);
    }
  }

  /** One step of a PLAYING session keeps the invariant: eating grows the snake and speeds it up in step with the score. */
  lemma UpdatePreservesValid(g: Game, draws: seq<Draw>)
    requires Valid(g) && g.state == Playing && |draws| >= MAX_SPAWN_ATTEMPTS
    ensures Valid(Update(g, draws))
  {
    var g1 := g.(snake := Move(g.snake));
    if CheckCollisions(g1) == FoodHit {
      var r := HandleFoodCollision(g1, draws);
      assert |r.snake.body| == |g1.snake.body| + 1;
      assert r.gameSpeed == SpeedAfter(g.score + 1);
    }
  }

  /** Speed never rises during play and never drops below MIN_SPEED. */
  lemma FrameSpeedMonotone(g: Game, timestamp: int, draws: seq<Draw>)
    requires Valid(g) && |draws| >= MAX_SPAWN_ATTEMPTS
    ensures MIN_SPEED <= Frame(g, timestamp, draws).gameSpeed <= g.gameSpeed
  {
  }

  /**
   * Eating the food placed directly ahead: one tick scores a point, grows the
   * snake from 3 to 4 segments and respawns the food off the body whenever a
   * free draw exists in the budget.
   */
  lemma EatAheadScenario(g: Game, draws: seq<Draw>, k: nat)
    requires Valid(g) && g.state == Playing && g.score == 0
    requires g.snake == NewSnake(INITIAL_X, INITIAL_Y, INITIAL_DIRECTION)
    requires g.food.position == Pos(11, 10)
    requires |draws| >= MAX_SPAWN_ATTEMPTS && k < MAX_SPAWN_ATTEMPTS
    requires !IsPositionOccupied(DrawCell(draws[k]), Grow(Move(g.snake)).body)
    requires forall i :: 0 <= i < k ==> IsPositionOccupied(DrawCell(draws[i]), Grow(Move(g.snake)).body)
    ensures Update(g, draws).score == 1
    ensures |Update(g, draws).snake.body| == 4
    ensures Update(g, draws).food.position !in Update(g, draws).snake.body
  {
    var g1 := g.(snake := Move(g.snake));
    assert g1.snake.body == [Pos(11, 10), Pos(10, 10), Pos(9, 10)];
    assert CheckCollisions(g1) == FoodHit;
    SpawnPicksFirstFreeDraw(Grow(g1.snake).body, draws, k);
  }

  /** A head pushed off the grid is a wall hit and ends a PLAYING session. */
  lemma WallScenario(g: Game)
    requires Valid(g) && g.state == Playing
    requires g.snake.body[0] == Pos(-1, 5)
    ensures CheckCollisions(g) == WallHit
    ensures HandleGameOver(g).state == GameOver
    ensures HandleGameOver(g).highScore == g.highScore <==> g.score <= g.highScore
  {
  }
}

=== FILE: grid.dfy ===
/** Grid geometry: cells, unit steps, Manhattan distance and bounds. */
module Grid {
  import opened Config

  /** A grid cell; coordinates are unbounded so that off-grid heads can be represented. */
  datatype Pos = Pos(x: int, y: int)

  /** The cell one step from `p` in direction `d`. */
  function Step(p: Pos, d: Direction): (q: Pos)
    ensures Manhattan(p, q) == 1
    ensures q.x - p.x == Vector(d).dx && q.y - p.y == Vector(d).dy
  {
    Pos(p.x + Vector(d).dx, p.y + Vector(d).dy)
  }

  /** Manhattan distance `|a.x - b.x| + |a.y - b.y|`. */
  function Manhattan(a: Pos, b: Pos): (r: nat)
    ensures r == 0 <==> a == b
  {
    Abs(a.x - b.x) + Abs(a.y - b.y)
  }

  lemma ManhattanSymmetric(a: Pos, b: Pos)
    ensures Manhattan(a, b) == Manhattan(b, a)
  {
  }

  lemma ManhattanTriangle(a: Pos, b: Pos, c: Pos)
    ensures Manhattan(a, c) <= Manhattan(a, b) + Manhattan(b, c)
  {
  }

  /** True when `p` lies on an n-by-n grid. */
  predicate InBounds(p: Pos, n: int) {
    0 <= p.x < n && 0 <= p.y < n
  }

  /** Grid-adjacent cells differ by one unit step. */
  predicate Adjacent(a: Pos, b: Pos) {
    Manhattan(a, b) == 1
  }

  /** Two cells are adjacent exactly when one is a unit step from the other. */
  lemma AdjacentIsStep(a: Pos, b: Pos)
    ensures Adjacent(a, b) <==> exists d: Direction :: Step(a, d) == b
  {
    if Adjacent(a, b) {
      if b.x == a.x + 1 { assert Step(a, Right) == b; }
      else if b.x == a.x - 1 { assert Step(a, Left) == b; }
      else if b.y == a.y + 1 { assert Step(a, Down) == b; }
      else { assert Step(a, Up) == b; }
    }
  }

  /** Displacement of `p` by `k` copies of a direction's vector. */
  function Shift(p: Pos, d: Direction, k: int): (q: Pos)
    ensures Manhattan(p, q) == Abs(k)
  {
    Pos(p.x + k * Vector(d).dx, p.y + k * Vector(d).dy)
  }
}

=== FILE: gridcount.dfy ===
/** Counting grid cells: a set of cells on an n-by-n grid has at most n * n members. */
module GridCount {
  import opened Grid

  /** A cell's row-major index, boxed so that sets of indices are sets of a datatype. */
  datatype Index = Index(k: int)

  /** Row-major number of a cell. */
  function CellNumber(p: Pos, n: int): int {
    p.x * n + p.y
  }

  lemma CellNumberInRange(p: Pos, n: int)
    requires InBounds(p, n)
    ensures 0 <= CellNumber(p, n) < n * n
  {
    assert p.x * n <= (n - 1) * n by { MulLeft(p.x, n - 1, n); }
  }

  lemma MulLeft(a: int, b: int, c: int)
    requires a <= b && c >= 0
    ensures a * c <= b * c
  {
    assert b * c - a * c == (b - a) * c;
  }

  /** Distinct on-grid cells have distinct numbers. */
  lemma CellNumberInjective(p: Pos, q: Pos, n: int)
    requires InBounds(p, n) && InBounds(q, n) && CellNumber(p, n) == CellNumber(q, n)
    ensures p == q
  {
    if p.x < q.x {
      RowsApart(p, q, n);
    } else if q.x < p.x {
      RowsApart(q, p, n);
    }
  }

  /** A cell in an earlier row has a smaller number. */
  lemma RowsApart(p: Pos, q: Pos, n: int)
    requires InBounds(p, n) && InBounds(q, n) && p.x < q.x
    ensures CellNumber(p, n) < CellNumber(q, n)
  {
    MulLeft(p.x + 1, q.x, n);
    assert (p.x + 1) * n == p.x * n + n;
  }

  ghost function Numbers(s: set<Pos>, n: int): set<Index> {
    set p | p in s :: Index(CellNumber(p, n))
  }

  lemma {:induction false} NumbersSize(s: set<Pos>, n: int)
    requires forall p :: p in s ==> InBounds(p, n)
    ensures |Numbers(s, n)| == |s|
    decreases |s|
  {
    if s != {} {
      var p :| p in s;
      var rest := s - {p};
      NumbersSize(rest, n);
      assert Numbers(s, n) == Numbers(rest, n) + {Index(CellNumber(p, n))};
      if Index(CellNumber(p, n)) in Numbers(rest, n) {
        var q :| q in rest && CellNumber(q, n) == CellNumber(p, n);
        CellNumberInjective(p, q, n);
        assert false;
      }
    }
  }

  /** A set of integers drawn from 0 .. m - 1 has at most m members. */
  lemma {:induction false} BoundedSetSize(a: set<Index>, m: nat)
    requires forall i :: i in a ==> 0 <= i.k < m
    ensures |a| <= m
  {
    if m > 0 {
      var rest := a - {Index(m - 1)};
      BoundedSetSize(rest, m - 1);
      if Index(m - 1) in a {
        assert a == rest + {Index(m - 1)};
      } else {
        assert a == rest;
      }
    } else {
      assert a == {};
    }
  }

  /** At most n * n cells fit on an n-by-n grid. */
  lemma InBoundsSetSize(s: set<Pos>, n: int)
    requires forall p :: p in s ==> InBounds(p, n)
    ensures |s| <= n * n
  {
    if s != {} {
      var p :| p in s;
      assert n > 0;
      NumbersSize(s, n);
      forall i | i in Numbers(s, n)
        ensures 0 <= i.k < n * n
      {
        var q :| q in s && CellNumber(q, n) == i.k;
        CellNumberInRange(q, n);
      }
      BoundedSetSize(Numbers(s, n), n * n);
    }
  }
}

=== FILE: pathfinder.dfy ===
/**
 * The path finder's move helpers: the next step along an A* path between
 * two snake bodies, the open-space flood fill capped at 50 cells, and the
 * safe-move fallback that prefers the move with the most open space.
 */
module Pathfinder {
  import opened Common
  import opened Config
  import opened Grid
  import opened Choice
  import opened AStar
  import AStarOptimal

  /** The cells of a body other than its head (index 0). */
  function BodyTail(body: seq<Pos>): (s: set<Pos>)
    ensures forall p :: p in s <==> exists i :: 1 <= i < |body| && body[i] == p
  {
    if |body| == 0 then {} else set p | p in body[1..]
  }

  /** `getNextMove`: both bodies except their heads are obstacles; the first step of the path found, if any. */
  function GetNextMove(start: Pos, goal: Pos, playerBody: seq<Pos>, aiBody: seq<Pos>, n: int): (r: Option<Direction>)
    ensures var obstacles := BodyTail(playerBody) + BodyTail(aiBody);
      && (r.None? <==> FindPath(start, goal, obstacles, n).None? || start == goal)
      && (r.Some? ==> var path := FindPath(start, goal, obstacles, n).value;
            |path| >= 2 && Step(start, r.value) == path[1])
      && (r.Some? ==> InBounds(Step(start, r.value), n) && Step(start, r.value) !in obstacles)
  {
    var obstacles := BodyTail(playerBody) + BodyTail(aiBody);
    var path := FindPath(start, goal, obstacles, n);
    if path.None? || |path.value| < 2 then None
    else Some(PositionToDirection(start, path.value[1]))
  }

  /** On an empty board the next move always exists and brings the head one step closer to the goal. */
  lemma NextMoveApproachesGoal(start: Pos, goal: Pos, playerBody: seq<Pos>, aiBody: seq<Pos>)
    requires InBounds(start, GRID_SIZE) && InBounds(goal, GRID_SIZE) && start != goal
    requires |playerBody| <= 1 && |aiBody| <= 1
    ensures var r := GetNextMove(start, goal, playerBody, aiBody, GRID_SIZE);
      r.Some? && Manhattan(Step(start, r.value), goal) == Manhattan(start, goal) - 1
  {
    assert BodyTail(playerBody) + BodyTail(aiBody) == {};
    AStarOptimal.GameGridPathIsShortest(start, goal);
    ShortestPathFirstStep(FindPath(start, goal, {}, GRID_SIZE).value, start, goal);
  }

  /** The second cell of a shortest path is one step closer to the goal. */
  lemma ShortestPathFirstStep(path: seq<Pos>, start: Pos, goal: Pos)
    requires IsPath(path, start, goal, {}, GRID_SIZE) && |path| == Manhattan(start, goal) + 1 && start != goal
    ensures |path| >= 2 && Manhattan(path[1], goal) == Manhattan(start, goal) - 1
  {
    HeuristicAdmissible(path[1..]);
    ManhattanTriangle(start, path[1], goal);
  }

  /** What the flood fill has seen: the cells counted so far. */
  datatype Fill = Fill(count: nat, visited: set<Pos>)

  /** The free on-grid neighbours of `p` not yet visited, in neighbour order. */
  function Unvisited(nbs: seq<Pos>, visited: set<Pos>, obstacles: set<Pos>): (r: seq<Pos>)
    ensures forall q :: q in r <==> q in nbs && q !in visited && q !in obstacles
  {
    if |nbs| == 0 then []
    else (if nbs[0] !in visited && nbs[0] !in obstacles then [nbs[0]] else []) + Unvisited(nbs[1..], visited, obstacles)
  }

  /** Every free on-grid neighbour of a visited cell is visited or waiting in the queue. */
  ghost predicate Frontiered(visited: set<Pos>, queue: seq<Pos>, obstacles: set<Pos>, n: int) {
    forall v, w :: v in visited && InBounds(w, n) && Adjacent(v, w) && w !in obstacles ==> w in visited || w in queue
  }

  /** Every visited or queued cell is the seed or a free on-grid cell. */
  ghost predicate Admissible(cells: set<Pos>, queue: seq<Pos>, seed: Pos, obstacles: set<Pos>, n: int) {
    forall p :: p in cells || p in queue ==> p == seed || (InBounds(p, n) && p !in obstacles)
  }

  /**
   * The flood fill loop: pop the queue front; skip it if already visited,
   * otherwise count it and queue its unvisited free neighbours; stop when the
   * queue is empty or 50 cells are counted.
   */
  function FloodFill(queue: seq<Pos>, visited: set<Pos>, seed: Pos, obstacles: set<Pos>, n: int): (r: Fill)
    requires |visited| <= 50
    requires Frontiered(visited, queue, obstacles, n) && Admissible(visited, queue, seed, obstacles, n)
    ensures r.count == |r.visited| <= 50
    ensures visited <= r.visited
    ensures forall p :: p in queue ==> p in r.visited || |r.visited| == 50
    ensures forall p :: p in r.visited ==> p == seed || (InBounds(p, n) && p !in obstacles)
    ensures r.count < 50 ==> Frontiered(r.visited, [], obstacles, n)
    decreases 50 - |visited|, |queue|
  {
    if |queue| == 0 || |visited| >= 50 then Fill(|visited|, visited)
    else
      var pos := queue[0];
      if pos in visited then
        FloodFill(queue[1..], visited, seed, obstacles, n)
      else
        var seen := visited + {pos};
        var next := queue[1..] + Unvisited(Neighbors(pos, n), seen, obstacles);
        VisitKeepsFrontier(queue, visited, seed, obstacles, n);
        FloodFill(next, seen, seed, obstacles, n)
  }

  /**
   * Counting the queue front and queueing its unvisited free neighbours
   * keeps both fill invariants.
   */
  lemma VisitKeepsFrontier(queue: seq<Pos>, visited: set<Pos>, seed: Pos, obstacles: set<Pos>, n: int)
    requires |queue| > 0 && queue[0] !in visited
    requires Frontiered(visited, queue, obstacles, n) && Admissible(visited, queue, seed, obstacles, n)
    ensures var seen := visited + {queue[0]};
      var next := queue[1..] + Unvisited(Neighbors(queue[0], n), seen, obstacles);
      Frontiered(seen, next, obstacles, n) && Admissible(seen, next, seed, obstacles, n)
  {
    var pos := queue[0];
    var seen := visited + {pos};
    var next := queue[1..] + Unvisited(Neighbors(pos, n), seen, obstacles);
    forall v, w | v in seen && InBounds(w, n) && Adjacent(v, w) && w !in obstacles
      ensures w in seen || w in next
    {
      if v != pos && w !in seen {
        assert w in queue && w != queue[0];
        assert w in queue[1..];
      }
    }
  }

  /** `scoreOpenSpace`'s fill from the cell one step from `head` in direction `d`. */
  function OpenSpace(head: Pos, d: Direction, obstacles: set<Pos>, n: int): (r: Fill)
    ensures 1 <= r.count <= 50 && r.count == |r.visited|
    ensures Step(head, d) in r.visited
    ensures forall p :: p in r.visited ==> p == Step(head, d) || (InBounds(p, n) && p !in obstacles)
    ensures r.count < 50 ==> Frontiered(r.visited, [], obstacles, n)
  {
    FloodFill([Step(head, d)], {}, Step(head, d), obstacles, n)
  }

  /** The number of cells the flood fill counts, between 1 and 50. */
  function ScoreOpenSpace(head: Pos, d: Direction, obstacles: set<Pos>, n: int): (r: int)
    ensures 1 <= r <= 50
  {
    OpenSpace(head, d, obstacles, n).count
  }

  /**
   * A score below the cap means the fill ran out of cells: no path leads
   * from the cell entered to any cell the fill did not count.
   */
  lemma SmallOpenSpaceIsEnclosed(head: Pos, d: Direction, obstacles: set<Pos>, n: int, goal: Pos)
    requires ScoreOpenSpace(head, d, obstacles, n) < 50
    requires goal !in OpenSpace(head, d, obstacles, n).visited
    ensures FindPath(Step(head, d), goal, obstacles, n) == None
  {
    var fill := OpenSpace(head, d, obstacles, n);
    var region := iset p | p in fill.visited;
    forall p, q | p in region && InBounds(q, n) && Adjacent(p, q) && q !in obstacles
      ensures q in region
    {
      assert p in fill.visited;
    }
    NoPathOutOfRegion(Step(head, d), goal, obstacles, n, region);
  }

  /** A candidate move: not a reversal, onto the grid, and off every obstacle. */
  predicate Safe(head: Pos, current: Direction, obstacles: set<Pos>, n: int, d: Direction) {
    d != Opposite(current) && InBounds(Step(head, d), n) && Step(head, d) !in obstacles
  }

  /** The safe moves in the order UP, DOWN, LEFT, RIGHT. */
  function SafeMoves(head: Pos, current: Direction, obstacles: set<Pos>, n: int): (r: seq<Direction>)
    ensures forall d :: d in r <==> Safe(head, current, obstacles, n, d)
    ensures forall i, j :: 0 <= i < j < |r| ==> ScanIndex(r[i]) < ScanIndex(r[j])
  {
    ScanFilter(d => Safe(head, current, obstacles, n, d))
  }

  /** `findSafeMove`'s obstacles: the whole player body and the AI body without its head. */
  function SafeMoveObstacles(playerBody: seq<Pos>, aiBody: seq<Pos>): (s: set<Pos>)
    ensures forall p :: p in s <==> p in playerBody || exists i :: 1 <= i < |aiBody| && aiBody[i] == p
  {
    (set p | p in playerBody) + BodyTail(aiBody)
  }

  /**
   * `findSafeMove`: among the safe moves, the one with the most open space;
   * the stable descending sort keeps the earliest of equally scored moves.
   */
  function FindSafeMove(head: Pos, current: Direction, playerBody: seq<Pos>, aiBody: seq<Pos>, n: int): (r: Option<Direction>)
    ensures var obstacles := SafeMoveObstacles(playerBody, aiBody);
      && (r.None? <==> forall d :: !Safe(head, current, obstacles, n, d))
      && (r.Some? ==> Safe(head, current, obstacles, n, r.value))
      && (r.Some? ==> 1 <= ScoreOpenSpace(head, r.value, obstacles, n) <= 50)
      && (r.Some? ==> forall d :: Safe(head, current, obstacles, n, d) ==>
            ScoreOpenSpace(head, d, obstacles, n) <= ScoreOpenSpace(head, r.value, obstacles, n))
      && (r.Some? ==> forall d :: Safe(head, current, obstacles, n, d) && ScanIndex(d) < ScanIndex(r.value) ==>
            ScoreOpenSpace(head, d, obstacles, n) < ScoreOpenSpace(head, r.value, obstacles, n))
  {
    var obstacles := SafeMoveObstacles(playerBody, aiBody);
    var moves := SafeMoves(head, current, obstacles, n);
    if |moves| == 0 then None
    else Some(MostOpenMove(head, current, obstacles, n))
  }

  /** The first safe move in scan order whose open space no other safe move beats. */
  function MostOpenMove(head: Pos, current: Direction, obstacles: set<Pos>, n: int): (r: Direction)
    requires |SafeMoves(head, current, obstacles, n)| > 0
    ensures Safe(head, current, obstacles, n, r)
    ensures forall d :: Safe(head, current, obstacles, n, d) ==>
      ScoreOpenSpace(head, d, obstacles, n) <= ScoreOpenSpace(head, r, obstacles, n)
    ensures forall d :: Safe(head, current, obstacles, n, d) && ScanIndex(d) < ScanIndex(r) ==>
      ScoreOpenSpace(head, d, obstacles, n) < ScoreOpenSpace(head, r, obstacles, n)
  {
    var moves := SafeMoves(head, current, obstacles, n);
    var score := d => ScoreOpenSpace(head, d, obstacles, n);
    FirstArgMaxBeatsEarlier(moves, score, d => ScanIndex(d));
    FirstArgMax(moves, score)
  }
}

=== FILE: snake.dfy ===
/**
 * The snake entity: a head-first body, the active and the queued direction,
 * and the rules for moving, growing, turning and self-collision.
 */
module SnakeModel {
  import opened Common
  import opened Config
  import opened Grid

  datatype Snake = Snake(
    body: seq<Pos>,           // head first
    direction: Direction,     // direction of the last move
    nextDirection: Direction, // queued direction, applied by the next move
    alive: bool,
    hasMoved: bool)

  /** Consecutive segments are one unit step apart. */
  ghost predicate Connected(body: seq<Pos>) {
    forall i :: 0 <= i < |body| - 1 ==> Adjacent(body[i], body[i + 1])
  }

  /**
   * A fresh snake of INITIAL_LENGTH segments whose head is at (startX, startY)
   * and whose body trails away behind the head, opposite to `dir`.
   */
  function NewSnake(startX: int, startY: int, dir: Direction): (s: Snake)
    ensures |s.body| == INITIAL_LENGTH
    ensures s.body[0] == Pos(startX, startY)
    ensures forall i :: 0 <= i < |s.body| - 1 ==> s.body[i + 1] == Step(s.body[i], Opposite(dir))
    ensures Connected(s.body)
    ensures s.direction == dir && s.nextDirection == dir
    ensures s.alive && !s.hasMoved
  {
    var v := Vector(dir);
    var body := seq(INITIAL_LENGTH, i => Pos(startX - v.dx * i, startY - v.dy * i));
    Snake(body, dir, dir, true, false)
  }

  function Head(s: Snake): Pos
    requires |s.body| > 0
  {
    s.body[0]
  }

  function Tail(s: Snake): Pos
    requires |s.body| > 0
  {
    s.body[|s.body| - 1]
  }

  function Length(s: Snake): nat {
    |s.body|
  }

  /**
   * One step: the queued direction becomes active, a new head is pushed one
   * step ahead and the tail segment is dropped. A dead snake does not move.
   */
  function Move(s: Snake): (r: Snake)
    requires s.alive ==> |s.body| > 0
    ensures !s.alive ==> r == s
    ensures s.alive ==> && r.direction == s.nextDirection
                        && r.nextDirection == s.nextDirection
                        && |r.body| == |s.body|
                        && r.body[0] == Step(s.body[0], s.nextDirection)
                        && r.body[1..] == s.body[..|s.body| - 1]
                        && r.alive && r.hasMoved
  {
    if !s.alive then s
    else
      var newHead := Step(s.body[0], s.nextDirection);
      s.(direction := s.nextDirection,
         body := [newHead] + s.body[..|s.body| - 1],
         hasMoved := true)
  }

  /** Moving keeps the body connected. */
  lemma MovePreservesConnected(s: Snake)
    requires s.alive && |s.body| > 0 && Connected(s.body)
    ensures Connected(Move(s).body)
  {
    var r := Move(s).body;
    forall i | 0 <= i < |r| - 1
      ensures Adjacent(r[i], r[i + 1])
    {
      if i > 0 {
        assert r[i] == s.body[i - 1] && r[i + 1] == s.body[i];
      }
    }
  }

  /** `n` moves in a row. */
  function MoveN(s: Snake, n: nat): (r: Snake)
    requires s.alive ==> |s.body| > 0
    ensures r.alive == s.alive
    ensures s.alive ==> |r.body| == |s.body|
    decreases n
  {
    if n == 0 then s else MoveN(Move(s), n - 1)
  }

  /**
   * With `d` queued, n consecutive moves displace the head by exactly n
   * copies of d's vector.
   */
  lemma {:induction false} MovesDisplaceHead(s: Snake, d: Direction, n: nat)
    requires s.alive && |s.body| > 0 && s.nextDirection == d
    ensures MoveN(s, n).body[0] == Shift(s.body[0], d, n)
    ensures n > 0 ==> MoveN(s, n).direction == d
    decreases n
  {
    if n > 0 {
      var s' := Move(s);
      MovesDisplaceHead(s', d, n - 1);
    }
  }

  /**
   * Appends a copy of the tail; the copy is vacated by the next move, so the
   * snake is one segment longer after it. A dead snake does not grow.
   */
  function Grow(s: Snake): (r: Snake)
    requires s.alive ==> |s.body| > 0
    ensures !s.alive ==> r == s
    ensures s.alive ==> && |r.body| == |s.body| + 1
                        && r.body[..|s.body|] == s.body
                        && r.body[|s.body|] == s.body[|s.body| - 1]
                        && r.direction == s.direction
                        && r.nextDirection == s.nextDirection
                        && r.alive == s.alive && r.hasMoved == s.hasMoved
  {
    if !s.alive then s else s.(body := s.body + [s.body[|s.body| - 1]])
  }

  function GrowN(s: Snake, k: nat): (r: Snake)
    requires s.alive ==> |s.body| > 0
    ensures r.alive == s.alive
    decreases k
  {
    if k == 0 then s else GrowN(Grow(s), k - 1)
  }

  /** Growing k times adds exactly k segments, wherever the snake is. */
  lemma {:induction false} GrowNLength(s: Snake, k: nat)
    requires s.alive && |s.body| > 0
    ensures |GrowN(s, k).body| == |s.body| + k
    ensures GrowN(s, k).body[..|s.body|] == s.body
    decreases k
  {
    if k > 0 {
      var g := Grow(s);
      GrowNLength(g, k - 1);
      assert GrowN(s, k).body[..|g.body|] == g.body;
      assert g.body[..|s.body|] == s.body;
      assert GrowN(s, k).body[..|s.body|] == GrowN(s, k).body[..|g.body|][..|s.body|];
    }
  }

  /** Growing before a move leaves the old tail in place behind the moved body. */
  lemma GrowThenMoveKeepsTail(s: Snake)
    requires s.alive && |s.body| > 0
    ensures Move(Grow(s)).body == Move(s).body + [s.body[|s.body| - 1]]
  {
    var g := Grow(s);
    assert g.body[..|g.body| - 1] == s.body;
    assert s.body == s.body[..|s.body| - 1] + [s.body[|s.body| - 1]];
  }

  /**
   * Queues a direction change. Unknown names are ignored, and once the snake
   * has moved the exact reverse of the active direction is refused.
   */
  function SetDirection(s: Snake, name: string): (r: Snake)
    ensures !s.alive || FromName(name).None? ==> r == s
    ensures s.alive && s.hasMoved && FromName(name) == Some(Opposite(s.direction)) ==> r == s
    ensures r.body == s.body && r.direction == s.direction
    ensures r.alive == s.alive && r.hasMoved == s.hasMoved
    ensures s.alive && FromName(name).Some?
            && !(s.hasMoved && FromName(name).value == Opposite(s.direction))
            ==> r.nextDirection == FromName(name).value
  {
    if !s.alive then s
    else
      match FromName(name)
      case None => s
      case Some(d) =>
        if s.hasMoved && d == Opposite(s.direction) then s
        else s.(nextDirection := d)
  }

  /** Once the snake has moved, the queued direction never reverses the active one. */
  ghost predicate NoQueuedReversal(s: Snake) {
    s.hasMoved ==> s.nextDirection != Opposite(s.direction)
  }

  lemma SetDirectionKeepsNoReversal(s: Snake, name: string)
    requires NoQueuedReversal(s)
    ensures NoQueuedReversal(SetDirection(s, name))
  {
  }

  lemma MoveEstablishesNoReversal(s: Snake)
    requires s.alive ==> |s.body| > 0
    requires NoQueuedReversal(s)
    ensures NoQueuedReversal(Move(s))
  {
  }

  lemma GrowKeepsNoReversal(s: Snake)
    requires s.alive ==> |s.body| > 0
    requires NoQueuedReversal(s)
    ensures NoQueuedReversal(Grow(s))
  {
  }

  /**
   * After the first move, any sequence of direction requests followed by a
   * move never turns the snake around.
   */
  lemma {:induction false} NoReversalAfterRequests(s: Snake, names: seq<string>)
    requires s.alive && |s.body| > 0 && s.hasMoved && NoQueuedReversal(s)
    ensures Move(SetDirections(s, names)).direction != Opposite(s.direction)
  {
    SetDirectionsKeepInvariant(s, names);
  }

  function SetDirections(s: Snake, names: seq<string>): (r: Snake)
    ensures r.body == s.body && r.direction == s.direction
    ensures r.alive == s.alive && r.hasMoved == s.hasMoved
    decreases |names|
  {
    if |names| == 0 then s else SetDirections(SetDirection(s, names[0]), names[1..])
  }

  lemma {:induction false} SetDirectionsKeepInvariant(s: Snake, names: seq<string>)
    requires NoQueuedReversal(s)
    ensures NoQueuedReversal(SetDirections(s, names))
    decreases |names|
  {
    if |names| > 0 {
      SetDirectionKeepsNoReversal(s, names[0]);
      SetDirectionsKeepInvariant(SetDirection(s, names[0]), names[1..]);
    }
  }

  /** True when the head coincides with some body segment at index `i` or later. */
  function HeadHitsFrom(body: seq<Pos>, i: nat): (r: bool)
    requires 1 <= i && |body| > 0
    decreases |body| - i
    ensures r <==> exists j :: i <= j < |body| && body[j] == body[0]
  {
    if i >= |body| then false
    else if body[0] == body[i] then true
    else HeadHitsFrom(body, i + 1)
  }

  /** A live snake of length at least 2 collides with itself when its head lies on its body. */
  function CheckSelfCollision(s: Snake): (r: bool)
    ensures r <==> s.alive && |s.body| >= 2 && exists i :: 1 <= i < |s.body| && s.body[i] == s.body[0]
  {
    if !s.alive || |s.body| < 2 then false else HeadHitsFrom(s.body, 1)
  }

  function OccupiesPosition(s: Snake, x: int, y: int): (r: bool)
    ensures r <==> exists i :: 0 <= i < |s.body| && s.body[i] == Pos(x, y)
  {
    Pos(x, y) in s.body
  }

  /**
   * Back to the configured start: the player's initial cell and direction,
   * whatever the snake was constructed with.
   */
  function Reset(s: Snake): (r: Snake)
    ensures r == NewSnake(INITIAL_X, INITIAL_Y, INITIAL_DIRECTION)
    ensures r.body == [Pos(10, 10), Pos(9, 10), Pos(8, 10)]
  {
    Snake(seq(INITIAL_LENGTH, i => Pos(INITIAL_X - i, INITIAL_Y)), INITIAL_DIRECTION, INITIAL_DIRECTION, true, false)
  }

  /** Both configured starting snakes lie inside the grid. */
  lemma InitialSnakesInBounds()
    ensures forall i :: 0 <= i < INITIAL_LENGTH ==>
      InBounds(NewSnake(INITIAL_X, INITIAL_Y, INITIAL_DIRECTION).body[i], GRID_SIZE)
    ensures forall i :: 0 <= i < AI_INITIAL_LENGTH ==>
      InBounds(NewSnake(AI_INITIAL_X, AI_INITIAL_Y, AI_INITIAL_DIRECTION).body[i], GRID_SIZE)
  {
  }

  /**
   * Before its first move a snake may be turned around; the first move then
   * puts the head on its own second segment.
   */
  lemma ReverseBeforeFirstMoveBitesBody(any: Snake)
    ensures CheckSelfCollision(Move(SetDirection(Reset(any), "LEFT")))
  {
    var s := SetDirection(Reset(any), "LEFT");
    assert s.nextDirection == Left;
    var m := Move(s);
    assert m.body[0] == Pos(9, 10) && m.body[2] == Pos(9, 10);
  }
}

=== FILE: text.dfy ===
/**
 * The JavaScript string operations the response parsers use: `trim`
 * (ECMAScript white space and line terminators), ASCII `toUpperCase`, and
 * substring search (`includes`).
 */
module Text {

  /** ECMAScript WhiteSpace and LineTerminator code points, which `trim` removes. */
  predicate IsSpace(c: char) {
    || c == '\t' || c == '\n' || c == '\U{000B}' || c == '\U{000C}' || c == '\r' || c == ' '
    || c == '\U{00A0}' || c == '\U{1680}' || ('\U{2000}' <= c <= '\U{200A}')
    || c == '\U{2028}' || c == '\U{2029}' || c == '\U{202F}' || c == '\U{205F}'
    || c == '\U{3000}' || c == '\U{FEFF}'
  }

  predicate AllSpace(s: string) {
    forall i :: 0 <= i < |s| ==> IsSpace(s[i])
  }

  /** Positions lo .. hi - 1 of `s` all hold white space. */
  predicate SpaceBetween(s: string, lo: int, hi: int) {
    0 <= lo <= hi <= |s| && forall i :: lo <= i < hi ==> IsSpace(s[i])
  }

  /** The length of the white-space run at the start of `s`. */
  function LeadingSpaces(s: string): (k: nat)
    ensures k <= |s| && SpaceBetween(s, 0, k)
    ensures k < |s| ==> !IsSpace(s[k])
  {
    if |s| > 0 && IsSpace(s[0]) then
      var k := LeadingSpaces(s[1..]);
      assert forall i :: 1 <= i < k + 1 ==> s[i] == s[1..][i - 1];
      k + 1
    else 0
  }

  /** Where the white-space run at the end of `s` begins. */
  function TrailingStart(s: string): (k: nat)
    ensures k <= |s| && SpaceBetween(s, k, |s|)
    ensures k > 0 ==> !IsSpace(s[k - 1])
  {
    if |s| > 0 && IsSpace(s[|s| - 1]) then
      var k := TrailingStart(s[..|s| - 1]);
      assert forall i :: k <= i < |s| - 1 ==> s[i] == s[..|s| - 1][i];
      k
    else |s|
  }

  /** `String.prototype.trim`: drop the white space at both ends. */
  function Trim(s: string): (r: string)
    ensures |r| <= |s|
    ensures |r| > 0 ==> !IsSpace(r[0]) && !IsSpace(r[|r| - 1])
  {
    var t := s[LeadingSpaces(s)..];
    t[..TrailingStart(t)]
  }

  /** White space padding on either side of a text without white space at its ends is exactly what trimming removes. */
  lemma TrimStripsPadding(pre: string, s: string, post: string)
    requires AllSpace(pre) && AllSpace(post)
    requires |s| > 0 ==> !IsSpace(s[0]) && !IsSpace(s[|s| - 1])
    ensures Trim(pre + s + post) == s
  {
    var all := pre + s + post;
    var k := LeadingSpaces(all);
    assert forall i :: 0 <= i < |pre| ==> all[i] == pre[i];
    if |s| > 0 {
      assert all[|pre|] == s[0];
      assert k == |pre|;
      var t := all[k..];
      assert t == s + post;
      assert t[|s| - 1] == s[|s| - 1];
      assert forall i :: |s| <= i < |t| ==> t[i] == post[i - |s|];
      assert TrailingStart(t) == |s|;
    } else {
      assert forall i :: |pre| <= i < |all| ==> all[i] == post[i - |pre|];
      assert k == |all|;
    }
  }

  /** Trimming text without white space at its ends changes nothing. */
  lemma TrimKeepsInner(s: string)
    requires |s| > 0 ==> !IsSpace(s[0]) && !IsSpace(s[|s| - 1])
    ensures Trim(s) == s
  {
    TrimStripsPadding([], s, []);
    assert [] + s + [] == s;
  }

  function UpperChar(c: char): (u: char) {
    if 'a' <= c <= 'z' then (c as int - 32) as char else c
  }

  function LowerChar(c: char): (l: char) {
    if 'A' <= c <= 'Z' then (c as int + 32) as char else c
  }

  /** `toUpperCase` on the ASCII letters: a letter-by-letter map that keeps the length. */
  function ToUpper(s: string): (r: string)
    ensures |r| == |s| && forall i :: 0 <= i < |s| ==> r[i] == UpperChar(s[i])
  {
    if |s| == 0 then [] else [UpperChar(s[0])] + ToUpper(s[1..])
  }

  function ToLower(s: string): (r: string)
    ensures |r| == |s| && forall i :: 0 <= i < |s| ==> r[i] == LowerChar(s[i])
  {
    if |s| == 0 then [] else [LowerChar(s[0])] + ToLower(s[1..])
  }

  predicate IsUpper(s: string) {
    forall i :: 0 <= i < |s| ==> !('a' <= s[i] <= 'z')
  }

  /** Upper-casing is idempotent, undoes lower-casing, and leaves upper-case text alone. */
  lemma ToUpperFacts(s: string)
    ensures IsUpper(ToUpper(s))
    ensures ToUpper(ToLower(s)) == ToUpper(s)
    ensures IsUpper(s) ==> ToUpper(s) == s
  {
  }

  /** Case mapping keeps white space, so it commutes with trimming. */
  lemma UpperKeepsSpace(s: string)
    ensures AllSpace(s) ==> AllSpace(ToUpper(s)) && AllSpace(ToLower(s))
    ensures |s| > 0 ==> (IsSpace(UpperChar(s[0])) <==> IsSpace(s[0])) && (IsSpace(LowerChar(s[0])) <==> IsSpace(s[0]))
  {
  }

  /** `t` occurs in `s` starting at position `i`. */
  predicate OccursAt(s: string, t: string, i: int) {
    0 <= i && i + |t| <= |s| && s[i..i + |t|] == t
  }

  /** `s.includes(t)`: some window of `s` equals `t`. */
  function Contains(s: string, t: string): (r: bool)
    ensures r <==> exists i :: OccursAt(s, t, i)
    decreases |s|
  {
    if |t| > |s| then false
    else if s[..|t|] == t then
      assert OccursAt(s, t, 0);
      true
    else
      var r := Contains(s[1..], t);
      assert r ==> exists i :: OccursAt(s, t, i) by {
        if r {
          var i :| OccursAt(s[1..], t, i);
          assert OccursAt(s, t, i + 1);
        }
      }
      assert (exists i :: OccursAt(s, t, i)) ==> r by {
        if exists i :: OccursAt(s, t, i) {
          var i :| OccursAt(s, t, i);
          assert i != 0;
          assert OccursAt(s[1..], t, i - 1);
        }
      }
      r
  }
}
